=== FILE: README.md ===
# cargo-monorepo release orchestration, modelled in Dafny

This project models the `release` command of `cargo-monorepo`, a tool that
publishes every crate of a Cargo workspace in dependency order. The model
covers the following pieces:

- the workspace publish order: a depth-first post-order walk over the
  members, guarded by a visited set;
- the release context: optional fields filled in by the steps, with
  "not yet queried" accessors, the publish-candidate filter and the
  ordered candidate list;
- the configuration: its defaults and its cross-section validation rules;
- the step pipeline: which steps are built, and a fail-fast executor that
  threads the context through them;
- the individual steps: initialisation, artifact collection, changelog
  capture, version validation, `cargo publish` (validate and real), and
  the GitHub tag and release steps;
- `Repo` parsing and formatting, `shorten_commit`, and
  `run_and_capture_stdout`.

Everything is pure. A step takes the context and an `Env`, and returns a
`Run`. A `Run` holds the context as the step left it, the trace of
`Event`s the step caused, and a `Pass`/`Fail(error)` outcome. The `Env`
holds everything the program gets from outside: environment variables,
subprocess results, files, directory listings and GitHub API answers. It
also holds the opaque libraries as function-valued fields: Handlebars
rendering, `VersionReq::matches`, `Version::parse` and the upper-snake case
conversion. Publishing, sleeping and GitHub calls appear as trace events:
`Publish(path, dryRun)`, `Sleep(seconds)`, `CommitStatus`, `CreateRef`,
`CreateRelease` and `Upload`.

Modules follow the source files:

| module | file |
|---|---|
| `WorkspaceSort` | `cargo.rs` |
| `Context` | `release/context.rs` |
| `ConfigFile` | `config.rs` |
| `Repo` | the `Repo` part of `github.rs` |
| `Utils` | `utils.rs` |
| `StepInit` | `release/step/init.rs` |
| `StepArtifacts` | `release/step/artifacts.rs` |
| `StepChangelog` | `release/step/changelog.rs` |
| `StepVersion` | `release/step/version.rs` |
| `StepPublish` | `release/step/cargo.rs` |
| `StepGithub` | `release/step/github.rs` |
| `Pipeline` | `release/mod.rs` |

`Base`, `Text`, `Seqs`, `Semver`, `Metadata` and `Effects` hold shared
definitions:

- `Base`: `Option`, `Result`, `Outcome` and the closed set of errors;
- `Text`: Rust `str` operations;
- `Seqs`: order-preserving filtering and subsequences;
- `Semver`: versions as `(major, minor, patch)` with lexicographic order;
- `Metadata`: the `cargo metadata` records;
- `Effects`: `Env`, events, and the safety predicates over traces.

A Rust panic is modelled as an error whose name starts with `Panic`. There
are two: `dep_tree[pkg_id]` on a member without a resolve node, and
`shorten_commit` when the commit text is too short for its seven-byte slice.
Strings are sequences of characters, so that slice counts characters (see
"Left out").

Where the code and a plain "run every check" reading differ, the model
follows the code:

- version validation stops at the first failing check;
- the consistency check looks at in-workspace dependencies of every kind,
  dev-dependencies included;
- the tag step records the rendered tag before it checks for dry-run mode.

## Model

| member | source | states |
|---|---|---|
| WorkspaceSort.BuildDepTree | cargo-monorepo/src/cargo.rs:9-23 | The keys are exactly the workspace members that have a resolve node. Each key's list comes from the last node with that id. |
| WorkspaceSort.Visit | cargo-monorepo/src/cargo.rs:36-55 | `sort_workspace_inner`: the visited set only grows, and the visited id is in it afterwards, whether it was already visited (early return) or is visited now. |
| WorkspaceSort.VisitAll | cargo-monorepo/src/cargo.rs:47-52 | The loop over one dependency list skips ids outside the workspace. Afterwards every in-workspace dependency in the list has been visited. |
| WorkspaceSort.SortWorkspace | cargo-monorepo/src/cargo.rs:8-34 | No resolve gives an error before any ordering. A member without a resolve node makes the walk panic. Otherwise the output holds every member exactly once and nothing else. |
| WorkspaceSort.VisitGrows | cargo-monorepo/src/cargo.rs:36-55 | Visiting keeps the output as a prefix and appends each newly visited member once. An unvisited id ends up last, after all its in-workspace dependencies are visited. |
| WorkspaceSort.VisitAllGrows | cargo-monorepo/src/cargo.rs:47-52 | The dependency loop grows the walk the same way and visits every in-workspace dependency in the list. |
| WorkspaceSort.VisitOrdered | cargo-monorepo/src/cargo.rs:43-54 | Without a cycle, a visit emits the id, and every in-workspace dependency of an output entry comes before it. |
| WorkspaceSort.VisitAllOrdered | cargo-monorepo/src/cargo.rs:47-52 | Without a cycle, the dependency loop emits every listed member and keeps dependencies first. |
| WorkspaceSort.SortRespectsDependencies | cargo-monorepo/src/cargo.rs:8-55 | When the member graph has no cycle and the member at j depends on the member at i, then i < j. |
| WorkspaceSort.CycleIsSkipped | cargo-monorepo/src/cargo.rs:43-45 | With a two-member cycle the walk ends, emits both members once and reports no error. |
| WorkspaceSort.OrderSurvivesSubsequence | cargo-monorepo/src/release/context.rs:142-150 | Dropping entries from a dependency-respecting order leaves a dependency-respecting order. |
| Context.NewContext | cargo-monorepo/src/release/context.rs:28-44 | A new context keeps the mode flags and the configuration, and every other field is unset. |
| Context.RootCrateFromConfig | cargo-monorepo/src/release/context.rs:54-56 | `RootCrateName` is the configured `workspace.root_crate`. Contexts with the same configuration agree on it, so no step changes it. |
| Context.GithubConfig | cargo-monorepo/src/release/context.rs:58-63 | Succeeds exactly when the `github` section exists, with that section; otherwise the section-missing error. |
| Context.ReleaseConfig | cargo-monorepo/src/release/context.rs:65-70 | Succeeds exactly when the `release` section exists. |
| Context.ReleaseGithubConfig | cargo-monorepo/src/release/context.rs:72-77 | Succeeds exactly when both `release` and `release.github` exist. Both absences give the same release-section error. |
| Context.ArtifactsConfig | cargo-monorepo/src/release/context.rs:79-84 | Succeeds exactly when the `artifacts` section exists. |
| Context.ChangelogConfig | cargo-monorepo/src/release/context.rs:86-91 | Succeeds exactly when the `changelog` section exists. |
| Context.CurrentCommit | cargo-monorepo/src/release/context.rs:93-97 | Fails with "not queried" exactly while the current commit is unset. |
| Context.CargoMetadata | cargo-monorepo/src/release/context.rs:99-103 | Fails with "not queried" exactly while the metadata is unset. |
| Context.PendingVersion | cargo-monorepo/src/release/context.rs:155-159 | Fails with "not queried" exactly while the version is unset. |
| Context.Client | cargo-monorepo/src/release/context.rs:161-165 | Fails exactly while no GitHub client is stored. |
| Context.CollectedArtifacts | cargo-monorepo/src/release/context.rs:167-171 | Fails exactly while the artifact list is unset. An empty list is a success. |
| Context.GithubReleaseTag | cargo-monorepo/src/release/context.rs:197-201 | Fails exactly while no tag is recorded. |
| Context.SetGithubReleaseTag | cargo-monorepo/src/release/context.rs:193-195 | After setting tag t the tag accessor gives t, and putting the old tag back gives the original context. |
| Context.SetThenGetTag | cargo-monorepo/src/release/context.rs:193-201 | After setting tag t, reading the tag gives t, and no other field changed. |
| Context.SetGithubToken | cargo-monorepo/src/release/context.rs:183-191 | If the client cannot be built, nothing is stored and the error is returned. Otherwise both the token and the client are stored. |
| Context.TextTemplateValues | cargo-monorepo/src/release/context.rs:173-181 | Template values exist exactly when the version is set. They carry the root crate, the version and the changelog. |
| Context.MemberNames | cargo-monorepo/src/release/context.rs:107-116 | The names of the member packages, in package order: equal to the map of the member filter. |
| Context.WorkspacePackageNames | cargo-monorepo/src/release/context.rs:105-118 | Fails while the metadata is unset. Otherwise it is exactly the names of the member packages in `packages` order (the map of the member filter), so a name is listed iff some member package has it. |
| Context.PackagesToPublish | cargo-monorepo/src/release/context.rs:120-134 | Fails while the metadata is unset. Otherwise it keeps exactly the members whose `publish` is unset or non-empty, as a subsequence of the package list. |
| Context.FindById | cargo-monorepo/src/release/context.rs:143 | Finds the first candidate with the given id: no earlier candidate has that id. It finds none exactly when no candidate has that id. |
| Context.ProjectOnto | cargo-monorepo/src/release/context.rs:140-150 | The projected packages are candidates, and their ids are the sorted ids filtered to those with a candidate, in sorted order. |
| Context.OrderedPackagesToPublish | cargo-monorepo/src/release/context.rs:136-153 | Fails while the metadata is unset and whenever sorting fails. On success every entry is a publish candidate. The ids are exactly the sorted ids that belong to some candidate, in sorted order, so every candidate whose id is in the sorted order is published once. |
| Context.FreshContextQueriesFail | cargo-monorepo/src/release/context.rs:28-44 | On a fresh context every state accessor and every metadata-derived query fails with its "not yet queried" error. |
| Context.PublishFalseNeverPublished | cargo-monorepo/src/release/context.rs:126-130 | A package with `publish = false` is never a candidate and never in the ordered list. |
| Context.OrderedCandidatesRespectDependencies | cargo-monorepo/src/release/context.rs:136-153 | Without a member cycle, the ordered candidates put every candidate after the candidates it depends on. |
| ConfigFile.GithubReleaseFromToml | cargo-monorepo/src/config.rs:101-119 | Each of the eight keys given in `[release.github]` keeps its value, the release-page title and body templates included. |
| ConfigFile.ReleaseFromToml | cargo-monorepo/src/config.rs:89-99 | A key given in `[release]` keeps its value, `registry` is copied, and the github sub-table is present iff it was written. |
| ConfigFile.ChangelogFromToml | cargo-monorepo/src/config.rs:121-130 | The file and both marker templates are copied, and a given `allow_empty_changelog` keeps its value. |
| ConfigFile.ArtifactsFromToml | cargo-monorepo/src/config.rs:132-137 | The directory is copied, and a given `check_not_empty` keeps its value. |
| ConfigFile.DefaultsWhenOmitted | cargo-monorepo/src/config.rs:139-157 | Omitted keys take these values: version-raise check on, non-path dev-dependencies allowed, 30 s interval, commit-pushed check on, no tag, no release page, uploads on, the three default templates, check-not-empty on. |
| ConfigFile.ValidateRelease | cargo-monorepo/src/config.rs:21-57 | No release section passes. A custom registry with the version check on is the first error. All failures are among the four release rules. |
| ConfigFile.ValidateChangelog | cargo-monorepo/src/config.rs:59-68 | Fails iff a changelog section has exactly one of the two marker templates. |
| ConfigFile.Validate | cargo-monorepo/src/config.rs:70-74 | Passes iff every cross-section rule holds (`WellFormed`). The release rules' error comes first, then the changelog rule's. |
| Repo.Format | cargo-monorepo/src/github.rs:22-36 | Writes owner, one `/`, then name. |
| Repo.Parse | cargo-monorepo/src/github.rs:55-69 | Succeeds iff some `/` that is the first one has non-empty text on both sides. The owner is slash-free, and formatting the result gives the input back. Otherwise the error is "invalid repo name". |
| Repo.ParseFormat | cargo-monorepo/src/github.rs:131-144 | Round trip: a non-empty, slash-free owner and a non-empty name survive formatting then parsing. |
| Repo.ParseAccepts | cargo-monorepo/src/github.rs:95-104 | `user/repo` parses to owner `user`, name `repo`. |
| Repo.ParseRejectsExamples | cargo-monorepo/src/github.rs:105-128 | `failure`, `/`, `owner/` and `/name` are rejected. |
| Repo.FormatExample | cargo-monorepo/src/github.rs:137-141 | `owner`/`repo` formats as `owner/repo`. |
| Utils.RunAndCaptureStdout | cargo-monorepo/src/utils.rs:7-16 | Succeeds iff the command started, exited successfully and printed UTF-8, with that output. A failing status is an error whatever it printed. |
| Utils.ShortenCommit | cargo-monorepo/src/utils.rs:18-20 | Gives the first seven characters. Input shorter than seven panics. |
| Utils.ShortenCommitIdempotent | cargo-monorepo/src/utils.rs:18-20 | Shortening a short commit again changes nothing. |
| Text.Split | cargo-monorepo/src/release/step/version.rs:203-205 | `str::split` on one character: at least one piece, no piece holds the separator, and joining the pieces back gives the input. |
| Text.TrimPadded | cargo-monorepo/src/release/step/version.rs:205 | `str::trim` (`Text.Trim`): the result sits inside the input with only whitespace before and after it, and does not itself start or end with whitespace. |
| Text.Lines | cargo-monorepo/src/release/step/changelog.rs:48 | `str::lines`: no line holds a `\n`, and a text without line breaks is one line. |
| Text.LinesIsSplit | cargo-monorepo/src/release/step/changelog.rs:48 | For text without `\r`, the lines are the pieces of splitting at `\n`, minus the empty piece a final line ending leaves. |
| StepInit.RegistryTokenVariable | cargo-monorepo/src/release/step/init.rs:99-105 | No registry gives `CARGO_REGISTRY_TOKEN`. A registry gives `CARGO_REGISTRIES_<NAME>_TOKEN` around the upper-snake name. |
| StepInit.RegistryTokenVariableDistinct | cargo-monorepo/src/release/step/init.rs:102-105 | A custom registry's variable is never the default one, and the registry's upper-snake name can be read back out of it. |
| StepInit.AcquireTokens | cargo-monorepo/src/release/step/init.rs:14-25 | A missing registry variable fails and leaves the context unchanged. Otherwise the token is stored. The GitHub token is required, and stored with a client, exactly when a `github` section exists. |
| StepInit.ProcessGitState | cargo-monorepo/src/release/step/init.rs:27-37 | No git fails with git-missing. Otherwise it passes iff `rev-parse` succeeds, storing the trimmed output. A failure leaves the context unchanged. |
| StepInit.TrimIsInfix | cargo-monorepo/src/release/step/init.rs:132-134 | The stored commit has no surrounding whitespace and occurs in the command output. |
| StepInit.CurrentCommitTrimmed | cargo-monorepo/src/release/step/init.rs:129-135 | After a successful git step the current commit is the trimmed `rev-parse` output. |
| StepInit.RootIndex | cargo-monorepo/src/release/step/init.rs:43-46 | The index of the first package whose name is the root crate, and none exactly when no package has that name. |
| StepInit.ProcessMetadata | cargo-monorepo/src/release/step/init.rs:39-63 | Passes iff metadata is available and holds the root crate. It then stores the metadata and the root's version. A missing root crate names it and sets nothing. |
| StepInit.ExecuteInit | cargo-monorepo/src/release/step/init.rs:79-84 | Tokens, then git, then metadata. It passes iff all three pass, a token failure is the whole result, and nothing reaches the trace. |
| StepArtifacts.FilePaths | cargo-monorepo/src/release/step/artifacts.rs:37-47 | A path is kept iff some entry with that path is a file. The kept paths are in listing order. |
| StepArtifacts.ExecuteCollectArtifacts | cargo-monorepo/src/release/step/artifacts.rs:22-52 | The section, folder and listing errors come in source order. An empty raw listing fails only when `check_not_empty` is set. On success the file paths are stored, possibly none. |
| StepArtifacts.CollectedCount | cargo-monorepo/src/release/step/artifacts.rs:17-20 | After collecting, the reported count is the number of file entries, so a folder of directories reports 0. |
| StepArtifacts.CountBeforeCollection | cargo-monorepo/src/release/step/artifacts.rs:17-20 | The count is 0 while nothing is collected. |
| StepChangelog.ExtractBetweenMarkers | cargo-monorepo/src/release/step/changelog.rs:48-92 | Begin and end are the first lines containing the markers. There are five distinct errors: none found, begin missing, end missing, end not after begin, and empty without allow-empty. Otherwise the result splits back into exactly the lines strictly between them. |
| StepChangelog.ChangelogText | cargo-monorepo/src/release/step/changelog.rs:24-74 | Section, read and UTF-8 errors come first. Without a start marker the whole text is kept. With one, the end marker and the version are required. A marker template that does not render is an error. Once both render, the result is the section between them in the file's lines. |
| StepChangelog.ExecuteCaptureChangelog | cargo-monorepo/src/release/step/changelog.rs:24-101 | The changelog is stored exactly when capturing succeeds. A failure changes nothing. |
| StepChangelog.SectionBetween | cargo-monorepo/src/release/step/changelog.rs:72-74 | With both markers found and lines between them, the result is those lines joined by newlines. |
| StepChangelog.ExtractExample | cargo-monorepo/src/release/step/changelog.rs:50-74 | A second begin marker after the section is ignored, and the section is extracted. |
| StepVersion.CheckRegistryConsistency | cargo-monorepo/src/release/step/version.rs:89-121 | Fails iff some candidate restricts `publish` to registries that exclude the target (`crates-io` by default). The model's error carries exactly the names of the offending packages, which the source prints on its `❌` lines before it bails with a fixed message. |
| StepVersion.QuotedText | cargo-monorepo/src/release/step/version.rs:205 | The text after the first `"` up to the next `"` or the end, and none when there is no `"`. |
| StepVersion.QuotedTextIsSecondPiece | cargo-monorepo/src/release/step/version.rs:205 | That text is exactly the second piece of splitting at `"`. |
| StepVersion.SearchLine | cargo-monorepo/src/release/step/version.rs:200-204 | The first output line starting with `<name> = `, and none when no line does. |
| StepVersion.SearchVersionText | cargo-monorepo/src/release/step/version.rs:202-206 | A version text exists iff such a line exists and its trimmed form has a `"`. It is then the second piece of splitting the trimmed line at `"`, so it is quote-free and inside the line. |
| StepVersion.QueryLastReleasedVersion | cargo-monorepo/src/release/step/version.rs:195-213 | A failed `cargo search` is an error. No line or no quote gives "never published". A present but unparsable version is an error, not "never published". |
| StepVersion.CheckVersionRaised | cargo-monorepo/src/release/step/version.rs:19-41 | Only the previous version can change. A disabled check leaves it untouched. No earlier release records `Some(None)`. Otherwise it passes iff previous < pending, recording `Some(Some(prev))`. |
| StepVersion.CheckDevDependencies | cargo-monorepo/src/release/step/version.rs:43-87 | Skipped when non-path dev-dependencies are allowed. Otherwise it fails iff some candidate has a dev-dependency on a workspace package with a version requirement. The model's error carries exactly those candidates' names, which the source prints before its fixed error message. |
| StepVersion.CheckVersionConsistency | cargo-monorepo/src/release/step/version.rs:123-171 | Fails iff some candidate has another version, or a dependency of any kind on a workspace package that does not accept the pending version. The model's error carries exactly those candidates' names, which the source prints before its fixed error message. |
| StepVersion.ExecuteValidateVersion | cargo-monorepo/src/release/step/version.rs:184-192 | Needs the pending version. Registry, raise, dev and consistency checks run in that order and the first failure is the result. It passes iff all four pass. |
| StepVersion.ChecksIgnorePrevVersion | cargo-monorepo/src/release/step/version.rs:187-189 | Recording the previous version does not change the verdicts of the dev-dependency and consistency checks. |
| StepPublish.PublishArgs | cargo-monorepo/src/release/step/cargo.rs:104-120 | Always `publish --manifest-path <path>`, then `--registry <r>` iff a registry is set, then `--dry-run --no-verify` iff dry-run. |
| StepPublish.ParsePublishArgsInverse | cargo-monorepo/src/release/step/cargo.rs:110-120 | The argument list determines the path, registry and mode it was built from. |
| StepPublish.DryRunLoop | cargo-monorepo/src/release/step/cargo.rs:35-50 | The trace is a prefix of "every non-bin package, dry, in order". It passes iff every such publish succeeds, giving the full plan. A failure stops right after the failing publish. |
| StepPublish.DryPlanSkipsBins | cargo-monorepo/src/release/step/cargo.rs:36-44 | The dry plan validates every package without a `bin` target (`IsBin`), and only such packages. |
| StepPublish.RealLoop | cargo-monorepo/src/release/step/cargo.rs:52-68 | The trace is a prefix of the real plan. It passes iff every publish succeeds, giving the whole plan. A failure stops right after the failing publish, keeping the earlier ones. |
| StepPublish.RealPlan | cargo-monorepo/src/release/step/cargo.rs:52-66 | n packages give 2n - 1 events, and none give none. |
| StepPublish.RealPlanShape | cargo-monorepo/src/release/step/cargo.rs:54-63 | Even positions publish the packages for real in order, and odd positions are pauses of the configured length. |
| StepPublish.RealPlanSleeps | cargo-monorepo/src/release/step/cargo.rs:55-61 | n publishes come with n - 1 pauses, each of the configured length. |
| StepPublish.ExecutePublish | cargo-monorepo/src/release/step/cargo.rs:19-101 | A real publish in dry-run mode fails before anything. The context never changes. Dry or validate mode only does dry publishes. With the ordered candidates and a release section, the step passes iff every package the mode publishes succeeds (in dry mode, every non-bin one). A pass gives the whole dry or real plan. A failure is `PublishFailed`: the trace is a prefix of that plan ending at the failing publish, and every earlier publish succeeded. |
| StepPublish.DryPlanPublishesOnlyDry | cargo-monorepo/src/release/step/cargo.rs:35-50 | Every prefix of the dry plan is all dry publishes, so it changes nothing and publishes nothing for real. |
| StepGithub.CommitPushedStart | cargo-monorepo/src/release/step/github.rs:11-18 | Needs the github section, then the current commit. The message names the 7-character prefix. |
| StepGithub.ExecuteCommitPushed | cargo-monorepo/src/release/step/github.rs:24-33 | Never changes the context or the outside world. It passes iff section, commit and client exist and GitHub knows the commit. |
| StepGithub.RenderedTag | cargo-monorepo/src/release/step/github.rs:50-55 | The tag is the rendered tag template, and needs the version and the release github section. |
| StepGithub.ExecuteCreateTag | cargo-monorepo/src/release/step/github.rs:49-75 | The rendered tag is recorded even in dry-run mode. A dry run creates no reference. A real run creates exactly the one tag reference, and it passes iff that succeeds. |
| StepGithub.CreateReleaseStart | cargo-monorepo/src/release/step/github.rs:82-85 | Fails exactly when no tag is recorded. |
| StepGithub.UploadAll | cargo-monorepo/src/release/step/github.rs:136-140 | Uploads are a prefix of one upload per artifact, in order. It passes iff every upload succeeds. Otherwise the last traced upload failed and every earlier one succeeded, so nothing is uploaded after the first failure. |
| StepGithub.PrepareRelease | cargo-monorepo/src/release/step/github.rs:92-105 | Missing template values or release github config give their errors. A title or body template that fails to render gives `TemplateRenderFailed`. Otherwise the title and body are the renders of their templates over the template values, the repository is the configured one, and the tag is the recorded one. No tag gives an error. |
| StepGithub.ExecuteCreateRelease | cargo-monorepo/src/release/step/github.rs:91-144 | A failure to prepare the page (template values, config, renders, repository, tag) fails the step with that error and no events. A prepared dry run passes with no events. A real run without a client fails with `GithubClientMissing`. Creation comes first and only once, and uploads follow. Upload-on with nothing collected is an error. Upload-off or an empty list stops after creation. Otherwise the events after creation are the uploads, and the step passes iff every artifact uploads. |
| Pipeline.BuildSteps | cargo-monorepo/src/release/mod.rs:45-90 | Fails iff there is no release section. Otherwise a step kind is built iff its inclusion condition holds. |
| Pipeline.BuiltSteps | cargo-monorepo/src/release/mod.rs:47-85 | Init, version validation and publish validation are always built. Artifacts and changelog depend on their sections, the commit, tag and release steps on their flags, and the real publish on neither dry-run nor nopublish. |
| Pipeline.MembersOf | cargo-monorepo/src/release/mod.rs:47-85 | Spells out `Included`, the condition each `build_steps` branch tests, for any list that holds exactly the included kinds. |
| Pipeline.BuiltStepsInOrder | cargo-monorepo/src/release/mod.rs:45-85 | The built steps follow the fixed order of the source, beginning with Init. |
| Pipeline.RankIsPosition | cargo-monorepo/src/release/mod.rs:45-85 | `Rank` is each step's position in the fixed order in which `build_steps` pushes steps. |
| Pipeline.RealPublishStepOnlyWhenConfirmed | cargo-monorepo/src/release/mod.rs:61-63 | The real publish step is absent iff dry-run or nopublish is set. |
| Pipeline.StartMessage | cargo-monorepo/src/release/mod.rs:100 | Which steps' start messages fail and when: a missing section, a missing or too-short commit, a missing version or tag. |
| Pipeline.ExecuteStep | cargo-monorepo/src/release/mod.rs:101 | Every step keeps the mode and changes nothing outside in dry-run mode. Only the real publish step publishes for real. |
| Pipeline.InitSafe | cargo-monorepo/src/release/step/init.rs:79-84 | Initialisation is safe in that sense. |
| Pipeline.CollectArtifactsSafe | cargo-monorepo/src/release/step/artifacts.rs:22-52 | Artifact collection is safe. |
| Pipeline.CaptureChangelogSafe | cargo-monorepo/src/release/step/changelog.rs:24-101 | Changelog capture is safe. |
| Pipeline.CommitPushedSafe | cargo-monorepo/src/release/step/github.rs:24-33 | The commit check is safe. |
| Pipeline.ValidateVersionSafe | cargo-monorepo/src/release/step/version.rs:184-192 | Version validation is safe. |
| Pipeline.PublishSafe | cargo-monorepo/src/release/step/cargo.rs:90-101 | The validating publish never publishes for real, and no publish changes anything in dry-run mode. |
| Pipeline.CreateTagSafe | cargo-monorepo/src/release/step/github.rs:63-66 | The tag step creates nothing in dry-run mode. |
| Pipeline.CreateReleaseSafe | cargo-monorepo/src/release/step/github.rs:114-117 | The release step creates and uploads nothing in dry-run mode. |
| Pipeline.RunSteps | cargo-monorepo/src/release/mod.rs:99-103 | The empty list passes untouched. A failing start message stops before anything runs. The first step's events lead the trace. A pass means the first step was announced and passed. |
| Pipeline.StopsAtFirstFailure | cargo-monorepo/src/release/mod.rs:99-103 | Steps after a failure never run: appending steps to a failing list changes nothing. |
| Pipeline.ThreadsContext | cargo-monorepo/src/release/mod.rs:99-103 | After a successful prefix, the rest runs on the context the prefix left, and its events follow the prefix's. |
| Pipeline.RunStepsSafe | cargo-monorepo/src/release/mod.rs:99-103 | When every step keeps the mode, the run does too. A dry run of dry-safe steps changes nothing outside. Without the real publish step nothing is published for real. |
| Pipeline.ReleaseStepsSafe | cargo-monorepo/src/release/mod.rs:101 | The release's steps satisfy those three step-level conditions. |
| Pipeline.ExecuteRelease | cargo-monorepo/src/release/mod.rs:92-111 | No release section fails before any step with no events. Otherwise the built steps run fail-fast on a fresh context: the release's trace and final context are that run's. It passes iff every step passes and the pending version is then known. A failing step's error is the release's error, and a missing version after all steps gives the version error. |
| Pipeline.ReleaseKeepsMode | cargo-monorepo/src/release/mod.rs:92-111 | The mode flags and the configuration never change during a release. |
| Pipeline.DryReleaseChangesNothing | cargo-monorepo/src/release/mod.rs:92-111 | A dry-run release creates no tag, release or upload and publishes nothing for real. |
| Pipeline.NoPublishReleasePublishesNothing | cargo-monorepo/src/release/mod.rs:59-63 | A nopublish release never publishes for real. |
| Pipeline.SuccessfulReleaseInitialised | cargo-monorepo/src/release/mod.rs:99-103 | A successful release passed initialisation on the fresh context. |
| Pipeline.RunCommand | cargo-monorepo/src/release/mod.rs:115-126 | Dry-run mode is exactly "not confirmed". A dry run changes nothing outside, and nopublish publishes nothing for real. |

## Left out

- I/O is not modelled as I/O. Subprocesses (`cargo search`, `cargo publish`, `git --version`, `git rev-parse`), environment variables, `cargo metadata`, file and directory reads, and the GitHub API are results read from `Env`. Async execution and the real duration of `tokio::time::sleep` are left out; a pause is only a `Sleep(n)` event.
- `upload_github_release_asset` (URL building, file streaming) is one `Upload` event whose success comes from `Env`.
- `template.rs` (Handlebars), `VersionReq::matches`, `Version::parse` and `convert_case`'s upper-snake conversion are opaque functions in `Env`. Versions are `(major, minor, patch)` triples: pre-release and build ordering are not modelled.
- `main.rs` (reading and deserialising the TOML file, changing directory, exit codes) and `release/step/mod.rs` (re-exports only) are not part of this model. TOML parsing is replaced by the `*Toml` records with optional keys.
- Printed output is left out: log lines, emoji, `print_to_stdout` echoing and the text of start and success messages. Start messages are kept only for whether they fail. Success messages never fail in the source (the artifacts count is modelled by `StepArtifacts.CollectedCount`). The closing "released" line is kept only for its `version()` requirement.
- Errors are a closed enumeration, not `anyhow` chains. Messages and context strings are dropped, except the variable name of a missing registry token and the root crate name. The version checks' errors carry the names of the offending packages. The source does not put those names in its error, which is a fixed message. It prints them first, one `❌` line each, as `name vVersion` (cargo-monorepo/src/release/step/version.rs:216-218). The model keeps the name and drops the printed version.
- Pipeline.RunSteps: the executor is generic over an `announce` and an `execute` function. Safety is proved for any step functions that satisfy the step-level conditions, and then instantiated with the release's own steps.
- ConfigFile.ValidateRelease: its own contract pins only the first rule and the set of possible errors. The exact characterisation (passes iff all rules hold) is stated once, for `ConfigFile.Validate`.
- Utils.ShortenCommit: Rust's `&commit[0..7]` slices bytes. It panics on fewer than seven bytes, and also when byte 7 falls inside a multi-byte character. The model counts characters, so it panics only on fewer than seven characters and accepts, for example, seven `é`s. This makes no difference for the hexadecimal hashes `git rev-parse` prints.

=== FILE: base.dfy ===
/** Failure-compatible wrappers shared by every module of the release model,
    and the closed set of errors the release tool can report. */
module Base {

  datatype Option<+T> = None | Some(value: T) {
    function GetOr(default: T): T {
      match this
      case Some(v) => v
      case None => default
    }
  }

  /** Every failure the modelled code can produce. A `Panic*` variant stands
      for a Rust panic (the process aborts); all others are `anyhow` errors. */
  datatype Error =
    // configuration rules (config.rs)
    | CustomRegistryVersionCheck
    | ReleaseGithubNeedsGithub
    | UploadNeedsArtifacts
    | ReleasePageNeedsTag
    | ChangelogMarkersUnpaired
    // missing sections and "not yet queried" state (release/context.rs)
    | GithubSectionMissing
    | ReleaseSectionMissing
    | ArtifactsSectionMissing
    | ChangelogSectionMissing
    | CommitNotQueried
    | MetadataNotQueried
    | VersionNotQueried
    | GithubClientMissing
    | ArtifactsNotCollected
    | TagNotCreated
    // workspace ordering (cargo.rs)
    | ResolveMissing
    | PanicMissingResolveNode
    // subprocess helpers (utils.rs)
    | SpawnFailed
    | CommandFailed
    | StdoutNotUtf8
    | PanicShortCommit
    // repository names (github.rs)
    | InvalidRepoName
    // version validation (release/step/version.rs); the names are the offending packages
    // the source prints before failing with a fixed message
    | VersionUnparsable
    | RegistryInconsistency(packages: seq<string>)
    | VersionNotRaised
    | InvalidDevDependencies(packages: seq<string>)
    | VersionInconsistency(packages: seq<string>)
    // cargo publish (release/step/cargo.rs)
    | PublishInDryRun
    | PublishFailed
    // changelog capture (release/step/changelog.rs)
    | ChangelogUnreadable
    | ChangelogNotText
    | EndMarkerTemplateMissing
    | TemplateRenderFailed
    | EndMarkerBeforeBegin
    | ChangelogEmpty
    | BeginMarkerNotFound
    | EndMarkerNotFound
    | MarkersNotFound
    // GitHub steps (release/step/github.rs)
    | CommitNotPushed
    | CreateTagFailed
    | CreateReleaseFailed
    | UploadFailed
    // initialisation (release/step/init.rs)
    | RegistryTokenMissing(variable: string)
    | GithubTokenMissing
    | GithubClientBuildFailed
    | GitMissing
    | CurrentCommitFailed
    | MetadataQueryFailed
    | RootCrateNotFound(name: string)
    // artifact collection (release/step/artifacts.rs)
    | ArtifactsFolderMissing
    | ArtifactsReadFailed
    | ArtifactsFolderEmpty

  datatype Result<+T> = Ok(value: T) | Err(error: Error) {
    predicate IsFailure() {
      Err?
    }

    function PropagateFailure<U>(): Result<U>
      requires Err?
    {
      Err(error)
    }

    function Extract(): T
      requires Ok?
    {
      value
    }
  }

  /** The `anyhow::Result<()>` of the source. */
  datatype Outcome = Pass | Fail(error: Error) {
    predicate IsFailure() {
      Fail?
    }

    function PropagateFailure(): Outcome
      requires Fail?
    {
      this
    }
  }

  function Need(condition: bool, error: Error): (r: Outcome)
    ensures r.Pass? <==> condition
  {
    if condition then Pass else Fail(error)
  }
}

=== FILE: config.dfy ===
/** The `monorepo.toml` configuration: its sections, the defaults serde fills
    in for omitted keys, and the cross-section validation rules (config.rs). */
module ConfigFile {
  import opened Base
  import opened Repo

  /** A Handlebars template; rendering it is an external collaborator. */
  datatype TextTemplate = TextTemplate(source: string)

  datatype Workspace = Workspace(rootCrate: string)

  datatype GitHub = GitHub(repo: Repo)

  datatype GithubRelease = GithubRelease(
    checkCommitPushed: bool,
    createTag: bool,
    tagNameTemplate: TextTemplate,
    createReleasePage: bool,
    releasePageUploadArtifacts: bool,
    releasePageTitleTemplate: TextTemplate,
    releasePageBodyTemplate: TextTemplate,
    printToStdout: bool)

  datatype Release = Release(
    checkVersionRaised: bool,
    allowNonPathDevDependencies: bool,
    registry: Option<string>,
    publishIntervalSeconds: nat,
    github: Option<GithubRelease>)

  datatype Changelog = Changelog(
    file: string,
    startMarkerTemplate: Option<TextTemplate>,
    endMarkerTemplate: Option<TextTemplate>,
    printToStdout: bool,
    allowEmptyChangelog: bool)

  datatype Artifacts = Artifacts(directory: string, checkNotEmpty: bool)

  datatype Config = Config(
    workspace: Workspace,
    github: Option<GitHub>,
    changelog: Option<Changelog>,
    artifacts: Option<Artifacts>,
    release: Option<Release>)

  // ---------------------------------------------------------------------
  // Defaults for keys a section leaves out

  const DefaultPublishIntervalSeconds: nat := 30
  const DefaultTagNameTemplate := TextTemplate("v{{version}}")
  const DefaultReleasePageTitleTemplate := TextTemplate("{{root_crate}} v{{version}}")
  const DefaultReleasePageBodyTemplate := TextTemplate("{{changelog}}")

  /** A `[release.github]` table as written: every defaulted key may be absent. */
  datatype GithubReleaseToml = GithubReleaseToml(
    checkCommitPushed: Option<bool>,
    createTag: Option<bool>,
    tagNameTemplate: Option<TextTemplate>,
    createReleasePage: Option<bool>,
    releasePageUploadArtifacts: Option<bool>,
    releasePageTitleTemplate: Option<TextTemplate>,
    releasePageBodyTemplate: Option<TextTemplate>,
    printToStdout: Option<bool>)

  datatype ReleaseToml = ReleaseToml(
    checkVersionRaised: Option<bool>,
    allowNonPathDevDependencies: Option<bool>,
    registry: Option<string>,
    publishIntervalSeconds: Option<nat>,
    github: Option<GithubReleaseToml>)

  datatype ChangelogToml = ChangelogToml(
    file: string,
    startMarkerTemplate: Option<TextTemplate>,
    endMarkerTemplate: Option<TextTemplate>,
    printToStdout: Option<bool>,
    allowEmptyChangelog: Option<bool>)

  datatype ArtifactsToml = ArtifactsToml(directory: string, checkNotEmpty: Option<bool>)

  function GithubReleaseFromToml(t: GithubReleaseToml): (g: GithubRelease)
    ensures t.checkCommitPushed.Some? ==> g.checkCommitPushed == t.checkCommitPushed.value
    ensures t.createTag.Some? ==> g.createTag == t.createTag.value
    ensures t.createReleasePage.Some? ==> g.createReleasePage == t.createReleasePage.value
    ensures t.releasePageUploadArtifacts.Some? ==> g.releasePageUploadArtifacts == t.releasePageUploadArtifacts.value
    ensures t.printToStdout.Some? ==> g.printToStdout == t.printToStdout.value
    ensures t.tagNameTemplate.Some? ==> g.tagNameTemplate == t.tagNameTemplate.value
    ensures t.releasePageTitleTemplate.Some? ==> g.releasePageTitleTemplate == t.releasePageTitleTemplate.value
    ensures t.releasePageBodyTemplate.Some? ==> g.releasePageBodyTemplate == t.releasePageBodyTemplate.value
  {
    GithubRelease(
      t.checkCommitPushed.GetOr(true),
      t.createTag.GetOr(false),
      t.tagNameTemplate.GetOr(DefaultTagNameTemplate),
      t.createReleasePage.GetOr(false),
      t.releasePageUploadArtifacts.GetOr(true),
      t.releasePageTitleTemplate.GetOr(DefaultReleasePageTitleTemplate),
      t.releasePageBodyTemplate.GetOr(DefaultReleasePageBodyTemplate),
      t.printToStdout.GetOr(false))
  }

  function ReleaseFromToml(t: ReleaseToml): (r: Release)
    ensures t.checkVersionRaised.Some? ==> r.checkVersionRaised == t.checkVersionRaised.value
    ensures t.allowNonPathDevDependencies.Some? ==> r.allowNonPathDevDependencies == t.allowNonPathDevDependencies.value
    ensures t.publishIntervalSeconds.Some? ==> r.publishIntervalSeconds == t.publishIntervalSeconds.value
    ensures r.registry == t.registry
    ensures r.github.Some? <==> t.github.Some?
  {
    Release(
      t.checkVersionRaised.GetOr(true),
      t.allowNonPathDevDependencies.GetOr(true),
      t.registry,
      t.publishIntervalSeconds.GetOr(DefaultPublishIntervalSeconds),
      match t.github
      case None => None
      case Some(g) => Some(GithubReleaseFromToml(g)))
  }

  function ChangelogFromToml(t: ChangelogToml): (c: Changelog)
    ensures c.file == t.file
    ensures c.startMarkerTemplate == t.startMarkerTemplate && c.endMarkerTemplate == t.endMarkerTemplate
    ensures t.allowEmptyChangelog.Some? ==> c.allowEmptyChangelog == t.allowEmptyChangelog.value
  {
    Changelog(t.file, t.startMarkerTemplate, t.endMarkerTemplate,
              t.printToStdout.GetOr(false), t.allowEmptyChangelog.GetOr(false))
  }

  function ArtifactsFromToml(t: ArtifactsToml): (a: Artifacts)
    ensures a.directory == t.directory
    ensures t.checkNotEmpty.Some? ==> a.checkNotEmpty == t.checkNotEmpty.value
  {
    Artifacts(t.directory, t.checkNotEmpty.GetOr(true))
  }

  /** The values an omitted key takes. */
  lemma DefaultsWhenOmitted(dir: string, file: string)
    ensures var r := ReleaseFromToml(ReleaseToml(None, None, None, None, None));
      r.checkVersionRaised && r.allowNonPathDevDependencies && r.publishIntervalSeconds == 30
      && r.registry.None? && r.github.None?
    ensures var g := GithubReleaseFromToml(GithubReleaseToml(None, None, None, None, None, None, None, None));
      g.checkCommitPushed && !g.createTag && !g.createReleasePage && g.releasePageUploadArtifacts
      && !g.printToStdout && g.tagNameTemplate == TextTemplate("v{{version}}")
      && g.releasePageTitleTemplate == TextTemplate("{{root_crate}} v{{version}}")
      && g.releasePageBodyTemplate == TextTemplate("{{changelog}}")
    ensures var c := ChangelogFromToml(ChangelogToml(file, None, None, None, None));
      !c.printToStdout && !c.allowEmptyChangelog
    ensures ArtifactsFromToml(ArtifactsToml(dir, None)).checkNotEmpty
  {
  }

  // ---------------------------------------------------------------------
  // Validation

  /** The cross-section requirements a configuration must meet. */
  ghost predicate WellFormed(c: Config) {
    && (c.release.Some? ==>
          var r := c.release.value;
          && !(r.registry.Some? && r.checkVersionRaised)
          && (r.github.Some? ==>
                && c.github.Some?
                && (r.github.value.releasePageUploadArtifacts ==> c.artifacts.Some?)
                && (r.github.value.createReleasePage ==> r.github.value.createTag)))
    && (c.changelog.Some? ==>
          (c.changelog.value.startMarkerTemplate.Some? <==> c.changelog.value.endMarkerTemplate.Some?))
  }

  function ValidateRelease(c: Config): (r: Outcome)
    ensures c.release.None? ==> r == Pass
    ensures c.release.Some? && c.release.value.registry.Some? && c.release.value.checkVersionRaised
            ==> r == Fail(CustomRegistryVersionCheck)
    ensures r.Fail? ==> r.error in {CustomRegistryVersionCheck, ReleaseGithubNeedsGithub,
                                    UploadNeedsArtifacts, ReleasePageNeedsTag}
    ensures r.Fail? && r.error == UploadNeedsArtifacts ==> c.github.Some?
    ensures r.Fail? && r.error == ReleasePageNeedsTag ==> c.github.Some?
  {
    match c.release
    case None => Pass
    case Some(release) =>
      if release.registry.Some? && release.checkVersionRaised then Fail(CustomRegistryVersionCheck)
      else match release.github
        case None => Pass
        case Some(g) =>
          if c.github.None? then Fail(ReleaseGithubNeedsGithub)
          else if g.releasePageUploadArtifacts && c.artifacts.None? then Fail(UploadNeedsArtifacts)
          else if g.createReleasePage && !g.createTag then Fail(ReleasePageNeedsTag)
          else Pass
  }

  function ValidateChangelog(c: Config): (r: Outcome)
    ensures r.Fail? <==>
      (c.changelog.Some? &&
       (c.changelog.value.startMarkerTemplate.Some? != c.changelog.value.endMarkerTemplate.Some?))
    ensures r.Fail? ==> r.error == ChangelogMarkersUnpaired
  {
    match c.changelog
    case None => Pass
    case Some(ch) =>
      if ch.startMarkerTemplate.Some? != ch.endMarkerTemplate.Some? then Fail(ChangelogMarkersUnpaired)
      else Pass
  }

  /** `Config::validate`: the release rules first, then the changelog rule. */
  function Validate(c: Config): (r: Outcome)
    ensures r.Pass? <==> WellFormed(c)
    ensures ValidateRelease(c).Fail? ==> r == ValidateRelease(c)
    ensures ValidateRelease(c).Pass? ==> r == ValidateChangelog(c)
  {
    match ValidateRelease(c)
    case Fail(e) => Fail(e)
    case Pass => ValidateChangelog(c)
  }
}

=== FILE: context.dfy ===
/** The release state shared by all steps (release/context.rs): a record of
    optional fields that the steps fill in one after another, with accessors
    that fail loudly while a field has not been set yet. */
module Context {
  import opened Base
  import opened Seqs
  import opened Semver
  import opened Metadata
  import opened ConfigFile
  import opened WorkspaceSort

  /** An authenticated GitHub API client, built from a personal token. */
  datatype GithubClient = GithubClient(token: string)

  datatype ReleaseContext = ReleaseContext(
    dryRun: bool,
    nopublish: bool,
    config: Config,
    cratesIoToken: Option<string>,
    githubToken: Option<string>,
    currentCommit: Option<string>,
    metadata: Option<Metadata>,
    version: Option<Version>,
    prevVersion: Option<Option<Version>>,
    changelog: Option<string>,
    artifacts: Option<seq<string>>,
    githubReleaseTag: Option<string>,
    githubClient: Option<GithubClient>)

  /** `ReleaseContext::new`: only the mode flags and the configuration are known. */
  function NewContext(config: Config, dryRun: bool, nopublish: bool): (ctx: ReleaseContext)
    ensures ctx.dryRun == dryRun && ctx.nopublish == nopublish && ctx.config == config
    ensures ctx.cratesIoToken.None? && ctx.githubToken.None? && ctx.currentCommit.None?
    ensures ctx.metadata.None? && ctx.version.None? && ctx.prevVersion.None?
    ensures ctx.changelog.None? && ctx.artifacts.None?
    ensures ctx.githubReleaseTag.None? && ctx.githubClient.None?
  {
    ReleaseContext(dryRun, nopublish, config, None, None, None, None, None, None, None, None, None, None)
  }

  function RootCrateName(ctx: ReleaseContext): string {
    ctx.config.workspace.rootCrate
  }

  /** The root crate comes from the configuration alone: two contexts with the
      same configuration agree on it, whatever the steps have filled in. */
  lemma RootCrateFromConfig(ctx: ReleaseContext, ctx': ReleaseContext)
    requires ctx'.config == ctx.config
    ensures RootCrateName(ctx') == RootCrateName(ctx) == ctx.config.workspace.rootCrate
  {
  }

  // ---------------------------------------------------------------------
  // Configuration sections

  function GithubConfig(ctx: ReleaseContext): (r: Result<GitHub>)
    ensures r.Ok? <==> ctx.config.github.Some?
    ensures r.Ok? ==> r.value == ctx.config.github.value
    ensures r.Err? ==> r.error == GithubSectionMissing
  {
    match ctx.config.github
    case None => Err(GithubSectionMissing)
    case Some(g) => Ok(g)
  }

  function ReleaseConfig(ctx: ReleaseContext): (r: Result<Release>)
    ensures r.Ok? <==> ctx.config.release.Some?
    ensures r.Ok? ==> r.value == ctx.config.release.value
    ensures r.Err? ==> r.error == ReleaseSectionMissing
  {
    match ctx.config.release
    case None => Err(ReleaseSectionMissing)
    case Some(rel) => Ok(rel)
  }

  /** Both a missing `release` and a missing `release.github` are reported
      as a missing release section. */
  function ReleaseGithubConfig(ctx: ReleaseContext): (r: Result<GithubRelease>)
    ensures r.Ok? <==> ctx.config.release.Some? && ctx.config.release.value.github.Some?
    ensures r.Ok? ==> r.value == ctx.config.release.value.github.value
    ensures r.Err? ==> r.error == ReleaseSectionMissing
  {
    var rel :- ReleaseConfig(ctx);
    match rel.github
    case None => Err(ReleaseSectionMissing)
    case Some(g) => Ok(g)
  }

  function ArtifactsConfig(ctx: ReleaseContext): (r: Result<Artifacts>)
    ensures r.Ok? <==> ctx.config.artifacts.Some?
    ensures r.Ok? ==> r.value == ctx.config.artifacts.value
    ensures r.Err? ==> r.error == ArtifactsSectionMissing
  {
    match ctx.config.artifacts
    case None => Err(ArtifactsSectionMissing)
    case Some(a) => Ok(a)
  }

  function ChangelogConfig(ctx: ReleaseContext): (r: Result<Changelog>)
    ensures r.Ok? <==> ctx.config.changelog.Some?
    ensures r.Ok? ==> r.value == ctx.config.changelog.value
    ensures r.Err? ==> r.error == ChangelogSectionMissing
  {
    match ctx.config.changelog
    case None => Err(ChangelogSectionMissing)
    case Some(c) => Ok(c)
  }

  // ---------------------------------------------------------------------
  // State filled in by earlier steps

  function CurrentCommit(ctx: ReleaseContext): (r: Result<string>)
    ensures r.Ok? <==> ctx.currentCommit.Some?
    ensures r.Ok? ==> r.value == ctx.currentCommit.value
    ensures r.Err? ==> r.error == CommitNotQueried
  {
    match ctx.currentCommit
    case None => Err(CommitNotQueried)
    case Some(c) => Ok(c)
  }

  function CargoMetadata(ctx: ReleaseContext): (r: Result<Metadata>)
    ensures r.Ok? <==> ctx.metadata.Some?
    ensures r.Ok? ==> r.value == ctx.metadata.value
    ensures r.Err? ==> r.error == MetadataNotQueried
  {
    match ctx.metadata
    case None => Err(MetadataNotQueried)
    case Some(m) => Ok(m)
  }

  function PendingVersion(ctx: ReleaseContext): (r: Result<Version>)
    ensures r.Ok? <==> ctx.version.Some?
    ensures r.Ok? ==> r.value == ctx.version.value
    ensures r.Err? ==> r.error == VersionNotQueried
  {
    match ctx.version
    case None => Err(VersionNotQueried)
    case Some(v) => Ok(v)
  }

  function Client(ctx: ReleaseContext): (r: Result<GithubClient>)
    ensures r.Ok? <==> ctx.githubClient.Some?
    ensures r.Err? ==> r.error == GithubClientMissing
  {
    match ctx.githubClient
    case None => Err(GithubClientMissing)
    case Some(c) => Ok(c)
  }

  function CollectedArtifacts(ctx: ReleaseContext): (r: Result<seq<string>>)
    ensures r.Ok? <==> ctx.artifacts.Some?
    ensures r.Ok? ==> r.value == ctx.artifacts.value
    ensures r.Err? ==> r.error == ArtifactsNotCollected
  {
    match ctx.artifacts
    case None => Err(ArtifactsNotCollected)
    case Some(a) => Ok(a)
  }

  function GithubReleaseTag(ctx: ReleaseContext): (r: Result<string>)
    ensures r.Ok? <==> ctx.githubReleaseTag.Some?
    ensures r.Ok? ==> r.value == ctx.githubReleaseTag.value
    ensures r.Err? ==> r.error == TagNotCreated
  {
    match ctx.githubReleaseTag
    case None => Err(TagNotCreated)
    case Some(t) => Ok(t)
  }

  function SetGithubReleaseTag(ctx: ReleaseContext, tag: string): (ctx': ReleaseContext)
    ensures GithubReleaseTag(ctx') == Ok(tag)
    ensures ctx'.(githubReleaseTag := ctx.githubReleaseTag) == ctx
  {
    ctx.(githubReleaseTag := Some(tag))
  }

  /** Reading the tag back after setting it gives it; nothing else moved. */
  lemma SetThenGetTag(ctx: ReleaseContext, tag: string)
    ensures GithubReleaseTag(SetGithubReleaseTag(ctx, tag)) == Ok(tag)
    ensures SetGithubReleaseTag(ctx, tag).(githubReleaseTag := ctx.githubReleaseTag) == ctx
  {
  }

  /** `set_github_token`: builds the client first (which may fail) and only
      then stores the token and the client. */
  function SetGithubToken(ctx: ReleaseContext, token: string, clientBuilds: bool): (r: Result<ReleaseContext>)
    ensures r.Ok? <==> clientBuilds
    ensures r.Ok? ==> r.value == ctx.(githubToken := Some(token), githubClient := Some(GithubClient(token)))
    ensures r.Err? ==> r.error == GithubClientBuildFailed
  {
    if !clientBuilds then Err(GithubClientBuildFailed)
    else Ok(ctx.(githubToken := Some(token), githubClient := Some(GithubClient(token))))
  }

  /** What templates may refer to: `root_crate`, `version`, `changelog`. */
  datatype TemplateValues = TemplateValues(rootCrate: string, version: Version, changelog: Option<string>)

  function TextTemplateValues(ctx: ReleaseContext): (r: Result<TemplateValues>)
    ensures r.Ok? <==> ctx.version.Some?
    ensures r.Ok? ==> r.value == TemplateValues(RootCrateName(ctx), ctx.version.value, ctx.changelog)
    ensures r.Err? ==> r.error == VersionNotQueried
  {
    var v :- PendingVersion(ctx);
    Ok(TemplateValues(RootCrateName(ctx), v, ctx.changelog))
  }

  // ---------------------------------------------------------------------
  // Workspace queries

  predicate IsMember(meta: Metadata, p: Package) {
    p.id in meta.workspaceMembers
  }

  /** A publish candidate: a workspace member whose `publish` is unset or
      names at least one registry (`publish = false` is recorded as an
      empty list). */
  predicate IsPublishCandidate(meta: Metadata, p: Package) {
    IsMember(meta, p) && (p.publish.None? || |p.publish.value| > 0)
  }

  function MemberNames(meta: Metadata, packages: seq<Package>): (names: seq<string>)
    ensures names == Map(Filter(packages, p => IsMember(meta, p)), (p: Package) => p.name)
  {
    if |packages| == 0 then []
    else if IsMember(meta, packages[0]) then [packages[0].name] + MemberNames(meta, packages[1..])
    else MemberNames(meta, packages[1..])
  }

  /** `workspace_package_names`: member names in `metadata.packages` order. */
  function WorkspacePackageNames(ctx: ReleaseContext): (r: Result<seq<string>>)
    ensures r.Ok? <==> ctx.metadata.Some?
    ensures r.Err? ==> r.error == MetadataNotQueried
    ensures r.Ok? ==> r.value == MemberNames(ctx.metadata.value, ctx.metadata.value.packages)
    ensures r.Ok? ==> forall n :: n in r.value <==>
      exists p :: p in ctx.metadata.value.packages && IsMember(ctx.metadata.value, p) && p.name == n
  {
    var meta :- CargoMetadata(ctx);
    forall n ensures n in MemberNames(meta, meta.packages) <==>
      exists p :: p in meta.packages && IsMember(meta, p) && p.name == n
    {
      MemberNamesContain(meta, meta.packages, n);
    }
    Ok(MemberNames(meta, meta.packages))
  }

  lemma {:induction false} MemberNamesContain(meta: Metadata, packages: seq<Package>, n: string)
    ensures n in MemberNames(meta, packages) <==> exists p :: p in packages && IsMember(meta, p) && p.name == n
  {
    if |packages| > 0 {
      MemberNamesContain(meta, packages[1..], n);
      assert forall p :: p in packages <==> p == packages[0] || p in packages[1..];
    }
  }

  /** `packages_to_publish`: the candidates, in `metadata.packages` order. */
  function PackagesToPublish(ctx: ReleaseContext): (r: Result<seq<Package>>)
    ensures r.Ok? <==> ctx.metadata.Some?
    ensures r.Err? ==> r.error == MetadataNotQueried
    ensures r.Ok? ==> forall p :: p in r.value <==>
      p in ctx.metadata.value.packages && IsPublishCandidate(ctx.metadata.value, p)
    ensures r.Ok? ==> IsSubsequence(r.value, ctx.metadata.value.packages)
  {
    var meta :- CargoMetadata(ctx);
    FilterIsSubsequence(meta.packages, p => IsPublishCandidate(meta, p));
    Ok(Filter(meta.packages, p => IsPublishCandidate(meta, p)))
  }

  /** The first candidate with the given id (`Iterator::find`). */
  function FindById(candidates: seq<Package>, id: PackageId): (r: Option<Package>)
    ensures r.Some? ==> r.value in candidates && r.value.id == id
    ensures r.Some? ==> exists k :: 0 <= k < |candidates| && candidates[k] == r.value &&
                                   forall j :: 0 <= j < k ==> candidates[j].id != id
    ensures r.None? <==> forall p :: p in candidates ==> p.id != id
  {
    if |candidates| == 0 then None
    else if candidates[0].id == id then Some(candidates[0])
    else FindById(candidates[1..], id)
  }

  predicate HasCandidate(candidates: seq<Package>, id: PackageId) {
    exists p :: p in candidates && p.id == id
  }

  /** The test `ordered_packages_to_publish` applies to each sorted id. */
  function Candidate(candidates: seq<Package>): PackageId -> bool {
    id => HasCandidate(candidates, id)
  }

  function IdOf(p: Package): PackageId {
    p.id
  }

  /** For each sorted id in turn, the candidate with that id, if there is one. */
  function ProjectOnto(sorted: seq<PackageId>, candidates: seq<Package>): (r: seq<Package>)
    ensures forall p :: p in r ==> p in candidates
    ensures Map(r, IdOf) == Filter(sorted, Candidate(candidates))
  {
    if |sorted| == 0 then []
    else
      var rest := ProjectOnto(sorted[1..], candidates);
      match FindById(candidates, sorted[0])
      case None => rest
      case Some(p) => MapCons(p, rest, IdOf); [p] + rest
  }

  /** `ordered_packages_to_publish`: the workspace order restricted to the
      candidates, without reordering them. */
  function OrderedPackagesToPublish(ctx: ReleaseContext): (r: Result<seq<Package>>)
    ensures ctx.metadata.None? ==> r == Err(MetadataNotQueried)
    ensures ctx.metadata.Some? ==> (r.Ok? <==> SortWorkspace(ctx.metadata.value).Ok?)
    ensures ctx.metadata.Some? && r.Err? ==> r.error == SortWorkspace(ctx.metadata.value).error
    ensures r.Ok? ==> forall p :: p in r.value ==>
      p in ctx.metadata.value.packages && IsPublishCandidate(ctx.metadata.value, p)
    ensures r.Ok? ==>
      IsSubsequence(Map(r.value, IdOf), SortWorkspace(ctx.metadata.value).value)
    ensures r.Ok? ==>
      Map(r.value, IdOf) == Filter(SortWorkspace(ctx.metadata.value).value, Candidate(PackagesToPublish(ctx).value))
  {
    var meta :- CargoMetadata(ctx);
    var sorted :- SortWorkspace(meta);
    var candidates := PackagesToPublish(ctx).value;
    FilterIsSubsequence(sorted, Candidate(candidates));
    Ok(ProjectOnto(sorted, candidates))
  }

  // ---------------------------------------------------------------------
  // Properties

  /** A fresh context has nothing queried: every state accessor fails, and
      so does every metadata-derived query. */
  lemma FreshContextQueriesFail(config: Config, dryRun: bool, nopublish: bool)
    ensures var ctx := NewContext(config, dryRun, nopublish);
      && PendingVersion(ctx) == Err(VersionNotQueried)
      && CurrentCommit(ctx) == Err(CommitNotQueried)
      && CargoMetadata(ctx) == Err(MetadataNotQueried)
      && CollectedArtifacts(ctx) == Err(ArtifactsNotCollected)
      && GithubReleaseTag(ctx) == Err(TagNotCreated)
      && Client(ctx) == Err(GithubClientMissing)
      && WorkspacePackageNames(ctx) == Err(MetadataNotQueried)
      && PackagesToPublish(ctx) == Err(MetadataNotQueried)
      && OrderedPackagesToPublish(ctx) == Err(MetadataNotQueried)
  {
  }

  /** A package marked `publish = false` is never published, wherever it sits
      in the dependency order. */
  lemma PublishFalseNeverPublished(ctx: ReleaseContext, p: Package)
    requires p.publish == Some([])
    ensures PackagesToPublish(ctx).Ok? ==> p !in PackagesToPublish(ctx).value
    ensures OrderedPackagesToPublish(ctx).Ok? ==> p !in OrderedPackagesToPublish(ctx).value
  {
  }

  /** Filtering the workspace order down to candidates keeps it a valid
      publish order: without a cycle among the members, a candidate comes
      after every candidate it depends on. */
  lemma OrderedCandidatesRespectDependencies(ctx: ReleaseContext)
    requires OrderedPackagesToPublish(ctx).Ok?
    requires Acyclic(MemberTree(ctx.metadata.value))
    ensures var r := OrderedPackagesToPublish(ctx).value; var tree := MemberTree(ctx.metadata.value);
      forall i, j :: 0 <= i < |r| && 0 <= j < |r| && r[j].id in tree && r[i].id in tree[r[j].id] ==> i < j
  {
    var meta := ctx.metadata.value;
    var tree := MemberTree(meta);
    var r := OrderedPackagesToPublish(ctx).value;
    var sorted := SortWorkspace(meta).value;
    var ids := Map(r, IdOf);
    SortRespectsDependencies(meta);
    OrderSurvivesSubsequence(tree, ids, sorted);
    assert forall i :: 0 <= i < |r| ==> ids[i] == r[i].id;
  }
}

=== FILE: effects.dfy ===
/** The world the release steps act on. Everything the source obtains from
    a subprocess, the environment, the file system, the GitHub API or an
    opaque library is a field of `Env`; everything a step does to the world
    is an `Event` in the trace it returns. */
module Effects {
  import opened Base
  import opened Semver
  import opened Metadata
  import opened Repo
  import opened ConfigFile
  import opened Utils
  import opened Context

  /** A directory entry; `isFile` is false for directories and for entries
      whose metadata cannot be read. */
  datatype DirEntry = DirEntry(path: string, isFile: bool)

  /** Listing a directory either yields all entries or fails part-way. */
  datatype Listing = Listed(entries: seq<DirEntry>) | Unlistable

  /** The bytes of a file, given as text plus whether they were valid UTF-8. */
  datatype FileBytes = FileBytes(text: string, utf8: bool)

  datatype Env = Env(
    // environment variables
    vars: map<string, string>,
    // whether an authenticated GitHub client can be built
    githubClientBuilds: bool,
    // `git --version` and `git rev-parse --verify HEAD`
    gitVersion: ProcessOutcome,
    revParse: ProcessOutcome,
    // `cargo metadata`, `None` when it fails
    cargoMetadata: Option<Metadata>,
    // `cargo search <name>` for a crate name
    cargoSearch: string -> ProcessOutcome,
    // whether `cargo <args>` for a publish argument list exits successfully
    publishSucceeds: seq<string> -> bool,
    // readable files and listable directories, by path
    files: map<string, FileBytes>,
    folders: map<string, Listing>,
    // GitHub API outcomes
    commitOnGithub: (Repo, string) -> bool,
    createRefSucceeds: (Repo, string, string) -> bool,
    createReleaseSucceeds: (Repo, string, string, string) -> bool,
    uploadSucceeds: (Repo, string) -> bool,
    // opaque libraries: Handlebars rendering, `VersionReq::matches`,
    // `Version::parse` and the upper-snake case conversion
    render: (TextTemplate, TemplateValues) -> Option<string>,
    matches: (VersionReq, Version) -> bool,
    parseVersion: string -> Option<Version>,
    upperSnake: string -> string)

  /** What a step does to the world, in the order it does it. */
  datatype Event =
    | Publish(manifestPath: string, dryRun: bool)
    | Sleep(seconds: nat)
    | CommitStatus(repo: Repo, commit: string)
    | CreateRef(repo: Repo, tag: string, commit: string)
    | CreateRelease(repo: Repo, tag: string, title: string, body: string)
    | Upload(repo: Repo, artifact: string)

  /** The events that change something outside the machine: a real
      publish, a new tag, a new release or an uploaded asset. */
  predicate Mutates(e: Event) {
    (e.Publish? && !e.dryRun) || e.CreateRef? || e.CreateRelease? || e.Upload?
  }

  predicate NoMutation(trace: seq<Event>) {
    forall k :: 0 <= k < |trace| ==> !Mutates(trace[k])
  }

  predicate NoRealPublish(trace: seq<Event>) {
    forall k :: 0 <= k < |trace| ==> !(trace[k].Publish? && !trace[k].dryRun)
  }

  /** The result of running (part of) a step: the context as the step left
      it, what it did, and whether it succeeded. A failing step keeps the
      context mutations it made before failing. */
  datatype Run = Run(ctx: ReleaseContext, trace: seq<Event>, outcome: Outcome)

  /** A step never changes the mode flags or the configuration. */
  predicate SameMode(ctx: ReleaseContext, ctx': ReleaseContext) {
    ctx'.dryRun == ctx.dryRun && ctx'.nopublish == ctx.nopublish && ctx'.config == ctx.config
  }

  lemma NoMutationAppend(a: seq<Event>, b: seq<Event>)
    requires NoMutation(a) && NoMutation(b)
    ensures NoMutation(a + b)
  {
    assert forall k :: 0 <= k < |a + b| ==> (a + b)[k] == if k < |a| then a[k] else b[k - |a|];
  }

  lemma NoRealPublishAppend(a: seq<Event>, b: seq<Event>)
    requires NoRealPublish(a) && NoRealPublish(b)
    ensures NoRealPublish(a + b)
  {
    assert forall k :: 0 <= k < |a + b| ==> (a + b)[k] == if k < |a| then a[k] else b[k - |a|];
  }
}

=== FILE: metadata.dfy ===
/** The parts of `cargo metadata` output the release tool reads. */
module Metadata {
  import opened Base
  import opened Semver

  type PackageId = string

  datatype DependencyKind = Normal | Development | Build | Unknown

  datatype Dependency = Dependency(name: string, kind: DependencyKind, req: VersionReq)

  /** A build target; `kind` holds entries such as "lib" or "bin". */
  datatype Target = Target(kind: seq<string>)

  /** `publish`: `None` means any registry; `Some(list)` restricts publishing
      to the listed registries, and `Some([])` is `publish = false`. */
  datatype Package = Package(
    id: PackageId,
    name: string,
    version: Version,
    dependencies: seq<Dependency>,
    publish: Option<seq<string>>,
    targets: seq<Target>,
    manifestPath: string)

  /** A node of the resolved dependency graph: a package and the ids it depends on. */
  datatype Node = Node(id: PackageId, dependencies: seq<PackageId>)

  datatype Metadata = Metadata(
    packages: seq<Package>,
    workspaceMembers: seq<PackageId>,
    resolve: Option<seq<Node>>)
}

=== FILE: pipeline.dfy ===
/** The release executor (release/mod.rs): the list of steps the
    configuration asks for, run one after the other, each announced by its
    start message, stopping at the first failure. */
module Pipeline {
  import opened Base
  import opened Seqs
  import opened ConfigFile
  import opened Context
  import opened Effects
  import StepInit
  import StepArtifacts
  import StepChangelog
  import StepGithub
  import StepVersion
  import StepPublish

  datatype StepKind =
    | Init
    | CollectArtifacts
    | CaptureChangelog
    | ValidateCommitPushed
    | ValidateVersion
    | ValidatePublish
    | CargoPublish
    | CreateTag
    | CreateGithubRelease

  /** A step's position in the fixed order. */
  function Rank(k: StepKind): nat {
    match k
    case Init => 0
    case CollectArtifacts => 1
    case CaptureChangelog => 2
    case ValidateCommitPushed => 3
    case ValidateVersion => 4
    case ValidatePublish => 5
    case CargoPublish => 6
    case CreateTag => 7
    case CreateGithubRelease => 8
  }

  /** Whether `build_steps` adds the step for this context. */
  predicate Included(k: StepKind, ctx: ReleaseContext, release: Release) {
    match k
    case Init => true
    case CollectArtifacts => ctx.config.artifacts.Some?
    case CaptureChangelog => ctx.config.changelog.Some?
    case ValidateCommitPushed => release.github.Some? && release.github.value.checkCommitPushed
    case ValidateVersion => true
    case ValidatePublish => true
    case CargoPublish => !(ctx.dryRun || ctx.nopublish)
    case CreateTag => release.github.Some? && release.github.value.createTag
    case CreateGithubRelease => release.github.Some? && release.github.value.createReleasePage
  }

  /** `build_steps`: each step under its own condition, in the fixed order;
      without a release section nothing is built. */
  function BuildSteps(ctx: ReleaseContext): (r: Result<seq<StepKind>>)
    ensures r.Err? <==> ctx.config.release.None?
    ensures r.Err? ==> r.error == ReleaseSectionMissing
    ensures r.Ok? ==>
      var steps := r.value;
      forall k :: k in steps <==> Included(k, ctx, ctx.config.release.value)
  {
    var release :- ReleaseConfig(ctx);
    var steps := Filter(AllSteps, k => Included(k, ctx, release));
    EveryStepListed();
    Ok(steps)
  }

  /** Which steps are built, kind by kind. */
  lemma BuiltSteps(ctx: ReleaseContext)
    requires ctx.config.release.Some?
    ensures BuildSteps(ctx).Ok?
    ensures var steps := BuildSteps(ctx).value;
      var github := ctx.config.release.value.github;
      && Init in steps && ValidateVersion in steps && ValidatePublish in steps
      && (CollectArtifacts in steps <==> ctx.config.artifacts.Some?)
      && (CaptureChangelog in steps <==> ctx.config.changelog.Some?)
      && (ValidateCommitPushed in steps <==> github.Some? && github.value.checkCommitPushed)
      && (CargoPublish in steps <==> !ctx.dryRun && !ctx.nopublish)
      && (CreateTag in steps <==> github.Some? && github.value.createTag)
      && (CreateGithubRelease in steps <==> github.Some? && github.value.createReleasePage)
  {
    MembersOf(BuildSteps(ctx).value, ctx, ctx.config.release.value);
  }

  lemma MembersOf(steps: seq<StepKind>, ctx: ReleaseContext, release: Release)
    requires forall k :: k in steps <==> Included(k, ctx, release)
    ensures
      var github := release.github;
      && Init in steps && ValidateVersion in steps && ValidatePublish in steps
      && (CollectArtifacts in steps <==> ctx.config.artifacts.Some?)
      && (CaptureChangelog in steps <==> ctx.config.changelog.Some?)
      && (ValidateCommitPushed in steps <==> github.Some? && github.value.checkCommitPushed)
      && (CargoPublish in steps <==> !ctx.dryRun && !ctx.nopublish)
      && (CreateTag in steps <==> github.Some? && github.value.createTag)
      && (CreateGithubRelease in steps <==> github.Some? && github.value.createReleasePage)
  {
  }

  const AllSteps: seq<StepKind> := [
    Init, CollectArtifacts, CaptureChangelog, ValidateCommitPushed, ValidateVersion,
    ValidatePublish, CargoPublish, CreateTag, CreateGithubRelease]

  lemma EveryStepListed()
    ensures forall k :: k in AllSteps
  {
    forall k ensures k in AllSteps {
      assert AllSteps[Rank(k)] == k;
    }
  }

  /** Strictly increasing in rank: the fixed order, each step at most once. */
  predicate Ranked(steps: seq<StepKind>) {
    forall i, j :: 0 <= i < j < |steps| ==> Rank(steps[i]) < Rank(steps[j])
  }

  /** A subsequence of the fixed order is ranked. */
  lemma OrderedByRank(steps: seq<StepKind>)
    requires IsSubsequence(steps, AllSteps)
    ensures Ranked(steps)
  {
    forall i, j | 0 <= i < j < |steps| ensures Rank(steps[i]) < Rank(steps[j]) {
      SubsequenceKeepsOrder(steps, AllSteps, i, j);
      var i', j' :| 0 <= i' < j' < |AllSteps| && AllSteps[i'] == steps[i] && AllSteps[j'] == steps[j];
      RankIsPosition(i');
      RankIsPosition(j');
    }
  }

  lemma RankIsPosition(k: nat)
    requires k < |AllSteps|
    ensures Rank(AllSteps[k]) == k
  {
  }

  /** The built steps always follow the fixed order, each at most once, and
      `Init` comes first. */
  lemma BuiltStepsInOrder(ctx: ReleaseContext)
    requires BuildSteps(ctx).Ok?
    ensures Ranked(BuildSteps(ctx).value)
    ensures BuildSteps(ctx).value[0] == Init
  {
    var release := ctx.config.release.value;
    var steps := BuildSteps(ctx).value;
    FilterIsSubsequence(AllSteps, k => Included(k, ctx, release));
    OrderedByRank(steps);
    MembersOf(steps, ctx, release);
    var k :| 0 <= k < |steps| && steps[k] == Init;
    if k > 0 {
      assert Rank(steps[0]) < Rank(steps[k]);
    }
  }

  /** A dry or no-publish run never gets the real publish step; a confirmed
      run without no-publish always does. */
  lemma RealPublishStepOnlyWhenConfirmed(ctx: ReleaseContext)
    requires BuildSteps(ctx).Ok?
    ensures (ctx.dryRun || ctx.nopublish) <==> CargoPublish !in BuildSteps(ctx).value
  {
    BuiltSteps(ctx);
  }

  /** The start message of each step, reduced to whether it can be built. */
  function StartMessage(k: StepKind, ctx: ReleaseContext): (r: Outcome)
    ensures k == CollectArtifacts ==> (r.Pass? <==> ctx.config.artifacts.Some?)
    ensures k == CaptureChangelog ==> (r.Pass? <==> ctx.config.changelog.Some?)
    ensures k == ValidateCommitPushed ==>
      (r.Pass? <==> ctx.config.github.Some? && ctx.currentCommit.Some? && |ctx.currentCommit.value| >= 7)
    ensures k == CreateTag ==> (r.Pass? <==> ctx.version.Some?)
    ensures k == CreateGithubRelease ==> (r.Pass? <==> ctx.githubReleaseTag.Some?)
    ensures k in {Init, ValidateVersion, ValidatePublish, CargoPublish} ==> r == Pass
  {
    match k
    case CollectArtifacts => FromResult(ArtifactsConfig(ctx))
    case CaptureChangelog => FromResult(ChangelogConfig(ctx))
    case ValidateCommitPushed => FromResult(StepGithub.CommitPushedStart(ctx))
    case CreateTag => FromResult(PendingVersion(ctx))
    case CreateGithubRelease => StepGithub.CreateReleaseStart(ctx)
    case _ => Pass
  }

  function FromResult<T>(r: Result<T>): (o: Outcome)
    ensures o.Pass? <==> r.Ok?
    ensures o.Fail? ==> o.error == r.error
  {
    match r
    case Ok(_) => Pass
    case Err(e) => Fail(e)
  }

  /** What every step promises: it keeps the mode, changes nothing outside
      in a dry run, and publishes for real only when it is allowed to. */
  predicate StepSafe(ctx: ReleaseContext, run: Run, mayPublish: bool) {
    && SameMode(ctx, run.ctx)
    && (ctx.dryRun ==> NoMutation(run.trace))
    && (!mayPublish ==> NoRealPublish(run.trace))
  }

  lemma InitSafe(ctx: ReleaseContext, env: Env)
    ensures StepSafe(ctx, StepInit.ExecuteInit(ctx, env), false)
  {
  }

  lemma CollectArtifactsSafe(ctx: ReleaseContext, env: Env)
    ensures StepSafe(ctx, StepArtifacts.ExecuteCollectArtifacts(ctx, env), false)
  {
  }

  lemma CaptureChangelogSafe(ctx: ReleaseContext, env: Env)
    ensures StepSafe(ctx, StepChangelog.ExecuteCaptureChangelog(ctx, env), false)
  {
  }

  lemma CommitPushedSafe(ctx: ReleaseContext, env: Env)
    ensures StepSafe(ctx, StepGithub.ExecuteCommitPushed(ctx, env), false)
  {
  }

  lemma ValidateVersionSafe(ctx: ReleaseContext, env: Env)
    ensures StepSafe(ctx, StepVersion.ExecuteValidateVersion(ctx, env), false)
  {
  }

  lemma PublishSafe(validate: bool, ctx: ReleaseContext, env: Env)
    ensures StepSafe(ctx, StepPublish.ExecutePublish(validate, ctx, env), !validate)
  {
  }

  lemma CreateTagSafe(ctx: ReleaseContext, env: Env)
    ensures StepSafe(ctx, StepGithub.ExecuteCreateTag(ctx, env), false)
  {
  }

  lemma CreateReleaseSafe(ctx: ReleaseContext, env: Env)
    ensures StepSafe(ctx, StepGithub.ExecuteCreateRelease(ctx, env), false)
  {
  }

  /** One step's `execute`, dispatched on its kind. */
  function ExecuteStep(k: StepKind, ctx: ReleaseContext, env: Env): (run: Run)
    ensures StepSafe(ctx, run, k == CargoPublish)
  {
    match k
    case Init => InitSafe(ctx, env); StepInit.ExecuteInit(ctx, env)
    case CollectArtifacts => CollectArtifactsSafe(ctx, env); StepArtifacts.ExecuteCollectArtifacts(ctx, env)
    case CaptureChangelog => CaptureChangelogSafe(ctx, env); StepChangelog.ExecuteCaptureChangelog(ctx, env)
    case ValidateCommitPushed => CommitPushedSafe(ctx, env); StepGithub.ExecuteCommitPushed(ctx, env)
    case ValidateVersion => ValidateVersionSafe(ctx, env); StepVersion.ExecuteValidateVersion(ctx, env)
    case ValidatePublish => PublishSafe(true, ctx, env); StepPublish.ExecutePublish(true, ctx, env)
    case CargoPublish => PublishSafe(false, ctx, env); StepPublish.ExecutePublish(false, ctx, env)
    case CreateTag => CreateTagSafe(ctx, env); StepGithub.ExecuteCreateTag(ctx, env)
    case CreateGithubRelease => CreateReleaseSafe(ctx, env); StepGithub.ExecuteCreateRelease(ctx, env)
  }

  /** The two things the executor asks of a step: its start message, which
      may fail, and its `execute`. */
  type Announce = (StepKind, ReleaseContext) -> Outcome
  type Execute = (StepKind, ReleaseContext) -> Run

  /** The executor loop: announce, execute, go on with the updated context;
      the first failure ends the run and keeps the context as it was left. */
  function RunSteps(steps: seq<StepKind>, ctx: ReleaseContext, announce: Announce, execute: Execute): (run: Run)
    ensures |steps| == 0 ==> run == Run(ctx, [], Pass)
    ensures |steps| > 0 && announce(steps[0], ctx).Fail? ==> run.trace == [] && run.outcome.Fail?
    ensures |steps| > 0 && announce(steps[0], ctx).Pass? ==> execute(steps[0], ctx).trace <= run.trace
    ensures |steps| > 0 && run.outcome.Pass? ==>
      announce(steps[0], ctx).Pass? && execute(steps[0], ctx).outcome.Pass?
    decreases |steps|
  {
    if |steps| == 0 then Run(ctx, [], Pass)
    else match announce(steps[0], ctx)
      case Fail(e) => Run(ctx, [], Fail(e))
      case Pass =>
        var first := execute(steps[0], ctx);
        if first.outcome.Fail? then first
        else
          var rest := RunSteps(steps[1..], first.ctx, announce, execute);
          Run(rest.ctx, first.trace + rest.trace, rest.outcome)
  }

  /** Steps after a failure never run: appending more steps to a failing
      list changes nothing. */
  lemma {:induction false} StopsAtFirstFailure(a: seq<StepKind>, b: seq<StepKind>, ctx: ReleaseContext,
                                               announce: Announce, execute: Execute)
    requires RunSteps(a, ctx, announce, execute).outcome.Fail?
    ensures RunSteps(a + b, ctx, announce, execute) == RunSteps(a, ctx, announce, execute)
    decreases |a|
  {
    assert (a + b)[0] == a[0];
    assert (a + b)[1..] == a[1..] + b;
    if announce(a[0], ctx).Pass? {
      var first := execute(a[0], ctx);
      if first.outcome.Pass? {
        StopsAtFirstFailure(a[1..], b, first.ctx, announce, execute);
      }
    }
  }

  /** After a successful prefix, the rest runs on the context the prefix
      left and its events follow the prefix's. */
  lemma {:induction false} ThreadsContext(a: seq<StepKind>, b: seq<StepKind>, ctx: ReleaseContext,
                                          announce: Announce, execute: Execute)
    requires RunSteps(a, ctx, announce, execute).outcome.Pass?
    ensures var first := RunSteps(a, ctx, announce, execute);
      var rest := RunSteps(b, first.ctx, announce, execute);
      RunSteps(a + b, ctx, announce, execute) == Run(rest.ctx, first.trace + rest.trace, rest.outcome)
    decreases |a|
  {
    if |a| == 0 {
      assert a + b == b;
    } else {
      assert (a + b)[0] == a[0];
      assert (a + b)[1..] == a[1..] + b;
      var first := execute(a[0], ctx);
      ThreadsContext(a[1..], b, first.ctx, announce, execute);
      var restA := RunSteps(a[1..], first.ctx, announce, execute);
      var restB := RunSteps(b, restA.ctx, announce, execute);
      assert first.trace + (restA.trace + restB.trace) == (first.trace + restA.trace) + restB.trace;
    }
  }

  ghost predicate KeepsMode(execute: Execute) {
    forall k: StepKind, c: ReleaseContext :: SameMode(c, execute(k, c).ctx)
  }

  ghost predicate NothingChangedWhenDry(execute: Execute) {
    forall k: StepKind, c: ReleaseContext :: c.dryRun ==> NoMutation(execute(k, c).trace)
  }

  ghost predicate OnlyRealPublishIn(execute: Execute, kind: StepKind) {
    forall k: StepKind, c: ReleaseContext :: k != kind ==> NoRealPublish(execute(k, c).trace)
  }

  /** What holds for every step holds for the run: the mode is kept, a dry
      run changes nothing outside, and without the real publish step nothing
      is published for real. */
  lemma {:induction false} RunStepsSafe(steps: seq<StepKind>, ctx: ReleaseContext, announce: Announce, execute: Execute)
    requires KeepsMode(execute)
    ensures SameMode(ctx, RunSteps(steps, ctx, announce, execute).ctx)
    ensures NothingChangedWhenDry(execute) && ctx.dryRun ==>
      NoMutation(RunSteps(steps, ctx, announce, execute).trace)
    ensures OnlyRealPublishIn(execute, CargoPublish) && CargoPublish !in steps ==>
      NoRealPublish(RunSteps(steps, ctx, announce, execute).trace)
    decreases |steps|
  {
    if |steps| > 0 && announce(steps[0], ctx).Pass? {
      var first := execute(steps[0], ctx);
      if first.outcome.Pass? {
        RunStepsSafe(steps[1..], first.ctx, announce, execute);
        var rest := RunSteps(steps[1..], first.ctx, announce, execute);
        assert CargoPublish !in steps ==> CargoPublish !in steps[1..];
        SafeAppend(first.trace, rest.trace);
      }
    }
  }

  /** Joining two traces keeps what both of them avoid. */
  lemma SafeAppend(a: seq<Event>, b: seq<Event>)
    ensures NoMutation(a) && NoMutation(b) ==> NoMutation(a + b)
    ensures NoRealPublish(a) && NoRealPublish(b) ==> NoRealPublish(a + b)
  {
    if NoMutation(a) && NoMutation(b) {
      NoMutationAppend(a, b);
    }
    if NoRealPublish(a) && NoRealPublish(b) {
      NoRealPublishAppend(a, b);
    }
  }

  /** The release's own steps, as the executor sees them. */
  function ReleaseSteps(env: Env): Execute {
    (k, c) => ExecuteStep(k, c, env)
  }

  /** Each of the release's steps keeps the mode, changes nothing outside in
      a dry run, and only the real publish step publishes for real. */
  lemma ReleaseStepsSafe(env: Env)
    ensures KeepsMode(ReleaseSteps(env))
    ensures NothingChangedWhenDry(ReleaseSteps(env))
    ensures OnlyRealPublishIn(ReleaseSteps(env), CargoPublish)
  {
  }

  /** `ReleaseExecutor::execute`: build the steps from a fresh context, run
      them, and finally require the pending version for the closing message. */
  function ExecuteRelease(config: Config, dryRun: bool, nopublish: bool, env: Env): (run: Run)
    ensures config.release.None? ==>
      run == Run(NewContext(config, dryRun, nopublish), [], Fail(ReleaseSectionMissing))
    ensures run.outcome.Pass? ==> run.ctx.version.Some?
    ensures config.release.Some? ==>
      var ctx := NewContext(config, dryRun, nopublish);
      && BuildSteps(ctx).Ok?
      && var steps := RunSteps(BuildSteps(ctx).value, ctx, StartMessage, ReleaseSteps(env));
         && run.trace == steps.trace && run.ctx == steps.ctx
         && (run.outcome.Pass? <==> steps.outcome.Pass? && steps.ctx.version.Some?)
         && (steps.outcome.Fail? ==> run.outcome == steps.outcome)
         && (steps.outcome.Pass? && steps.ctx.version.None? ==> run.outcome == Fail(PendingVersion(steps.ctx).error))
  {
    var ctx := NewContext(config, dryRun, nopublish);
    match BuildSteps(ctx)
    case Err(e) => Run(ctx, [], Fail(e))
    case Ok(steps) =>
      var run := RunSteps(steps, ctx, StartMessage, ReleaseSteps(env));
      if run.outcome.Fail? then run
      else match PendingVersion(run.ctx)
        case Err(e) => Run(run.ctx, run.trace, Fail(e))
        case Ok(_) => run
  }

  /** A release keeps its mode and configuration from start to end. */
  lemma ReleaseKeepsMode(config: Config, dryRun: bool, nopublish: bool, env: Env)
    ensures var run := ExecuteRelease(config, dryRun, nopublish, env);
      run.ctx.dryRun == dryRun && run.ctx.nopublish == nopublish && run.ctx.config == config
  {
    var ctx := NewContext(config, dryRun, nopublish);
    if BuildSteps(ctx).Ok? {
      ReleaseStepsSafe(env);
      RunStepsSafe(BuildSteps(ctx).value, ctx, StartMessage, ReleaseSteps(env));
    }
  }

  /** A dry run changes nothing outside. */
  lemma DryReleaseChangesNothing(config: Config, dryRun: bool, nopublish: bool, env: Env)
    ensures dryRun ==> NoMutation(ExecuteRelease(config, dryRun, nopublish, env).trace)
  {
    var ctx := NewContext(config, dryRun, nopublish);
    if BuildSteps(ctx).Ok? {
      ReleaseStepsSafe(env);
      RunStepsSafe(BuildSteps(ctx).value, ctx, StartMessage, ReleaseSteps(env));
    }
  }

  /** With `--nopublish` nothing is published for real. */
  lemma NoPublishReleasePublishesNothing(config: Config, dryRun: bool, nopublish: bool, env: Env)
    ensures nopublish ==> NoRealPublish(ExecuteRelease(config, dryRun, nopublish, env).trace)
  {
    var ctx := NewContext(config, dryRun, nopublish);
    if BuildSteps(ctx).Ok? {
      BuiltSteps(ctx);
      ReleaseStepsSafe(env);
      RunStepsSafe(BuildSteps(ctx).value, ctx, StartMessage, ReleaseSteps(env));
    }
  }

  /** A release that succeeds began with a successful `Init`: tokens, commit
      and metadata were all obtained. */
  lemma SuccessfulReleaseInitialised(config: Config, dryRun: bool, nopublish: bool, env: Env)
    requires ExecuteRelease(config, dryRun, nopublish, env).outcome.Pass?
    ensures StepInit.ExecuteInit(NewContext(config, dryRun, nopublish), env).outcome.Pass?
  {
    var ctx := NewContext(config, dryRun, nopublish);
    BuiltStepsInOrder(ctx);
  }

  /** `Command::run`: dry-run mode is exactly the absence of `--confirm`, so
      an unconfirmed release changes nothing outside. */
  function RunCommand(confirm: bool, nopublish: bool, config: Config, env: Env): (run: Run)
    ensures run.ctx.dryRun == !confirm && run.ctx.nopublish == nopublish
    ensures !confirm ==> NoMutation(run.trace)
    ensures nopublish ==> NoRealPublish(run.trace)
  {
    ReleaseKeepsMode(config, !confirm, nopublish, env);
    DryReleaseChangesNothing(config, !confirm, nopublish, env);
    NoPublishReleasePublishesNothing(config, !confirm, nopublish, env);
    ExecuteRelease(config, !confirm, nopublish, env)
  }
}

=== FILE: repo.dfy ===
/** GitHub repository names in the `owner/name` form (github.rs). */
module Repo {
  import opened Base
  import opened Text

  datatype Repo = Repo(owner: string, name: string)

  /** `Display` and `Serialize` both write `owner/name`. */
  function Format(r: Repo): (s: string)
    ensures |s| == |r.owner| + 1 + |r.name|
    ensures s[|r.owner|] == '/'
    ensures s[..|r.owner|] == r.owner && s[|r.owner| + 1..] == r.name
  {
    r.owner + "/" + r.name
  }

  /** `FromStr`: split at the first `/`; both halves must be non-empty. The
      owner never holds a `/`, the name may. */
  function Parse(s: string): (r: Result<Repo>)
    ensures r.Ok? <==> exists i :: 0 < i < |s| - 1 && s[i] == '/' && '/' !in s[..i]
    ensures r.Ok? ==> r.value.owner != "" && r.value.name != "" && '/' !in r.value.owner
    ensures r.Ok? ==> Format(r.value) == s
    ensures r.Err? ==> r.error == InvalidRepoName
  {
    var parts := SplitOnce(s, '/');
    if |parts| != 2 || parts[0] == "" || parts[1] == "" then
      ParseRejects(s);
      Err(InvalidRepoName)
    else
      var i := |parts[0]|;
      assert s[..i] == parts[0] && s[i] == '/';
      Ok(Repo(parts[0], parts[1]))
  }

  /** Helper: when splitting at the first slash leaves an empty side (or there
      is no slash), no position qualifies as a valid separator. */
  lemma ParseRejects(s: string)
    requires var parts := SplitOnce(s, '/'); |parts| != 2 || parts[0] == "" || parts[1] == ""
    ensures !exists i :: 0 < i < |s| - 1 && s[i] == '/' && '/' !in s[..i]
  {
    var parts := SplitOnce(s, '/');
    if i :| 0 < i < |s| - 1 && s[i] == '/' && '/' !in s[..i] {
    }
  }

  /** Round trip one way: a well-formed repository survives formatting and parsing. */
  lemma {:induction false} ParseFormat(r: Repo)
    requires r.owner != "" && r.name != "" && '/' !in r.owner
    ensures Parse(Format(r)) == Ok(r)
  {
    var s := Format(r);
    var i := |r.owner|;
    assert s[..i] == r.owner;
    assert 0 < i < |s| - 1 && s[i] == '/' && '/' !in s[..i];
  }

  /** The examples the repository's own tests check. */
  lemma ParseAccepts()
    ensures Parse("user/repo") == Ok(Repo("user", "repo"))
  {
    var r := Repo("user", "repo");
    assert Format(r) == "user/repo";
    ParseFormat(r);
  }

  lemma FormatExample()
    ensures Format(Repo("owner", "repo")) == "owner/repo"
  {
  }

  lemma ParseRejectsExamples()
    ensures Parse("failure").Err? && Parse("/").Err?
    ensures Parse("owner/").Err? && Parse("/name").Err?
  {
    assert '/' !in "failure";
    assert "owner/"[5] == '/' && '/' !in "owner/"[..5];
    assert "/name"[0] == '/';
  }
}

=== FILE: semver.dfy ===
/** Semantic versions reduced to their `major.minor.patch` core, ordered
    lexicographically, and version requirements kept abstract. */
module Semver {

  datatype Version = Version(major: nat, minor: nat, patch: nat)

  /** `a < b` in semantic-version precedence (pre-release and build metadata
      are not modelled). */
  predicate Less(a: Version, b: Version) {
    || a.major < b.major
    || (a.major == b.major && a.minor < b.minor)
    || (a.major == b.major && a.minor == b.minor && a.patch < b.patch)
  }

  predicate LessEq(a: Version, b: Version) {
    a == b || Less(a, b)
  }

  /** The order is total and strict: exactly one of `a < b`, `a == b`, `b < a`. */
  lemma Trichotomy(a: Version, b: Version)
    ensures Less(a, b) || a == b || Less(b, a)
    ensures !(Less(a, b) && Less(b, a))
    ensures !Less(a, a)
  {
  }

  lemma LessTransitive(a: Version, b: Version, c: Version)
    requires Less(a, b) && Less(b, c)
    ensures Less(a, c)
  {
  }

  /** One comparator of a requirement such as `^1.2` or `=1.2.0`; its meaning
      is left to the `matches` predicate the model is given. */
  datatype Comparator = Comparator(text: string)

  /** A dependency's version requirement. An empty comparator list is what
      cargo records for a dependency declared with a path and no version. */
  datatype VersionReq = VersionReq(comparators: seq<Comparator>)
}

=== FILE: seqs.dfy ===
/** Order-preserving filtering and the sequence relations used to state it. */
module Seqs {
  import opened Base

  /** `a` can be obtained from `b` by deleting elements, so `a` keeps the
      relative order `b` gives its elements. */
  ghost predicate IsSubsequence<T>(a: seq<T>, b: seq<T>)
    decreases |b|
  {
    if |a| == 0 then true
    else if |b| == 0 then false
    else (a[0] == b[0] && IsSubsequence(a[1..], b[1..])) || IsSubsequence(a, b[1..])
  }

  ghost predicate Distinct<T>(s: seq<T>) {
    forall i, j :: 0 <= i < j < |s| ==> s[i] != s[j]
  }

  /** The elements of `xs` for which `keep` holds, in their order in `xs`. */
  function Filter<T(!new)>(xs: seq<T>, keep: T -> bool): (r: seq<T>)
    ensures forall x :: x in r <==> x in xs && keep(x)
    ensures |r| <= |xs|
  {
    if |xs| == 0 then []
    else if keep(xs[0]) then [xs[0]] + Filter(xs[1..], keep)
    else Filter(xs[1..], keep)
  }

  function Map<T, U>(xs: seq<T>, f: T -> U): (r: seq<U>)
    ensures |r| == |xs|
    ensures forall i :: 0 <= i < |xs| ==> r[i] == f(xs[i])
  {
    seq(|xs|, i requires 0 <= i < |xs| => f(xs[i]))
  }

  lemma MapCons<T, U>(x: T, xs: seq<T>, f: T -> U)
    ensures Map([x] + xs, f) == [f(x)] + Map(xs, f)
  {
    assert forall i :: 0 < i < |xs| + 1 ==> ([x] + xs)[i] == xs[i - 1];
  }

  /** The position of the first element satisfying `p` (`Iterator::position`). */
  function FirstIndex<T>(xs: seq<T>, p: T -> bool): (r: Option<nat>)
    ensures r.None? <==> forall k :: 0 <= k < |xs| ==> !p(xs[k])
    ensures r.Some? ==> r.value < |xs| && p(xs[r.value])
    ensures r.Some? ==> forall k :: 0 <= k < r.value ==> !p(xs[k])
  {
    if |xs| == 0 then None
    else if p(xs[0]) then Some(0)
    else match FirstIndex(xs[1..], p)
      case None => None
      case Some(i) => Some(i + 1)
  }

  /** `FirstIndex` is pinned down by its contract. */
  lemma FirstIndexIs<T>(xs: seq<T>, p: T -> bool, k: nat)
    requires k < |xs| && p(xs[k])
    requires forall j :: 0 <= j < k ==> !p(xs[j])
    ensures FirstIndex(xs, p) == Some(k)
  {
    var r := FirstIndex(xs, p);
    assert r.Some? ==> r.value >= k;
  }

  lemma {:induction false} FilterIsSubsequence<T(!new)>(xs: seq<T>, keep: T -> bool)
    ensures IsSubsequence(Filter(xs, keep), xs)
    decreases |xs|
  {
    if |xs| > 0 {
      FilterIsSubsequence(xs[1..], keep);
      if !keep(xs[0]) {
        SubsequenceOfTail(Filter(xs[1..], keep), xs);
      }
    }
  }

  lemma {:induction false} SubsequenceOfTail<T>(a: seq<T>, b: seq<T>)
    requires |b| > 0 && IsSubsequence(a, b[1..])
    ensures IsSubsequence(a, b)
  {
  }

  /** A subsequence never reorders: two elements that occur in order in the
      subsequence occur in the same order in the original. */
  lemma {:induction false} SubsequenceKeepsOrder<T>(a: seq<T>, b: seq<T>, i: nat, j: nat)
    requires IsSubsequence(a, b)
    requires i < j < |a|
    ensures exists i', j' :: 0 <= i' < j' < |b| && b[i'] == a[i] && b[j'] == a[j]
    decreases |b|
  {
    assert |b| > 0;
    if a[0] == b[0] && IsSubsequence(a[1..], b[1..]) {
      if i == 0 {
        SubsequenceContains(a[1..], b[1..], j - 1);
        var j' :| 0 <= j' < |b[1..]| && b[1..][j'] == a[1..][j - 1];
        assert b[0] == a[i] && b[j' + 1] == a[j];
      } else {
        SubsequenceKeepsOrder(a[1..], b[1..], i - 1, j - 1);
        var i', j' :| 0 <= i' < j' < |b[1..]| && b[1..][i'] == a[1..][i - 1] && b[1..][j'] == a[1..][j - 1];
        assert b[i' + 1] == a[i] && b[j' + 1] == a[j];
      }
    } else {
      SubsequenceKeepsOrder(a, b[1..], i, j);
      var i', j' :| 0 <= i' < j' < |b[1..]| && b[1..][i'] == a[i] && b[1..][j'] == a[j];
      assert b[i' + 1] == a[i] && b[j' + 1] == a[j];
    }
  }

  lemma {:induction false} SubsequenceContains<T>(a: seq<T>, b: seq<T>, k: nat)
    requires IsSubsequence(a, b)
    requires k < |a|
    ensures exists k' :: 0 <= k' < |b| && b[k'] == a[k]
    decreases |b|
  {
    if a[0] == b[0] && IsSubsequence(a[1..], b[1..]) {
      if k > 0 {
        SubsequenceContains(a[1..], b[1..], k - 1);
        var k' :| 0 <= k' < |b[1..]| && b[1..][k'] == a[1..][k - 1];
        assert b[k' + 1] == a[k];
      } else {
        assert b[0] == a[k];
      }
    } else {
      SubsequenceContains(a, b[1..], k);
      var k' :| 0 <= k' < |b[1..]| && b[1..][k'] == a[k];
      assert b[k' + 1] == a[k];
    }
  }
}

=== FILE: step_artifacts.dfy ===
/** Artifact collection (release/step/artifacts.rs): the regular files of
    the configured directory, in listing order. */
module StepArtifacts {
  import opened Base
  import opened Seqs
  import opened ConfigFile
  import opened Context
  import opened Effects

  predicate IsFileEntry(e: DirEntry) {
    e.isFile
  }

  function PathOf(e: DirEntry): string {
    e.path
  }

  /** The stored artifact list: the paths of the file entries, in order. */
  function FilePaths(entries: seq<DirEntry>): (paths: seq<string>)
    ensures forall x :: x in paths <==> exists e :: e in entries && e.isFile && e.path == x
    ensures IsSubsequence(paths, Map(entries, PathOf))
  {
    var files := Filter(entries, IsFileEntry);
    FilterIsSubsequence(entries, IsFileEntry);
    SubsequenceMaps(files, entries, PathOf);
    forall x ensures x in Map(files, PathOf) <==> exists e :: e in entries && e.isFile && e.path == x {
      if x in Map(files, PathOf) {
        var k :| 0 <= k < |files| && Map(files, PathOf)[k] == x;
        assert files[k] in files;
      }
      if exists e :: e in entries && e.isFile && e.path == x {
        var e :| e in entries && e.isFile && e.path == x;
        var k :| 0 <= k < |files| && files[k] == e;
        assert Map(files, PathOf)[k] == x;
      }
    }
    Map(files, PathOf)
  }

  /** Mapping both sides keeps a subsequence a subsequence. */
  lemma {:induction false} SubsequenceMaps<T, U>(a: seq<T>, b: seq<T>, f: T -> U)
    requires IsSubsequence(a, b)
    ensures IsSubsequence(Map(a, f), Map(b, f))
    decreases |b|
  {
    if |a| > 0 && |b| > 0 {
      assert Map(b, f)[1..] == Map(b[1..], f);
      if a[0] == b[0] && IsSubsequence(a[1..], b[1..]) {
        assert Map(a, f)[1..] == Map(a[1..], f);
        SubsequenceMaps(a[1..], b[1..], f);
      } else {
        SubsequenceMaps(a, b[1..], f);
      }
    }
  }

  /** `CollectArtifacts::execute`. Emptiness is checked on the raw listing,
      before directories are dropped, so a folder of sub-directories passes
      the check and yields an empty list. */
  function ExecuteCollectArtifacts(ctx: ReleaseContext, env: Env): (run: Run)
    ensures run.trace == [] && SameMode(ctx, run.ctx)
    ensures run.outcome.Fail? ==> run.ctx == ctx
    ensures ctx.config.artifacts.None? ==> run.outcome == Fail(ArtifactsSectionMissing)
    ensures ctx.config.artifacts.Some? ==>
      var cfg := ctx.config.artifacts.value;
      && (cfg.directory !in env.folders ==> run.outcome == Fail(ArtifactsFolderMissing))
      && (cfg.directory in env.folders && env.folders[cfg.directory].Unlistable? ==>
            run.outcome == Fail(ArtifactsReadFailed))
      && (cfg.directory in env.folders && env.folders[cfg.directory].Listed? ==>
            var entries := env.folders[cfg.directory].entries;
            && (run.outcome.Fail? <==> cfg.checkNotEmpty && |entries| == 0)
            && (run.outcome.Fail? ==> run.outcome.error == ArtifactsFolderEmpty)
            && (run.outcome.Pass? ==> run.ctx == ctx.(artifacts := Some(FilePaths(entries)))))
  {
    match ArtifactsConfig(ctx)
    case Err(e) => Run(ctx, [], Fail(e))
    case Ok(cfg) =>
      if cfg.directory !in env.folders then Run(ctx, [], Fail(ArtifactsFolderMissing))
      else match env.folders[cfg.directory]
        case Unlistable => Run(ctx, [], Fail(ArtifactsReadFailed))
        case Listed(entries) =>
          if cfg.checkNotEmpty && |entries| == 0 then Run(ctx, [], Fail(ArtifactsFolderEmpty))
          else Run(ctx.(artifacts := Some(FilePaths(entries))), [], Pass)
  }

  /** `success_message`: the number of collected artifacts, 0 when unset. */
  function ArtifactCount(ctx: ReleaseContext): nat {
    match ctx.artifacts
    case None => 0
    case Some(a) => |a|
  }

  /** After a successful collection the count is the number of file entries,
      and a listing without files gives a count of zero. */
  lemma CollectedCount(ctx: ReleaseContext, env: Env)
    requires ExecuteCollectArtifacts(ctx, env).outcome.Pass?
    ensures var entries := env.folders[ctx.config.artifacts.value.directory].entries;
      && ArtifactCount(ExecuteCollectArtifacts(ctx, env).ctx) == |Filter(entries, IsFileEntry)|
      && ((forall e :: e in entries ==> !e.isFile) ==> ArtifactCount(ExecuteCollectArtifacts(ctx, env).ctx) == 0)
  {
    var entries := env.folders[ctx.config.artifacts.value.directory].entries;
    if forall e :: e in entries ==> !e.isFile {
      if |Filter(entries, IsFileEntry)| > 0 {
        assert Filter(entries, IsFileEntry)[0] in Filter(entries, IsFileEntry);
      }
    }
  }

  /** With no collection yet the count is zero. */
  lemma CountBeforeCollection(ctx: ReleaseContext)
    requires ctx.artifacts.None?
    ensures ArtifactCount(ctx) == 0
  {
  }
}

=== FILE: step_changelog.dfy ===
/** Changelog capture (release/step/changelog.rs): the whole file, or the
    lines strictly between the first line holding the rendered begin
    marker and the first line holding the rendered end marker. */
module StepChangelog {
  import opened Base
  import opened Text
  import opened Seqs
  import opened ConfigFile
  import opened Context
  import opened Effects

  /** The test `position` applies to each line: does it hold the marker? */
  function Holding(marker: string): string -> bool {
    l => Contains(l, marker)
  }

  /** The marker-delimited section of `lines`, with one error per way the
      markers can be missing or misplaced. */
  function ExtractBetweenMarkers(lines: seq<string>, begin: string, end: string, allowEmpty: bool): (r: Result<string>)
    requires forall k :: 0 <= k < |lines| ==> '\n' !in lines[k]
    ensures var b := FirstIndex(lines, Holding(begin)); var e := FirstIndex(lines, Holding(end));
      && (b.None? && e.None? <==> r == Err(MarkersNotFound))
      && (b.None? && e.Some? <==> r == Err(BeginMarkerNotFound))
      && (b.Some? && e.None? <==> r == Err(EndMarkerNotFound))
      && (b.Some? && e.Some? && e.value <= b.value <==> r == Err(EndMarkerBeforeBegin))
      && (r == Err(ChangelogEmpty) <==> b.Some? && e.Some? && e.value == b.value + 1 && !allowEmpty)
      && (r.Ok? ==> b.Some? && e.Some? && b.value < e.value)
      && (r.Ok? && e.value == b.value + 1 ==> r.value == "")
      && (r.Ok? && e.value > b.value + 1 ==> Split(r.value, '\n') == lines[b.value + 1..e.value])
  {
    match (FirstIndex(lines, Holding(begin)), FirstIndex(lines, Holding(end)))
    case (Some(b), Some(e)) =>
      if e <= b then Err(EndMarkerBeforeBegin)
      else if b + 1 == e then (if allowEmpty then Ok("") else Err(ChangelogEmpty))
      else
        SplitJoin(lines[b + 1..e], '\n');
        Ok(Join(lines[b + 1..e], "\n"))
    case (None, Some(_)) => Err(BeginMarkerNotFound)
    case (Some(_), None) => Err(EndMarkerNotFound)
    case (None, None) => Err(MarkersNotFound)
  }

  /** The text `CaptureChangelog` stores, or why there is none. */
  function ChangelogText(ctx: ReleaseContext, env: Env): (r: Result<string>)
    ensures ctx.config.changelog.None? ==> r == Err(ChangelogSectionMissing)
    ensures ctx.config.changelog.Some? ==>
      var cfg := ctx.config.changelog.value;
      && (cfg.file !in env.files ==> r == Err(ChangelogUnreadable))
      && (cfg.file in env.files && !env.files[cfg.file].utf8 ==> r == Err(ChangelogNotText))
      && (cfg.file in env.files && env.files[cfg.file].utf8 && cfg.startMarkerTemplate.None? ==>
            r == Ok(env.files[cfg.file].text))
      && (cfg.file in env.files && env.files[cfg.file].utf8 && cfg.startMarkerTemplate.Some? ==>
            && (cfg.endMarkerTemplate.None? ==> r == Err(EndMarkerTemplateMissing))
            && (cfg.endMarkerTemplate.Some? && ctx.version.None? ==> r == Err(VersionNotQueried))
            && (cfg.endMarkerTemplate.Some? && ctx.version.Some? ==>
                  var values := TextTemplateValues(ctx).value;
                  var begin := env.render(cfg.startMarkerTemplate.value, values);
                  var end := env.render(cfg.endMarkerTemplate.value, values);
                  && (begin.None? || end.None? ==> r == Err(TemplateRenderFailed))
                  && (begin.Some? && end.Some? ==>
                        r == ExtractBetweenMarkers(Lines(env.files[cfg.file].text), begin.value, end.value,
                                                   cfg.allowEmptyChangelog))))
  {
    var cfg :- ChangelogConfig(ctx);
    if cfg.file !in env.files then Err(ChangelogUnreadable)
    else
      var bytes := env.files[cfg.file];
      if !bytes.utf8 then Err(ChangelogNotText)
      else match cfg.startMarkerTemplate
        case None => Ok(bytes.text)
        case Some(startTemplate) =>
          match cfg.endMarkerTemplate
          case None => Err(EndMarkerTemplateMissing)
          case Some(endTemplate) =>
            var values :- TextTemplateValues(ctx);
            match (env.render(startTemplate, values), env.render(endTemplate, values))
            case (None, _) => Err(TemplateRenderFailed)
            case (_, None) => Err(TemplateRenderFailed)
            case (Some(begin), Some(end)) =>
              ExtractBetweenMarkers(Lines(bytes.text), begin, end, cfg.allowEmptyChangelog)
  }

  /** `CaptureChangelog::execute`: the context's changelog is set exactly
      when capturing succeeds, and nothing else changes. */
  function ExecuteCaptureChangelog(ctx: ReleaseContext, env: Env): (run: Run)
    ensures run.trace == []
    ensures run.outcome.Pass? <==> ChangelogText(ctx, env).Ok?
    ensures run.outcome.Pass? ==> run.ctx == ctx.(changelog := Some(ChangelogText(ctx, env).value))
    ensures run.outcome.Fail? ==> run.ctx == ctx && run.outcome.error == ChangelogText(ctx, env).error
  {
    match ChangelogText(ctx, env)
    case Err(e) => Run(ctx, [], Fail(e))
    case Ok(text) => Run(ctx.(changelog := Some(text)), [], Pass)
  }

  /** A one-character marker is absent from a line without that character. */
  lemma MissingSingleCharMarker(line: string, marker: string)
    requires |marker| == 1 && marker[0] !in line
    ensures !Holding(marker)(line)
  {
    forall i: nat | i <= |line| ensures !OccursAt(line, marker, i) {
      if i + 1 <= |line| {
        assert line[i..i + 1] == [line[i]];
      }
    }
  }

  /** A changelog with the section between `B` and `E`; the second `B` is
      never looked at. */
  lemma ExtractExample()
    ensures ExtractBetweenMarkers(["intro", "B", "x", "y", "E", "B"], "B", "E", false) == Ok("x\ny")
  {
    var lines := ["intro", "B", "x", "y", "E", "B"];
    ExampleMarkers(lines);
    ExampleSection(lines);
    SectionBetween(lines, "B", "E", false, 1, 4);
  }

  lemma ExampleSection(lines: seq<string>)
    requires lines == ["intro", "B", "x", "y", "E", "B"]
    ensures forall k :: 0 <= k < |lines| ==> '\n' !in lines[k]
    ensures Join(lines[2..4], "\n") == "x\ny"
  {
    assert lines[2..4] == ["x", "y"];
    assert Join(["x", "y"], "\n") == "x" + "\n" + "y";
  }

  lemma ExampleMarkers(lines: seq<string>)
    requires lines == ["intro", "B", "x", "y", "E", "B"]
    ensures FirstIndex(lines, Holding("B")) == Some(1) && FirstIndex(lines, Holding("E")) == Some(4)
  {
    assert OccursAt(lines[1], "B", 0) && OccursAt(lines[4], "E", 0);
    MissingSingleCharMarker(lines[0], "B");
    MissingSingleCharMarker(lines[0], "E");
    MissingSingleCharMarker(lines[1], "E");
    MissingSingleCharMarker(lines[2], "E");
    MissingSingleCharMarker(lines[3], "E");
    FirstIndexIs(lines, Holding("B"), 1);
    FirstIndexIs(lines, Holding("E"), 4);
  }

  /** Helper: with both markers found and at least one line between them,
      the section is those lines joined. */
  lemma SectionBetween(lines: seq<string>, begin: string, end: string, allowEmpty: bool, b: nat, e: nat)
    requires forall k :: 0 <= k < |lines| ==> '\n' !in lines[k]
    requires FirstIndex(lines, Holding(begin)) == Some(b) && FirstIndex(lines, Holding(end)) == Some(e)
    requires b + 1 < e
    ensures e <= |lines| && ExtractBetweenMarkers(lines, begin, end, allowEmpty) == Ok(Join(lines[b + 1..e], "\n"))
  {
  }
}

=== FILE: step_github.dfy ===
/** The GitHub steps (release/step/github.rs): check that the current commit
    is on GitHub, create the release tag, create the release page and upload
    the artifacts to it. In dry-run mode nothing is created. */
module StepGithub {
  import opened Base
  import opened Seqs
  import opened Utils
  import opened Repo
  import opened ConfigFile
  import opened Context
  import opened Effects

  // ---------------------------------------------------------------------
  // ValidateCommitPushedToGithub

  /** The start message names the commit by its seven-character short form;
      it needs the github section and the current commit. */
  function CommitPushedStart(ctx: ReleaseContext): (r: Result<string>)
    ensures ctx.config.github.None? ==> r == Err(GithubSectionMissing)
    ensures ctx.config.github.Some? && ctx.currentCommit.None? ==> r == Err(CommitNotQueried)
    ensures ctx.config.github.Some? && ctx.currentCommit.Some? ==> r == ShortenCommit(ctx.currentCommit.value)
    ensures r.Ok? ==> |r.value| == ShortCommitLength && r.value == ctx.currentCommit.value[..ShortCommitLength]
  {
    var _ :- GithubConfig(ctx);
    var commit :- CurrentCommit(ctx);
    ShortenCommit(commit)
  }

  function ExecuteCommitPushed(ctx: ReleaseContext, env: Env): (run: Run)
    ensures run.ctx == ctx && NoMutation(run.trace)
    ensures run.outcome.Pass? <==>
      && ctx.config.github.Some? && ctx.currentCommit.Some? && ctx.githubClient.Some?
      && env.commitOnGithub(ctx.config.github.value.repo, ctx.currentCommit.value)
    ensures run.outcome.Pass? ==>
      run.trace == [CommitStatus(ctx.config.github.value.repo, ctx.currentCommit.value)]
    ensures ctx.config.github.Some? && ctx.currentCommit.Some? && ctx.githubClient.Some? ==>
      (run.outcome.Fail? ==> run.outcome.error == CommitNotPushed)
  {
    match (GithubConfig(ctx), CurrentCommit(ctx), Client(ctx))
    case (Err(e), _, _) => Run(ctx, [], Fail(e))
    case (_, Err(e), _) => Run(ctx, [], Fail(e))
    case (_, _, Err(e)) => Run(ctx, [], Fail(e))
    case (Ok(github), Ok(commit), Ok(_)) =>
      var query := [CommitStatus(github.repo, commit)];
      if env.commitOnGithub(github.repo, commit) then Run(ctx, query, Pass)
      else Run(ctx, query, Fail(CommitNotPushed))
  }

  // ---------------------------------------------------------------------
  // CreateTagOnGithub

  /** The tag name the configured template renders to, if it renders. */
  function RenderedTag(ctx: ReleaseContext, env: Env): (r: Result<string>)
    ensures r.Ok? ==> ctx.version.Some? && ReleaseGithubConfig(ctx).Ok?
    ensures r.Ok? ==> Some(r.value) == env.render(ReleaseGithubConfig(ctx).value.tagNameTemplate, TextTemplateValues(ctx).value)
  {
    var values :- TextTemplateValues(ctx);
    var github :- ReleaseGithubConfig(ctx);
    match env.render(github.tagNameTemplate, values)
    case None => Err(TemplateRenderFailed)
    case Some(tag) => Ok(tag)
  }

  /** `CreateTagOnGithub::execute`: the rendered tag is recorded before the
      dry-run check, so it is recorded in dry-run mode too; only a real run
      creates the reference. */
  function ExecuteCreateTag(ctx: ReleaseContext, env: Env): (run: Run)
    ensures RenderedTag(ctx, env).Err? ==> run == Run(ctx, [], Fail(RenderedTag(ctx, env).error))
    ensures RenderedTag(ctx, env).Ok? ==> run.ctx == SetGithubReleaseTag(ctx, RenderedTag(ctx, env).value)
    ensures ctx.dryRun ==> run.trace == []
    ensures forall e :: e in run.trace ==> e.CreateRef?
    ensures run.outcome.Pass? <==>
      && RenderedTag(ctx, env).Ok? && ctx.config.github.Some? && ctx.currentCommit.Some?
      && (!ctx.dryRun ==> ctx.githubClient.Some? && env.createRefSucceeds(
            ctx.config.github.value.repo, RenderedTag(ctx, env).value, ctx.currentCommit.value))
    ensures run.outcome.Pass? && !ctx.dryRun ==>
      run.trace == [CreateRef(ctx.config.github.value.repo, RenderedTag(ctx, env).value, ctx.currentCommit.value)]
  {
    match RenderedTag(ctx, env)
    case Err(e) => Run(ctx, [], Fail(e))
    case Ok(tag) =>
      var tagged := SetGithubReleaseTag(ctx, tag);
      match (GithubConfig(tagged), CurrentCommit(tagged))
      case (Err(e), _) => Run(tagged, [], Fail(e))
      case (_, Err(e)) => Run(tagged, [], Fail(e))
      case (Ok(github), Ok(commit)) =>
        if tagged.dryRun then Run(tagged, [], Pass)
        else match Client(tagged)
          case Err(e) => Run(tagged, [], Fail(e))
          case Ok(_) =>
            var create := [CreateRef(github.repo, tag, commit)];
            if env.createRefSucceeds(github.repo, tag, commit) then Run(tagged, create, Pass)
            else Run(tagged, create, Fail(CreateTagFailed))
  }

  // ---------------------------------------------------------------------
  // CreateGithubRelease

  /** The start message needs a recorded tag. */
  function CreateReleaseStart(ctx: ReleaseContext): (r: Outcome)
    ensures r.Pass? <==> ctx.githubReleaseTag.Some?
    ensures r.Fail? ==> r.error == TagNotCreated
  {
    match GithubReleaseTag(ctx)
    case Err(e) => Fail(e)
    case Ok(_) => Pass
  }

  /** One upload per artifact, in list order. */
  function UploadEvents(repo: Repo, artifacts: seq<string>): (r: seq<Event>)
    ensures |r| == |artifacts|
    ensures forall k :: 0 <= k < |r| ==> r[k] == Upload(repo, artifacts[k])
  {
    if |artifacts| == 0 then []
    else [Upload(repo, artifacts[0])] + UploadEvents(repo, artifacts[1..])
  }

  /** Upload each artifact in list order, stopping at the first failure. */
  function UploadAll(repo: Repo, artifacts: seq<string>, env: Env): (run: (seq<Event>, Outcome))
    ensures run.0 <= UploadEvents(repo, artifacts)
    ensures run.1.Pass? <==> forall a :: a in artifacts ==> env.uploadSucceeds(repo, a)
    ensures run.1.Pass? ==> run.0 == UploadEvents(repo, artifacts)
    ensures run.1.Fail? ==> run.1.error == UploadFailed && 0 < |run.0| <= |artifacts|
    ensures run.1.Fail? ==> !env.uploadSucceeds(repo, artifacts[|run.0| - 1])
    ensures run.1.Fail? ==> forall k :: 0 <= k < |run.0| - 1 ==> env.uploadSucceeds(repo, artifacts[k])
  {
    if |artifacts| == 0 then ([], Pass)
    else
      var a := artifacts[0];
      var rest := UploadAll(repo, artifacts[1..], env);
      if !env.uploadSucceeds(repo, a) then
        UploadFirstFails(repo, artifacts, env);
        ([Upload(repo, a)], Fail(UploadFailed))
      else
        UploadStep(repo, artifacts, env, rest);
        ([Upload(repo, a)] + rest.0, rest.1)
  }

  /** What `UploadAll` promises, as one predicate for its step lemmas. */
  predicate UploadDone(repo: Repo, artifacts: seq<string>, env: Env, run: (seq<Event>, Outcome)) {
    UploadPrefixDone(repo, artifacts, env, run) && UploadFailDone(repo, artifacts, env, run)
  }

  predicate UploadPrefixDone(repo: Repo, artifacts: seq<string>, env: Env, run: (seq<Event>, Outcome)) {
    && run.0 <= UploadEvents(repo, artifacts)
    && (run.1.Pass? <==> forall a :: a in artifacts ==> env.uploadSucceeds(repo, a))
    && (run.1.Pass? ==> run.0 == UploadEvents(repo, artifacts))
  }

  predicate UploadFailDone(repo: Repo, artifacts: seq<string>, env: Env, run: (seq<Event>, Outcome)) {
    run.1.Fail? ==>
      && run.1.error == UploadFailed && 0 < |run.0| <= |artifacts|
      && !env.uploadSucceeds(repo, artifacts[|run.0| - 1])
      && forall k :: 0 <= k < |run.0| - 1 ==> env.uploadSucceeds(repo, artifacts[k])
  }

  lemma UploadFirstFails(repo: Repo, artifacts: seq<string>, env: Env)
    requires |artifacts| > 0 && !env.uploadSucceeds(repo, artifacts[0])
    ensures UploadDone(repo, artifacts, env, ([Upload(repo, artifacts[0])], Fail(UploadFailed)))
  {
    assert UploadEvents(repo, artifacts)[0] == Upload(repo, artifacts[0]);
  }

  lemma UploadStep(repo: Repo, artifacts: seq<string>, env: Env, rest: (seq<Event>, Outcome))
    requires |artifacts| > 0 && env.uploadSucceeds(repo, artifacts[0])
    requires UploadDone(repo, artifacts[1..], env, rest)
    ensures UploadDone(repo, artifacts, env, ([Upload(repo, artifacts[0])] + rest.0, rest.1))
  {
    UploadStepPrefix(repo, artifacts, env, rest);
    UploadStepFail(repo, artifacts, env, rest);
  }

  lemma UploadStepPrefix(repo: Repo, artifacts: seq<string>, env: Env, rest: (seq<Event>, Outcome))
    requires |artifacts| > 0 && env.uploadSucceeds(repo, artifacts[0])
    requires UploadPrefixDone(repo, artifacts[1..], env, rest)
    ensures UploadPrefixDone(repo, artifacts, env, ([Upload(repo, artifacts[0])] + rest.0, rest.1))
  {
    var a, tail := artifacts[0], artifacts[1..];
    assert UploadEvents(repo, artifacts) == [Upload(repo, a)] + UploadEvents(repo, tail);
    assert forall x :: x in artifacts <==> x == a || x in tail;
  }

  lemma UploadStepFail(repo: Repo, artifacts: seq<string>, env: Env, rest: (seq<Event>, Outcome))
    requires |artifacts| > 0 && env.uploadSucceeds(repo, artifacts[0])
    requires UploadFailDone(repo, artifacts[1..], env, rest)
    ensures UploadFailDone(repo, artifacts, env, ([Upload(repo, artifacts[0])] + rest.0, rest.1))
  {
    var tail := artifacts[1..];
    if rest.1.Fail? {
      forall k | 0 <= k < |rest.0| ensures env.uploadSucceeds(repo, artifacts[k]) {
        if k > 0 {
          assert artifacts[k] == tail[k - 1];
        }
      }
      assert artifacts[|rest.0|] == tail[|rest.0| - 1];
    }
  }

  /** Everything the release step needs before it may create anything. */
  datatype ReleasePage = ReleasePage(github: GithubRelease, repo: Repo, tag: string, title: string, body: string)

  function PrepareRelease(ctx: ReleaseContext, env: Env): (r: Result<ReleasePage>)
    ensures ctx.githubReleaseTag.None? ==> r.Err?
    ensures r.Ok? ==> && ctx.config.github.Some? && r.value.repo == ctx.config.github.value.repo
                      && ctx.githubReleaseTag == Some(r.value.tag)
                      && ReleaseGithubConfig(ctx) == Ok(r.value.github)
    ensures TextTemplateValues(ctx).Err? ==> r == Err(TextTemplateValues(ctx).error)
    ensures TextTemplateValues(ctx).Ok? && ReleaseGithubConfig(ctx).Err? ==> r == Err(ReleaseGithubConfig(ctx).error)
    ensures TextTemplateValues(ctx).Ok? && ReleaseGithubConfig(ctx).Ok? ==>
      var values := TextTemplateValues(ctx).value;
      var github := ReleaseGithubConfig(ctx).value;
      var title := env.render(github.releasePageTitleTemplate, values);
      var body := env.render(github.releasePageBodyTemplate, values);
      (title.None? || body.None? ==> r == Err(TemplateRenderFailed))
    ensures r.Ok? ==> && TextTemplateValues(ctx).Ok?
                      && Some(r.value.title) == env.render(r.value.github.releasePageTitleTemplate, TextTemplateValues(ctx).value)
                      && Some(r.value.body) == env.render(r.value.github.releasePageBodyTemplate, TextTemplateValues(ctx).value)
  {
    var values :- TextTemplateValues(ctx);
    var github :- ReleaseGithubConfig(ctx);
    match (env.render(github.releasePageTitleTemplate, values), env.render(github.releasePageBodyTemplate, values))
    case (None, _) => Err(TemplateRenderFailed)
    case (_, None) => Err(TemplateRenderFailed)
    case (Some(title), Some(body)) =>
      var gh :- GithubConfig(ctx);
      var tag :- GithubReleaseTag(ctx);
      Ok(ReleasePage(github, gh.repo, tag, title, body))
  }

  /** `CreateGithubRelease::execute`: a real run creates the release and
      then, when enabled and there is something to upload, uploads the
      collected artifacts to it in order. */
  function ExecuteCreateRelease(ctx: ReleaseContext, env: Env): (run: Run)
    ensures run.ctx == ctx
    ensures PrepareRelease(ctx, env).Err? ==> run == Run(ctx, [], Fail(PrepareRelease(ctx, env).error))
    ensures PrepareRelease(ctx, env).Ok? && ctx.dryRun ==> run == Run(ctx, [], Pass)
    ensures PrepareRelease(ctx, env).Ok? && !ctx.dryRun && ctx.githubClient.None? ==>
      run == Run(ctx, [], Fail(GithubClientMissing))
    ensures ctx.dryRun ==> run.trace == []
    ensures ctx.githubReleaseTag.None? ==> run.outcome.Fail? && run.trace == []
    ensures forall k :: 0 <= k < |run.trace| ==> (run.trace[k].CreateRelease? <==> k == 0)
    ensures forall e :: e in run.trace ==> e.CreateRelease? || e.Upload?
    ensures PrepareRelease(ctx, env).Ok? && !ctx.dryRun && ctx.githubClient.Some? ==>
      var page := PrepareRelease(ctx, env).value;
      var created := env.createReleaseSucceeds(page.repo, page.tag, page.title, page.body);
      && |run.trace| > 0 && run.trace[0] == CreateRelease(page.repo, page.tag, page.title, page.body)
      && (!created ==> run.trace == [run.trace[0]] && run.outcome == Fail(CreateReleaseFailed))
      && (created && page.github.releasePageUploadArtifacts && ctx.artifacts.None? ==>
            run.trace == [run.trace[0]] && run.outcome == Fail(ArtifactsNotCollected))
      && (created && (!page.github.releasePageUploadArtifacts || ctx.artifacts == Some([])) ==>
            run.trace == [run.trace[0]] && run.outcome == Pass)
      && (created && page.github.releasePageUploadArtifacts && ctx.artifacts.Some? && |ctx.artifacts.value| > 0 ==>
            var uploads := UploadAll(page.repo, ctx.artifacts.value, env);
            && run.trace[1..] == uploads.0
            && run.outcome == uploads.1
            && (run.outcome.Pass? <==> forall a :: a in ctx.artifacts.value ==> env.uploadSucceeds(page.repo, a)))
      && (created && run.outcome.Pass? && page.github.releasePageUploadArtifacts && ctx.artifacts.Some? ==>
            run.trace[1..] == UploadEvents(page.repo, ctx.artifacts.value))
  {
    match PrepareRelease(ctx, env)
    case Err(e) => Run(ctx, [], Fail(e))
    case Ok(page) =>
      if ctx.dryRun then Run(ctx, [], Pass)
      else match Client(ctx)
        case Err(e) => Run(ctx, [], Fail(e))
        case Ok(_) =>
          var create := CreateRelease(page.repo, page.tag, page.title, page.body);
          if !env.createReleaseSucceeds(page.repo, page.tag, page.title, page.body) then
            Run(ctx, [create], Fail(CreateReleaseFailed))
          else if !page.github.releasePageUploadArtifacts then Run(ctx, [create], Pass)
          else match CollectedArtifacts(ctx)
            case Err(e) => Run(ctx, [create], Fail(e))
            case Ok(artifacts) =>
              if |artifacts| == 0 then Run(ctx, [create], Pass)
              else
                var uploads := UploadAll(page.repo, artifacts, env);
                UploadsOnly(page.repo, artifacts, uploads.0);
                Run(ctx, [create] + uploads.0, uploads.1)
  }

  lemma UploadsOnly(repo: Repo, artifacts: seq<string>, trace: seq<Event>)
    requires trace <= UploadEvents(repo, artifacts)
    ensures forall k :: 0 <= k < |trace| ==> trace[k].Upload?
  {
    forall k | 0 <= k < |trace| ensures trace[k].Upload? {
      assert trace[k] == UploadEvents(repo, artifacts)[k];
    }
  }
}

=== FILE: step_init.dfy ===
/** The initialisation step (release/step/init.rs): registry and GitHub
    tokens from the environment, the current git commit, and the workspace
    metadata with the pending version of the root crate. */
module StepInit {
  import opened Base
  import opened Text
  import opened Seqs
  import opened Metadata
  import opened ConfigFile
  import opened Utils
  import opened Context
  import opened Effects

  const DefaultRegistryTokenVariable := "CARGO_REGISTRY_TOKEN"
  const GithubTokenVariable := "GITHUB_TOKEN"
  const RegistryVariablePrefix := "CARGO_REGISTRIES_"
  const RegistryVariableSuffix := "_TOKEN"

  /** `get_crate_registry_token`: the variable holding the registry token. */
  function RegistryTokenVariable(registry: Option<string>, env: Env): (name: string)
    ensures registry.None? ==> name == "CARGO_REGISTRY_TOKEN"
    ensures registry.Some? ==>
      && StartsWith(name, "CARGO_REGISTRIES_")
      && |name| == 17 + |env.upperSnake(registry.value)| + 6
      && name[17..|name| - 6] == env.upperSnake(registry.value)
      && name[|name| - 6..] == "_TOKEN"
  {
    match registry
    case None => DefaultRegistryTokenVariable
    case Some(r) => RegistryVariablePrefix + env.upperSnake(r) + RegistryVariableSuffix
  }

  /** A named registry never falls back to the crates.io variable, and the
      converted registry name can be read back from the variable. */
  lemma RegistryTokenVariableDistinct(r: string, env: Env)
    ensures RegistryTokenVariable(Some(r), env) != RegistryTokenVariable(None, env)
    ensures var name := RegistryTokenVariable(Some(r), env); name[17..|name| - 6] == env.upperSnake(r)
  {
    var name := RegistryTokenVariable(Some(r), env);
    assert name[13] == 'I';
    assert DefaultRegistryTokenVariable[13] == 'Y';
  }

  /** `acquire_tokens`: the registry token is required; the GitHub token is
      required, and the client built, only when there is a github section. */
  function AcquireTokens(ctx: ReleaseContext, env: Env): (run: Run)
    ensures SameMode(ctx, run.ctx) && run.trace == []
    ensures ctx.config.release.None? ==> run == Run(ctx, [], Fail(ReleaseSectionMissing))
    ensures ctx.config.release.Some? ==>
      var name := RegistryTokenVariable(ctx.config.release.value.registry, env);
      && (name !in env.vars ==> run == Run(ctx, [], Fail(RegistryTokenMissing(name))))
      && (name in env.vars ==> run.ctx.cratesIoToken == Some(env.vars[name]))
      && (name in env.vars && ctx.config.github.None? ==>
            run == Run(ctx.(cratesIoToken := Some(env.vars[name])), [], Pass))
      && (name in env.vars && ctx.config.github.Some? && "GITHUB_TOKEN" !in env.vars ==>
            run == Run(ctx.(cratesIoToken := Some(env.vars[name])), [], Fail(GithubTokenMissing)))
    ensures run.outcome.Pass? && ctx.config.github.Some? ==>
      && run.ctx.githubToken == Some(env.vars["GITHUB_TOKEN"])
      && run.ctx.githubClient.Some?
  {
    match ReleaseConfig(ctx)
    case Err(e) => Run(ctx, [], Fail(e))
    case Ok(release) =>
      var name := RegistryTokenVariable(release.registry, env);
      if name !in env.vars then Run(ctx, [], Fail(RegistryTokenMissing(name)))
      else
        var withToken := ctx.(cratesIoToken := Some(env.vars[name]));
        if ctx.config.github.None? then Run(withToken, [], Pass)
        else if GithubTokenVariable !in env.vars then Run(withToken, [], Fail(GithubTokenMissing))
        else match SetGithubToken(withToken, env.vars[GithubTokenVariable], env.githubClientBuilds)
          case Err(e) => Run(withToken, [], Fail(e))
          case Ok(withClient) => Run(withClient, [], Pass)
  }

  /** `process_git_state`: git must run, and the current commit is the
      trimmed output of `git rev-parse --verify HEAD`. */
  function ProcessGitState(ctx: ReleaseContext, env: Env): (run: Run)
    ensures run.trace == []
    ensures run.outcome.Fail? ==> run.ctx == ctx
    ensures RunAndCaptureStdout(env.gitVersion).Err? ==> run.outcome == Fail(GitMissing)
    ensures RunAndCaptureStdout(env.gitVersion).Ok? ==>
      (run.outcome.Pass? <==> RunAndCaptureStdout(env.revParse).Ok?)
    ensures run.outcome.Fail? && RunAndCaptureStdout(env.gitVersion).Ok? ==> run.outcome.error == CurrentCommitFailed
    ensures run.outcome.Pass? ==> run.ctx == ctx.(currentCommit := Some(Trim(env.revParse.stdout)))
  {
    if RunAndCaptureStdout(env.gitVersion).Err? then Run(ctx, [], Fail(GitMissing))
    else match RunAndCaptureStdout(env.revParse)
      case Err(_) => Run(ctx, [], Fail(CurrentCommitFailed))
      case Ok(stdout) => Run(ctx.(currentCommit := Some(Trim(stdout))), [], Pass)
  }

  /** The trimmed text is a piece of the input without whitespace at its ends. */
  lemma TrimIsInfix(s: string)
    ensures var t := Trim(s); |t| > 0 ==> !IsWhitespace(t[0]) && !IsWhitespace(t[|t| - 1])
    ensures Contains(s, Trim(s))
  {
    var front := TrimStart(s);
    var t := TrimEnd(front);
    var i := |s| - |front|;
    assert s[i..i + |t|] == front[..|t|] == t;
    assert OccursAt(s, t, i);
  }

  predicate Named(name: string, p: Package) {
    p.name == name
  }

  /** Index of the first package with the given name. */
  function RootIndex(packages: seq<Package>, name: string): (r: Option<nat>)
    ensures r.None? <==> forall k :: 0 <= k < |packages| ==> packages[k].name != name
    ensures r.Some? ==> r.value < |packages| && packages[r.value].name == name
    ensures r.Some? ==> forall j :: 0 <= j < r.value ==> packages[j].name != name
  {
    FirstIndex(packages, p => Named(name, p))
  }

  /** `process_metadata`: the pending version is the version of the first
      package named after the root crate; without one nothing is recorded. */
  function ProcessMetadata(ctx: ReleaseContext, env: Env): (run: Run)
    ensures run.trace == []
    ensures run.outcome.Fail? ==> run.ctx == ctx
    ensures env.cargoMetadata.None? ==> run.outcome == Fail(MetadataQueryFailed)
    ensures env.cargoMetadata.Some? ==>
      var packages := env.cargoMetadata.value.packages;
      var root := RootIndex(packages, RootCrateName(ctx));
      && (run.outcome.Pass? <==> root.Some?)
      && (run.outcome.Fail? ==> run.outcome.error == RootCrateNotFound(RootCrateName(ctx)))
      && (run.outcome.Pass? ==>
            run.ctx == ctx.(metadata := env.cargoMetadata, version := Some(packages[root.value].version)))
  {
    match env.cargoMetadata
    case None => Run(ctx, [], Fail(MetadataQueryFailed))
    case Some(meta) =>
      var root := RootCrateName(ctx);
      match RootIndex(meta.packages, root)
      case None => Run(ctx, [], Fail(RootCrateNotFound(root)))
      case Some(k) => Run(ctx.(metadata := Some(meta), version := Some(meta.packages[k].version)), [], Pass)
  }

  /** The recorded commit is a piece of git's output with no whitespace at
      either end. */
  lemma CurrentCommitTrimmed(ctx: ReleaseContext, env: Env)
    requires ProcessGitState(ctx, env).outcome.Pass?
    ensures var commit := ProcessGitState(ctx, env).ctx.currentCommit.value;
      && (|commit| > 0 ==> !IsWhitespace(commit[0]) && !IsWhitespace(commit[|commit| - 1]))
      && Contains(env.revParse.stdout, commit)
  {
    TrimIsInfix(env.revParse.stdout);
  }

  /** `Init::execute`: tokens, then git, then metadata; the first failure
      ends the step, keeping what the earlier parts recorded. */
  function ExecuteInit(ctx: ReleaseContext, env: Env): (run: Run)
    ensures run.trace == [] && SameMode(ctx, run.ctx)
    ensures AcquireTokens(ctx, env).outcome.Fail? ==> run == AcquireTokens(ctx, env)
    ensures run.outcome.Pass? <==>
      && AcquireTokens(ctx, env).outcome.Pass?
      && ProcessGitState(AcquireTokens(ctx, env).ctx, env).outcome.Pass?
      && ProcessMetadata(AcquireTokens(ctx, env).ctx, env).outcome.Pass?
    ensures run.outcome.Pass? ==>
      && run.ctx.cratesIoToken.Some?
      && run.ctx.currentCommit == Some(Trim(env.revParse.stdout))
      && run.ctx.metadata == env.cargoMetadata
      && run.ctx.version.Some?
  {
    var tokens := AcquireTokens(ctx, env);
    if tokens.outcome.Fail? then tokens
    else
      var git := ProcessGitState(tokens.ctx, env);
      if git.outcome.Fail? then git
      else ProcessMetadata(git.ctx, env)
  }
}

=== FILE: step_publish.dfy ===
/** The publish step (release/step/cargo.rs): `cargo publish` for every
    ordered candidate, either as a dry run (validation) or for real with a
    pause between consecutive publishes. */
module StepPublish {
  import opened Base
  import opened Seqs
  import opened Metadata
  import opened ConfigFile
  import opened Context
  import opened Effects

  // ---------------------------------------------------------------------
  // The `cargo` argument list

  const RegistryFlag := "--registry"
  const DryRunFlags := ["--dry-run", "--no-verify"]

  /** `execute_publish`: `publish --manifest-path <path>`, then
      `--registry <r>` when a registry is configured, then
      `--dry-run --no-verify` for a dry run. */
  function PublishArgs(manifestPath: string, registry: Option<string>, dryRun: bool): (args: seq<string>)
    ensures |args| == 3 + (if registry.Some? then 2 else 0) + (if dryRun then 2 else 0)
    ensures args[..3] == ["publish", "--manifest-path", manifestPath]
    ensures registry.Some? ==> args[3..5] == ["--registry", registry.value]
    ensures dryRun <==> |args| >= 5 && args[|args| - 2..] == ["--dry-run", "--no-verify"]
  {
    var head := ["publish", "--manifest-path", manifestPath];
    var args := head
      + (match registry case Some(r) => [RegistryFlag, r] case None => [])
      + (if dryRun then DryRunFlags else []);
    assert !dryRun && registry.Some? ==> args[|args| - 2] == RegistryFlag;
    args
  }

  /** The inverse of `PublishArgs`: the manifest path, registry and mode an
      argument list was built from. */
  function ParsePublishArgs(args: seq<string>): (r: Option<(string, Option<string>, bool)>)
  {
    if |args| < 3 || args[..2] != ["publish", "--manifest-path"] then None
    else if |args| == 3 then Some((args[2], None, false))
    else if |args| == 5 && args[3] == RegistryFlag then Some((args[2], Some(args[4]), false))
    else if |args| == 5 && args[3..] == DryRunFlags then Some((args[2], None, true))
    else if |args| == 7 && args[3] == RegistryFlag && args[5..] == DryRunFlags then Some((args[2], Some(args[4]), true))
    else None
  }

  /** Round trip: the argument list determines what it was built from, so two
      different publishes never share a command line. */
  lemma ParsePublishArgsInverse(manifestPath: string, registry: Option<string>, dryRun: bool)
    ensures ParsePublishArgs(PublishArgs(manifestPath, registry, dryRun)) == Some((manifestPath, registry, dryRun))
  {
    var args := PublishArgs(manifestPath, registry, dryRun);
    assert args[..2] == ["publish", "--manifest-path"];
    if registry.None? && dryRun {
      assert args[3] == "--dry-run";
      assert args[3] != RegistryFlag;
    }
  }

  // ---------------------------------------------------------------------
  // Dry run

  /** A package with a binary target: it is skipped in dry-run mode. */
  predicate IsBin(p: Package) {
    exists t :: t in p.targets && "bin" in t.kind
  }

  /** What a fully successful dry run publishes: every non-bin package in
      order, each as a dry run. */
  function DryPlan(packages: seq<Package>): seq<Event> {
    Map(Filter(packages, Validated), DryPublish)
  }

  predicate Validated(p: Package) {
    !IsBin(p)
  }

  function DryPublish(p: Package): Event {
    Publish(p.manifestPath, true)
  }

  /** The dry plan validates every package without a `bin` target and
      nothing else. */
  lemma DryPlanSkipsBins(packages: seq<Package>)
    ensures forall p :: p in packages && !IsBin(p) ==> DryPublish(p) in DryPlan(packages)
    ensures forall e :: e in DryPlan(packages) ==> exists p :: p in packages && !IsBin(p) && e == DryPublish(p)
  {
    var kept := Filter(packages, Validated);
    var plan := DryPlan(packages);
    forall p | p in packages && !IsBin(p) ensures DryPublish(p) in plan {
      var k :| 0 <= k < |kept| && kept[k] == p;
      assert plan[k] == DryPublish(p);
    }
    forall e | e in plan ensures exists p :: p in packages && !IsBin(p) && e == DryPublish(p) {
      var k :| 0 <= k < |plan| && plan[k] == e;
      var p := kept[k];
      assert p in kept;
      assert p in packages && !IsBin(p) && e == DryPublish(p);
    }
  }

  lemma DryPlanCons(packages: seq<Package>)
    requires |packages| > 0
    ensures DryPlan(packages) == (if IsBin(packages[0]) then [] else [DryPublish(packages[0])]) + DryPlan(packages[1..])
  {
    if !IsBin(packages[0]) {
      assert Filter(packages, Validated) == [packages[0]] + Filter(packages[1..], Validated);
    }
  }

  /** Whether `cargo publish` for this manifest exits successfully. */
  predicate PublishOk(manifestPath: string, registry: Option<string>, dryRun: bool, env: Env) {
    env.publishSucceeds(PublishArgs(manifestPath, registry, dryRun))
  }

  /** Every package the mode publishes (in dry-run mode, every non-bin one)
      publishes successfully. */
  predicate AllPublishOk(packages: seq<Package>, registry: Option<string>, dryRun: bool, env: Env) {
    forall p :: p in packages && (dryRun ==> !IsBin(p)) ==> PublishOk(p.manifestPath, registry, dryRun, env)
  }

  lemma AllPublishOkCons(packages: seq<Package>, registry: Option<string>, dryRun: bool, env: Env)
    requires |packages| > 0
    ensures AllPublishOk(packages, registry, dryRun, env) <==>
      && ((dryRun ==> !IsBin(packages[0])) ==> PublishOk(packages[0].manifestPath, registry, dryRun, env))
      && AllPublishOk(packages[1..], registry, dryRun, env)
  {
    assert forall p :: p in packages <==> p == packages[0] || p in packages[1..];
  }

  /** A trace that stops at a failed publish: its last event is a publish that
      failed, and every publish before it succeeded. */
  predicate EndsAtFailure(trace: seq<Event>, registry: Option<string>, env: Env) {
    && |trace| > 0
    && trace[|trace| - 1].Publish?
    && !PublishOk(trace[|trace| - 1].manifestPath, registry, trace[|trace| - 1].dryRun, env)
    && forall k :: 0 <= k < |trace| - 1 && trace[k].Publish? ==>
         PublishOk(trace[k].manifestPath, registry, trace[k].dryRun, env)
  }

  lemma EndsAtFailureCons(e: Event, trace: seq<Event>, registry: Option<string>, env: Env)
    requires e.Publish? ==> PublishOk(e.manifestPath, registry, e.dryRun, env)
    ensures EndsAtFailure(trace, registry, env) ==> EndsAtFailure([e] + trace, registry, env)
  {
    if !EndsAtFailure(trace, registry, env) {
      return;
    }
    var t := [e] + trace;
    assert t[|t| - 1] == trace[|trace| - 1];
    forall k | 0 <= k < |t| - 1 && t[k].Publish?
      ensures PublishOk(t[k].manifestPath, registry, t[k].dryRun, env)
    {
      if k > 0 {
        assert t[k] == trace[k - 1];
      }
    }
  }

  /** The dry-run loop: publish each non-bin package with `--dry-run`,
      stopping at the first failure. */
  function DryRunLoop(packages: seq<Package>, registry: Option<string>, env: Env): (run: (seq<Event>, Outcome))
    ensures run.0 <= DryPlan(packages)
    ensures run.1.Pass? <==> AllPublishOk(packages, registry, true, env)
    ensures run.1.Pass? ==> run.0 == DryPlan(packages)
    ensures run.1.Fail? ==> run.1.error == PublishFailed && EndsAtFailure(run.0, registry, env)
  {
    if |packages| == 0 then ([], Pass)
    else
      var p := packages[0];
      var rest := DryRunLoop(packages[1..], registry, env);
      if IsBin(p) then
        DryRunSkipsBin(packages, registry, env, rest);
        rest
      else if !PublishOk(p.manifestPath, registry, true, env) then
        DryRunFails(packages, registry, env);
        ([DryPublish(p)], Fail(PublishFailed))
      else
        DryRunStep(packages, registry, env, rest);
        ([DryPublish(p)] + rest.0, rest.1)
  }

  /** What the dry-run loop promises about its result. */
  predicate DryLoopDone(packages: seq<Package>, registry: Option<string>, env: Env, run: (seq<Event>, Outcome)) {
    && run.0 <= DryPlan(packages)
    && (run.1.Pass? <==> AllPublishOk(packages, registry, true, env))
    && (run.1.Pass? ==> run.0 == DryPlan(packages))
    && (run.1.Fail? ==> run.1.error == PublishFailed && EndsAtFailure(run.0, registry, env))
  }

  /** Helper: a bin package is skipped by the dry-run loop. */
  lemma DryRunSkipsBin(packages: seq<Package>, registry: Option<string>, env: Env, rest: (seq<Event>, Outcome))
    requires |packages| > 0 && IsBin(packages[0]) && DryLoopDone(packages[1..], registry, env, rest)
    ensures DryLoopDone(packages, registry, env, rest)
  {
    AllPublishOkCons(packages, registry, true, env);
    DryPlanCons(packages);
  }

  /** Helper: a failed dry publish ends the dry-run loop. */
  lemma DryRunFails(packages: seq<Package>, registry: Option<string>, env: Env)
    requires |packages| > 0 && !IsBin(packages[0])
    requires !PublishOk(packages[0].manifestPath, registry, true, env)
    ensures DryLoopDone(packages, registry, env, ([DryPublish(packages[0])], Fail(PublishFailed)))
  {
    AllPublishOkCons(packages, registry, true, env);
    DryPlanCons(packages);
  }

  /** Helper: after a successful dry publish the dry-run loop goes on. */
  lemma DryRunStep(packages: seq<Package>, registry: Option<string>, env: Env, rest: (seq<Event>, Outcome))
    requires |packages| > 0 && !IsBin(packages[0])
    requires PublishOk(packages[0].manifestPath, registry, true, env)
    requires DryLoopDone(packages[1..], registry, env, rest)
    ensures DryLoopDone(packages, registry, env, ([DryPublish(packages[0])] + rest.0, rest.1))
  {
    AllPublishOkCons(packages, registry, true, env);
    DryPlanCons(packages);
    EndsAtFailureCons(DryPublish(packages[0]), rest.0, registry, env);
  }

  // ---------------------------------------------------------------------
  // Real publish

  /** What a fully successful real run does: the packages in order, each
      published for real, with a pause of `interval` seconds between two
      consecutive publishes. */
  function RealPlan(packages: seq<Package>, interval: nat): (plan: seq<Event>)
    ensures |packages| > 0 ==> |plan| == 2 * |packages| - 1
    ensures |packages| == 0 ==> plan == []
    decreases |packages|, 0
  {
    if |packages| == 0 then []
    else [Publish(packages[0].manifestPath, false)] + RemainingPlan(packages[1..], interval, true)
  }

  /** The remaining plan once some package has been published: a pause
      leads, unless nothing is left. */
  function RemainingPlan(packages: seq<Package>, interval: nat, previouslyPublished: bool): seq<Event>
    decreases |packages|, 1
  {
    (if previouslyPublished && |packages| > 0 then [Sleep(interval)] else []) + RealPlan(packages, interval)
  }

  /** The plan alternates: publishes at even positions, in package order,
      and pauses of the configured length at odd positions. */
  lemma {:induction false} RealPlanShape(packages: seq<Package>, interval: nat)
    ensures var plan := RealPlan(packages, interval);
      forall k :: 0 <= k < |plan| ==>
        plan[k] == if k % 2 == 0 then Publish(packages[k / 2].manifestPath, false) else Sleep(interval)
    decreases |packages|
  {
    var plan := RealPlan(packages, interval);
    if |packages| > 1 {
      var rest := RealPlan(packages[1..], interval);
      RealPlanShape(packages[1..], interval);
      assert plan == [Publish(packages[0].manifestPath, false), Sleep(interval)] + rest;
      forall k | 2 <= k < |plan|
        ensures plan[k] == if k % 2 == 0 then Publish(packages[k / 2].manifestPath, false) else Sleep(interval)
      {
        assert plan[k] == rest[k - 2];
        assert (k - 2) / 2 + 1 == k / 2 && (k - 2) % 2 == k % 2;
        assert packages[1..][(k - 2) / 2] == packages[k / 2];
      }
    }
  }

  /** The real loop: pause (except before the first), publish, stop at the
      first failure. */
  function RealLoop(packages: seq<Package>, registry: Option<string>, interval: nat, env: Env,
                    previouslyPublished: bool): (run: (seq<Event>, Outcome))
    ensures run.0 <= RemainingPlan(packages, interval, previouslyPublished)
    ensures run.1.Pass? <==> AllPublishOk(packages, registry, false, env)
    ensures run.1.Pass? ==> run.0 == RemainingPlan(packages, interval, previouslyPublished)
    ensures run.1.Fail? ==> run.1.error == PublishFailed && EndsAtFailure(run.0, registry, env)
    decreases |packages|
  {
    if |packages| == 0 then ([], Pass)
    else
      var p := packages[0];
      var attempt := (if previouslyPublished then [Sleep(interval)] else []) + [Publish(p.manifestPath, false)];
      if !PublishOk(p.manifestPath, registry, false, env) then
        RealRunFails(packages, registry, interval, env, previouslyPublished);
        (attempt, Fail(PublishFailed))
      else
        var rest := RealLoop(packages[1..], registry, interval, env, true);
        RealRunStep(packages, registry, interval, env, previouslyPublished, rest);
        (attempt + rest.0, rest.1)
  }

  /** What the real loop promises about its result. */
  predicate RealLoopDone(packages: seq<Package>, registry: Option<string>, interval: nat, env: Env,
                         previouslyPublished: bool, run: (seq<Event>, Outcome)) {
    && run.0 <= RemainingPlan(packages, interval, previouslyPublished)
    && (run.1.Pass? <==> AllPublishOk(packages, registry, false, env))
    && (run.1.Pass? ==> run.0 == RemainingPlan(packages, interval, previouslyPublished))
    && (run.1.Fail? ==> run.1.error == PublishFailed && EndsAtFailure(run.0, registry, env))
  }

  /** Helper: a failed first publish ends the real loop. */
  lemma RealRunFails(packages: seq<Package>, registry: Option<string>, interval: nat, env: Env,
                     previouslyPublished: bool)
    requires |packages| > 0 && !PublishOk(packages[0].manifestPath, registry, false, env)
    ensures var attempt := (if previouslyPublished then [Sleep(interval)] else []) + [Publish(packages[0].manifestPath, false)];
      RealLoopDone(packages, registry, interval, env, previouslyPublished, (attempt, Fail(PublishFailed)))
  {
    var attempt := (if previouslyPublished then [Sleep(interval)] else []) + [Publish(packages[0].manifestPath, false)];
    RemainingPlanCons(packages, interval, previouslyPublished);
    AllPublishOkCons(packages, registry, false, env);
    assert attempt[|attempt| - 1] == Publish(packages[0].manifestPath, false);
  }

  /** Helper: after a successful first publish the real loop goes on. */
  lemma RealRunStep(packages: seq<Package>, registry: Option<string>, interval: nat, env: Env,
                    previouslyPublished: bool, rest: (seq<Event>, Outcome))
    requires |packages| > 0 && PublishOk(packages[0].manifestPath, registry, false, env)
    requires RealLoopDone(packages[1..], registry, interval, env, true, rest)
    ensures var attempt := (if previouslyPublished then [Sleep(interval)] else []) + [Publish(packages[0].manifestPath, false)];
      RealLoopDone(packages, registry, interval, env, previouslyPublished, (attempt + rest.0, rest.1))
  {
    var attempt := (if previouslyPublished then [Sleep(interval)] else []) + [Publish(packages[0].manifestPath, false)];
    RemainingPlanCons(packages, interval, previouslyPublished);
    AllPublishOkCons(packages, registry, false, env);
    EndsAtFailureAppend(attempt, rest.0, registry, env);
  }

  lemma RemainingPlanCons(packages: seq<Package>, interval: nat, previouslyPublished: bool)
    requires |packages| > 0
    ensures RemainingPlan(packages, interval, previouslyPublished)
      == (if previouslyPublished then [Sleep(interval)] else []) + [Publish(packages[0].manifestPath, false)]
         + RemainingPlan(packages[1..], interval, true)
  {
    var wait := if previouslyPublished then [Sleep(interval)] else [];
    assert RemainingPlan(packages, interval, previouslyPublished)
      == wait + ([Publish(packages[0].manifestPath, false)] + RemainingPlan(packages[1..], interval, true));
  }

  lemma EndsAtFailureAppend(prefix: seq<Event>, trace: seq<Event>, registry: Option<string>, env: Env)
    requires forall k :: 0 <= k < |prefix| && prefix[k].Publish? ==>
      PublishOk(prefix[k].manifestPath, registry, prefix[k].dryRun, env)
    ensures EndsAtFailure(trace, registry, env) ==> EndsAtFailure(prefix + trace, registry, env)
  {
    if !EndsAtFailure(trace, registry, env) {
      return;
    }
    var t := prefix + trace;
    assert t[|t| - 1] == trace[|trace| - 1];
    forall k | 0 <= k < |t| - 1 && t[k].Publish?
      ensures PublishOk(t[k].manifestPath, registry, t[k].dryRun, env)
    {
      if k >= |prefix| {
        assert t[k] == trace[k - |prefix|];
      }
    }
  }

  /** Number of pauses in a trace. */
  function Sleeps(trace: seq<Event>): nat {
    if |trace| == 0 then 0 else (if trace[0].Sleep? then 1 else 0) + Sleeps(trace[1..])
  }

  /** n successful publishes come with n - 1 pauses, each of the configured
      length. */
  lemma {:induction false} RealPlanSleeps(packages: seq<Package>, interval: nat)
    requires |packages| > 0
    ensures Sleeps(RealPlan(packages, interval)) == |packages| - 1
    ensures forall e :: e in RealPlan(packages, interval) && e.Sleep? ==> e.seconds == interval
    decreases |packages|
  {
    var plan := RealPlan(packages, interval);
    if |packages| == 1 {
      assert plan == [Publish(packages[0].manifestPath, false)];
    } else {
      RealPlanSleeps(packages[1..], interval);
      assert RemainingPlan(packages[1..], interval, true) == [Sleep(interval)] + RealPlan(packages[1..], interval);
      assert plan[1..] == [Sleep(interval)] + RealPlan(packages[1..], interval);
      assert plan[1..][1..] == RealPlan(packages[1..], interval);
    }
  }

  // ---------------------------------------------------------------------
  // The step

  /** `CargoPublish::execute`: a non-validating publish is refused in dry-run
      mode; otherwise the ordered candidates are published, as a dry run when
      the context is in dry-run mode or the step only validates. */
  function ExecutePublish(validate: bool, ctx: ReleaseContext, env: Env): (run: Run)
    ensures run.ctx == ctx
    ensures ctx.dryRun && !validate ==> run == Run(ctx, [], Fail(PublishInDryRun))
    ensures ctx.dryRun || validate ==>
      forall k :: 0 <= k < |run.trace| ==> run.trace[k].Publish? && run.trace[k].dryRun
    ensures ctx.dryRun || validate ==> NoMutation(run.trace) && NoRealPublish(run.trace)
    ensures !(ctx.dryRun && !validate) && OrderedPackagesToPublish(ctx).Err? ==>
      run == Run(ctx, [], Fail(OrderedPackagesToPublish(ctx).error))
    ensures OrderedPackagesToPublish(ctx).Ok? && ctx.config.release.Some? && run.outcome.Pass? ==>
      var ordered := OrderedPackagesToPublish(ctx).value;
      if ctx.dryRun || validate then run.trace == DryPlan(ordered)
      else run.trace == RealPlan(ordered, ctx.config.release.value.publishIntervalSeconds)
    ensures !(ctx.dryRun && !validate) && OrderedPackagesToPublish(ctx).Ok? && ctx.config.release.None? ==>
      run == Run(ctx, [], Fail(ReleaseConfig(ctx).error))
    ensures !(ctx.dryRun && !validate) && OrderedPackagesToPublish(ctx).Ok? && ctx.config.release.Some? ==>
      PublishDone(OrderedPackagesToPublish(ctx).value, ctx.config.release.value, ctx.dryRun || validate, env, run)
  {
    if ctx.dryRun && !validate then Run(ctx, [], Fail(PublishInDryRun))
    else
      var dryRun := ctx.dryRun || validate;
      match OrderedPackagesToPublish(ctx)
      case Err(e) => Run(ctx, [], Fail(e))
      case Ok(ordered) =>
        match ReleaseConfig(ctx)
        case Err(e) => Run(ctx, [], Fail(e))
        case Ok(release) =>
          if dryRun then
            var loop := DryRunLoop(ordered, release.registry, env);
            DryPlanPublishesOnlyDry(ordered, loop.0);
            Run(ctx, loop.0, loop.1)
          else
            var loop := RealLoop(ordered, release.registry, release.publishIntervalSeconds, env, false);
            Run(ctx, loop.0, loop.1)
  }

  /** What a publish run over `ordered` promises: it passes exactly when every
      package the mode publishes succeeds, and a failed run is a prefix of the
      plan that stops at the first failing publish, the earlier publishes
      having happened. */
  predicate PublishDone(ordered: seq<Package>, release: Release, dryRun: bool, env: Env, run: Run) {
    var plan := if dryRun then DryPlan(ordered) else RealPlan(ordered, release.publishIntervalSeconds);
    && (run.outcome.Pass? <==> AllPublishOk(ordered, release.registry, dryRun, env))
    && (run.outcome.Fail? ==> run.outcome.error == PublishFailed && run.trace <= plan
                              && EndsAtFailure(run.trace, release.registry, env))
  }

  lemma DryPlanPublishesOnlyDry(packages: seq<Package>, trace: seq<Event>)
    requires trace <= DryPlan(packages)
    ensures forall k :: 0 <= k < |trace| ==> trace[k].Publish? && trace[k].dryRun
    ensures NoMutation(trace) && NoRealPublish(trace)
  {
    forall k | 0 <= k < |trace| ensures trace[k].Publish? && trace[k].dryRun {
      assert trace[k] == DryPlan(packages)[k];
    }
  }
}

=== FILE: step_version.dfy ===
/** The version validation step (release/step/version.rs): four checks over
    the publish candidates, run in a fixed order, the first failure ending
    the step. Each check scans every candidate before failing; the error
    names every offending package. */
module StepVersion {
  import opened Base
  import opened Text
  import opened Seqs
  import opened Semver
  import opened Metadata
  import opened ConfigFile
  import opened Utils
  import opened Context
  import opened Effects

  const CratesIoRegistryName := "crates-io"

  function Names(packages: seq<Package>): seq<string> {
    Map(packages, (p: Package) => p.name)
  }

  lemma NamesContain(packages: seq<Package>, n: string)
    ensures n in Names(packages) <==> exists p :: p in packages && p.name == n
  {
    if exists p :: p in packages && p.name == n {
      var p :| p in packages && p.name == n;
      var k :| 0 <= k < |packages| && packages[k] == p;
      assert Names(packages)[k] == n;
    }
  }

  // ---------------------------------------------------------------------
  // Registry consistency

  /** A package may go to the target registry: it restricts nothing, or its
      `publish` list names the configured registry (`crates-io` by default). */
  predicate PublishAllowed(p: Package, registry: Option<string>) {
    match p.publish
    case None => true
    case Some(allowed) => registry.GetOr(CratesIoRegistryName) in allowed
  }

  function CheckRegistryConsistency(ctx: ReleaseContext): (r: Outcome)
    ensures ctx.metadata.None? ==> r == Fail(MetadataNotQueried)
    ensures ctx.metadata.Some? && ctx.config.release.None? ==> r == Fail(ReleaseSectionMissing)
    ensures ctx.metadata.Some? && ctx.config.release.Some? ==>
      var candidates := PackagesToPublish(ctx).value;
      var target := ctx.config.release.value.registry.GetOr("crates-io");
      && (r.Fail? <==> exists p :: p in candidates && p.publish.Some? && target !in p.publish.value)
      && (r.Fail? ==> r.error.RegistryInconsistency? && forall n :: n in r.error.packages <==>
            exists p :: p in candidates && p.publish.Some? && target !in p.publish.value && p.name == n)
  {
    match (PackagesToPublish(ctx), ReleaseConfig(ctx))
    case (Err(e), _) => Fail(e)
    case (_, Err(e)) => Fail(e)
    case (Ok(candidates), Ok(release)) =>
      var offenders := Filter(candidates, p => !PublishAllowed(p, release.registry));
      forall n ensures n in Names(offenders) <==> exists p :: p in offenders && p.name == n {
        NamesContain(offenders, n);
      }
      if |offenders| > 0 then
        assert offenders[0] in offenders;
        Fail(RegistryInconsistency(Names(offenders)))
      else
        Pass
  }

  // ---------------------------------------------------------------------
  // Version raise

  /** `split('"').nth(1)`: the text after the first `"`, up to the next `"`
      or the end of the input. */
  function QuotedText(s: string): (r: Option<string>)
    ensures r.None? <==> '"' !in s
    ensures r.Some? ==> var i := IndexOf(s, '"').value; var e := i + 1 + |r.value|;
      && '"' !in r.value
      && e <= |s| && s[i + 1..e] == r.value
      && (e == |s| || s[e] == '"')
  {
    match IndexOf(s, '"')
    case None => None
    case Some(i) =>
      var rest := s[i + 1..];
      match IndexOf(rest, '"')
      case None => Some(rest)
      case Some(j) =>
        assert s[i + 1..i + 1 + j] == rest[..j] && s[i + 1 + j] == rest[j];
        Some(rest[..j])
  }

  /** `QuotedText` is the second piece of `Split(s, '"')`, when there is one. */
  lemma QuotedTextIsSecondPiece(s: string)
    ensures QuotedText(s) == if |Split(s, '"')| >= 2 then Some(Split(s, '"')[1]) else None
  {
    match IndexOf(s, '"')
    case None =>
    case Some(i) =>
      var rest := s[i + 1..];
      assert Split(s, '"') == [s[..i]] + Split(rest, '"');
  }

  /** The quoted text is part of its input. */
  lemma QuotedTextInside(s: string)
    ensures QuotedText(s).Some? ==> Contains(s, QuotedText(s).value)
  {
    var r := QuotedText(s);
    if r.Some? {
      assert OccursAt(s, r.value, IndexOf(s, '"').value + 1);
    }
  }

  /** The first line of `cargo search` output that starts with `<name> = `. */
  function SearchLine(name: string, stdout: string): (r: Option<string>)
    ensures var lines := Split(stdout, '\n'); var prefix := name + " = ";
      && (r.None? <==> forall k :: 0 <= k < |lines| ==> !StartsWith(lines[k], prefix))
      && (r.Some? ==> exists k :: 0 <= k < |lines| && lines[k] == r.value && StartsWith(r.value, prefix)
                                && forall j :: 0 <= j < k ==> !StartsWith(lines[j], prefix))
  {
    var lines := Split(stdout, '\n');
    match FirstIndex(lines, l => StartsWith(l, name + " = "))
    case None => None
    case Some(k) => Some(lines[k])
  }

  /** The version text of `crate = "x.y.z"    # description`. */
  function SearchVersionText(name: string, stdout: string): (r: Option<string>)
    ensures r.Some? <==> SearchLine(name, stdout).Some? && '"' in Trim(SearchLine(name, stdout).value)
    ensures r.Some? ==> '"' !in r.value && Contains(Trim(SearchLine(name, stdout).value), r.value)
    ensures r.Some? ==> var pieces := Split(Trim(SearchLine(name, stdout).value), '"');
      |pieces| >= 2 && r.value == pieces[1]
  {
    match SearchLine(name, stdout)
    case None => None
    case Some(line) =>
      QuotedTextInside(Trim(line));
      QuotedTextIsSecondPiece(Trim(line));
      QuotedText(Trim(line))
  }

  /** `query_last_released_version`: `None` when the crate was never
      published; a version string that does not parse is an error. */
  function QueryLastReleasedVersion(name: string, env: Env): (r: Result<Option<Version>>)
    ensures RunAndCaptureStdout(env.cargoSearch(name)).Err? ==> r.Err? && r.error == RunAndCaptureStdout(env.cargoSearch(name)).error
    ensures RunAndCaptureStdout(env.cargoSearch(name)).Ok? ==>
      match SearchVersionText(name, RunAndCaptureStdout(env.cargoSearch(name)).value)
      case None => r == Ok(None)
      case Some(text) => if env.parseVersion(text).None? then r == Err(VersionUnparsable) else r == Ok(env.parseVersion(text))
  {
    var stdout :- RunAndCaptureStdout(env.cargoSearch(name));
    match SearchVersionText(name, stdout)
    case None => Ok(None)
    case Some(text) =>
      match env.parseVersion(text)
      case None => Err(VersionUnparsable)
      case Some(v) => Ok(Some(v))
  }

  /** `check_version_raised`: when enabled, the pending version must be
      strictly greater than the last published one, which is recorded. */
  function CheckVersionRaised(version: Version, ctx: ReleaseContext, env: Env): (r: Result<ReleaseContext>)
    ensures r.Ok? ==> r.value == ctx.(prevVersion := r.value.prevVersion)
    ensures ctx.config.release.None? ==> r == Err(ReleaseSectionMissing)
    ensures ctx.config.release.Some? && !ctx.config.release.value.checkVersionRaised ==> r == Ok(ctx)
    ensures ctx.config.release.Some? && ctx.config.release.value.checkVersionRaised ==>
      match QueryLastReleasedVersion(RootCrateName(ctx), env)
      case Err(e) => r == Err(e)
      case Ok(None) => r == Ok(ctx.(prevVersion := Some(None)))
      case Ok(Some(prev)) =>
        && (r.Ok? <==> Less(prev, version))
        && (r.Ok? ==> r.value == ctx.(prevVersion := Some(Some(prev))))
        && (r.Err? ==> r.error == VersionNotRaised)
  {
    var release :- ReleaseConfig(ctx);
    if !release.checkVersionRaised then Ok(ctx)
    else
      var prev :- QueryLastReleasedVersion(RootCrateName(ctx), env);
      match prev
      case None => Ok(ctx.(prevVersion := Some(None)))
      case Some(p) =>
        Trichotomy(version, p);
        if LessEq(version, p) then Err(VersionNotRaised)
        else Ok(ctx.(prevVersion := Some(Some(p))))
  }

  // ---------------------------------------------------------------------
  // In-workspace dev-dependencies

  /** A dev-dependency on a workspace package that still carries a version
      requirement (it should be a bare path dependency). */
  predicate VersionedDevDependency(d: Dependency, workspaceNames: seq<string>) {
    d.kind == Development && d.name in workspaceNames && |d.req.comparators| > 0
  }

  predicate HasVersionedDevDependency(p: Package, workspaceNames: seq<string>) {
    exists d :: d in p.dependencies && VersionedDevDependency(d, workspaceNames)
  }

  function CheckDevDependencies(ctx: ReleaseContext): (r: Outcome)
    ensures ctx.config.release.None? ==> r == Fail(ReleaseSectionMissing)
    ensures ctx.config.release.Some? && ctx.config.release.value.allowNonPathDevDependencies ==> r == Pass
    ensures ctx.config.release.Some? && !ctx.config.release.value.allowNonPathDevDependencies ==>
      if ctx.metadata.None? then r == Fail(MetadataNotQueried)
      else
        var candidates := PackagesToPublish(ctx).value;
        var names := WorkspacePackageNames(ctx).value;
        && (r.Fail? <==> exists p, d ::
              p in candidates && d in p.dependencies && d.kind == Development && d.name in names && |d.req.comparators| > 0)
        && (r.Fail? ==> r.error.InvalidDevDependencies? && forall n :: n in r.error.packages <==>
              exists p :: p in candidates && HasVersionedDevDependency(p, names) && p.name == n)
  {
    match ReleaseConfig(ctx)
    case Err(e) => Fail(e)
    case Ok(release) =>
      if release.allowNonPathDevDependencies then Pass
      else match (PackagesToPublish(ctx), WorkspacePackageNames(ctx))
        case (Err(e), _) => Fail(e)
        case (_, Err(e)) => Fail(e)
        case (Ok(candidates), Ok(names)) =>
          var offenders := Filter(candidates, p => HasVersionedDevDependency(p, names));
          forall n ensures n in Names(offenders) <==> exists p :: p in offenders && p.name == n {
            NamesContain(offenders, n);
          }
          if |offenders| > 0 then
            assert offenders[0] in offenders;
            Fail(InvalidDevDependencies(Names(offenders)))
          else
            Pass
  }

  // ---------------------------------------------------------------------
  // Version consistency

  /** A candidate is consistent when it carries the pending version and every
      dependency on a workspace package, of any kind, accepts that version. */
  predicate Consistent(p: Package, version: Version, workspaceNames: seq<string>, env: Env) {
    && p.version == version
    && forall d :: d in p.dependencies && d.name in workspaceNames ==> env.matches(d.req, version)
  }

  function CheckVersionConsistency(version: Version, ctx: ReleaseContext, env: Env): (r: Outcome)
    ensures ctx.metadata.None? ==> r == Fail(MetadataNotQueried)
    ensures ctx.metadata.Some? ==>
      var candidates := PackagesToPublish(ctx).value;
      var names := WorkspacePackageNames(ctx).value;
      && (r.Fail? <==> exists p :: (p in candidates && (p.version != version ||
            exists d :: d in p.dependencies && d.name in names && !env.matches(d.req, version))))
      && (r.Fail? ==> r.error.VersionInconsistency? && forall n :: n in r.error.packages <==>
            exists p :: p in candidates && !Consistent(p, version, names, env) && p.name == n)
  {
    match (PackagesToPublish(ctx), WorkspacePackageNames(ctx))
    case (Err(e), _) => Fail(e)
    case (_, Err(e)) => Fail(e)
    case (Ok(candidates), Ok(names)) =>
      var offenders := Filter(candidates, p => !Consistent(p, version, names, env));
      forall n ensures n in Names(offenders) <==> exists p :: p in offenders && p.name == n {
        NamesContain(offenders, n);
      }
      if |offenders| > 0 then
        assert offenders[0] in offenders;
        Fail(VersionInconsistency(Names(offenders)))
      else
        Pass
  }

  // ---------------------------------------------------------------------
  // The step

  /** `VaidateVersion::execute`: registry, raise, dev-dependency and
      consistency checks in that order; the first failure ends the step. */
  function ExecuteValidateVersion(ctx: ReleaseContext, env: Env): (run: Run)
    ensures SameMode(ctx, run.ctx) && run.trace == []
    ensures ctx.version.None? ==> run == Run(ctx, [], Fail(VersionNotQueried))
    ensures ctx.version.Some? ==>
      var v := ctx.version.value;
      if CheckRegistryConsistency(ctx).Fail? then run == Run(ctx, [], CheckRegistryConsistency(ctx))
      else if CheckVersionRaised(v, ctx, env).Err? then run == Run(ctx, [], Fail(CheckVersionRaised(v, ctx, env).error))
      else
        var ctx' := CheckVersionRaised(v, ctx, env).value;
        && run.ctx == ctx'
        && (CheckDevDependencies(ctx).Fail? ==> run.outcome == CheckDevDependencies(ctx))
        && (CheckDevDependencies(ctx).Pass? ==> run.outcome == CheckVersionConsistency(v, ctx, env))
    ensures run.outcome.Pass? <==>
      && ctx.version.Some?
      && CheckRegistryConsistency(ctx).Pass?
      && CheckVersionRaised(ctx.version.value, ctx, env).Ok?
      && CheckDevDependencies(ctx).Pass?
      && CheckVersionConsistency(ctx.version.value, ctx, env).Pass?
  {
    match PendingVersion(ctx)
    case Err(e) => Run(ctx, [], Fail(e))
    case Ok(version) =>
      match CheckRegistryConsistency(ctx)
      case Fail(e) => Run(ctx, [], Fail(e))
      case Pass =>
        match CheckVersionRaised(version, ctx, env)
        case Err(e) => Run(ctx, [], Fail(e))
        case Ok(ctx') =>
          ChecksIgnorePrevVersion(version, ctx, ctx'.prevVersion, env);
          match CheckDevDependencies(ctx')
          case Fail(e) => Run(ctx', [], Fail(e))
          case Pass => Run(ctx', [], CheckVersionConsistency(version, ctx', env))
  }

  /** The last two checks read only the configuration and the metadata, so
      recording the previous version does not change their verdicts. */
  lemma ChecksIgnorePrevVersion(version: Version, ctx: ReleaseContext, prev: Option<Option<Version>>, env: Env)
    ensures CheckDevDependencies(ctx.(prevVersion := prev)) == CheckDevDependencies(ctx)
    ensures CheckVersionConsistency(version, ctx.(prevVersion := prev), env) == CheckVersionConsistency(version, ctx, env)
  {
  }
}

=== FILE: text.dfy ===
/** The handful of Rust `str` operations the release tool relies on, over
    `string` (a sequence of chars): prefix and substring tests, `split`,
    `splitn(2, ..)`, `join`, `trim` and `lines`. */
module Text {
  import opened Base

  predicate StartsWith(s: string, prefix: string) {
    |prefix| <= |s| && s[..|prefix|] == prefix
  }

  /** `m` occurs in `s` starting at position `i`. */
  predicate OccursAt(s: string, m: string, i: nat) {
    i + |m| <= |s| && s[i..i + |m|] == m
  }

  /** Rust's `str::contains` for a string pattern. */
  predicate Contains(s: string, m: string) {
    exists i: nat :: i <= |s| && OccursAt(s, m, i)
  }

  /** The position of the first `c` in `s`. */
  function IndexOf(s: string, c: char): (r: Option<nat>)
    ensures r.None? <==> c !in s
    ensures r.Some? ==> r.value < |s| && s[r.value] == c && c !in s[..r.value]
  {
    if |s| == 0 then None
    else if s[0] == c then Some(0)
    else match IndexOf(s[1..], c)
      case None => None
      case Some(i) =>
        assert s[1..][..i] == s[1..i + 1];
        Some(i + 1)
  }

  /** `parts[0] + sep + parts[1] + sep + ...`, Rust's `[String]::join`. */
  function Join(parts: seq<string>, sep: string): string {
    if |parts| == 0 then ""
    else if |parts| == 1 then parts[0]
    else parts[0] + sep + Join(parts[1..], sep)
  }

  /** Rust's `str::split(c)`: always at least one piece, pieces never hold `c`,
      and joining them back with `c` gives the input. */
  function Split(s: string, c: char): (parts: seq<string>)
    ensures |parts| >= 1
    ensures forall k :: 0 <= k < |parts| ==> c !in parts[k]
    ensures Join(parts, [c]) == s
    ensures c !in s <==> parts == [s]
    decreases |s|
  {
    match IndexOf(s, c)
    case None => [s]
    case Some(i) =>
      var rest := Split(s[i + 1..], c);
      assert s == s[..i] + [c] + s[i + 1..];
      [s[..i]] + rest
  }

  /** Rust's `str::splitn(2, c)`: the text before the first `c` and everything
      after it, or the whole input when there is no `c`. */
  function SplitOnce(s: string, c: char): (parts: seq<string>)
    ensures c !in s ==> parts == [s]
    ensures c in s ==> |parts| == 2 && c !in parts[0] && parts[0] + [c] + parts[1] == s
  {
    match IndexOf(s, c)
    case None => [s]
    case Some(i) =>
      assert s == s[..i] + [c] + s[i + 1..];
      [s[..i], s[i + 1..]]
  }

  /** Unicode White_Space, the set `char::is_whitespace` (and so `str::trim`) uses. */
  predicate IsWhitespace(c: char) {
    || ('\U{0009}' <= c <= '\U{000D}')
    || c == '\U{0020}' || c == '\U{0085}' || c == '\U{00A0}' || c == '\U{1680}'
    || ('\U{2000}' <= c <= '\U{200A}')
    || c == '\U{2028}' || c == '\U{2029}' || c == '\U{202F}' || c == '\U{205F}' || c == '\U{3000}'
  }

  function TrimStart(s: string): (r: string)
    ensures |r| <= |s| && r == s[|s| - |r|..]
    ensures forall k :: 0 <= k < |s| - |r| ==> IsWhitespace(s[k])
    ensures |r| > 0 ==> !IsWhitespace(r[0])
  {
    if |s| > 0 && IsWhitespace(s[0]) then TrimStart(s[1..]) else s
  }

  function TrimEnd(s: string): (r: string)
    ensures |r| <= |s| && r == s[..|r|]
    ensures forall k :: |r| <= k < |s| ==> IsWhitespace(s[k])
    ensures |r| > 0 ==> !IsWhitespace(r[|r| - 1])
  {
    if |s| > 0 && IsWhitespace(s[|s| - 1]) then TrimEnd(s[..|s| - 1]) else s
  }

  /** `r` sits at position `i` of `s` with nothing but whitespace around it. */
  predicate PaddedAt(s: string, r: string, i: nat) {
    && i + |r| <= |s| && s[i..i + |r|] == r
    && (forall k :: 0 <= k < i ==> IsWhitespace(s[k]))
    && (forall k :: i + |r| <= k < |s| ==> IsWhitespace(s[k]))
  }

  /** Rust's `str::trim`: the input without leading and trailing whitespace. */
  function Trim(s: string): string {
    TrimEnd(TrimStart(s))
  }

  /** The trimmed text sits inside the input with only whitespace around it,
      and neither starts nor ends with whitespace itself. */
  lemma TrimPadded(s: string)
    ensures PaddedAt(s, Trim(s), |s| - |TrimStart(s)|)
    ensures var r := Trim(s); |r| > 0 ==> !IsWhitespace(r[0]) && !IsWhitespace(r[|r| - 1])
  {
    var t := TrimStart(s);
    var i := |s| - |t|;
    TrimEndPadded(s, t, i);
  }

  /** Trimming the end of the suffix `t` of `s` leaves whitespace after it. */
  lemma TrimEndPadded(s: string, t: string, i: nat)
    requires i + |t| == |s| && s[i..] == t
    requires forall k :: 0 <= k < i ==> IsWhitespace(s[k])
    ensures PaddedAt(s, TrimEnd(t), i)
  {
    var r := TrimEnd(t);
    assert s[i..i + |r|] == t[..|r|];
    forall k | i + |r| <= k < |s| ensures IsWhitespace(s[k]) {
      assert s[k] == t[k - i];
    }
  }

  /** One line as `str::lines` yields it: a `\r` before the `\n` is dropped. */
  function StripCr(l: string): string {
    if |l| > 0 && l[|l| - 1] == '\r' then l[..|l| - 1] else l
  }

  /** Rust's `str::lines`: lines end at `\n` or `\r\n`, the final line ending
      is optional, and the text after the last `\n` is a line only when it is
      non-empty (a lone `\r` at the very end is kept). */
  function Lines(s: string): (ls: seq<string>)
    ensures '\n' !in s && |s| > 0 ==> ls == [s]
    ensures forall k :: 0 <= k < |ls| ==> '\n' !in ls[k]
    decreases |s|
  {
    if |s| == 0 then []
    else match IndexOf(s, '\n')
      case None => [s]
      case Some(i) => [StripCr(s[..i])] + Lines(s[i + 1..])
  }

  /** `parts` without its last piece when that piece is empty. */
  function DropTrailingEmpty(parts: seq<string>): seq<string> {
    if |parts| > 0 && parts[|parts| - 1] == "" then parts[..|parts| - 1] else parts
  }

  /** Without carriage returns, `lines` is `split('\n')` minus the empty
      piece a final line ending (or the empty text) leaves behind. */
  lemma {:induction false} LinesIsSplit(s: string)
    requires '\r' !in s
    ensures Lines(s) == DropTrailingEmpty(Split(s, '\n'))
    decreases |s|
  {
    match IndexOf(s, '\n')
    case None =>
    case Some(i) =>
      var head, rest := s[..i], s[i + 1..];
      assert Lines(s) == [StripCr(head)] + Lines(rest);
      assert '\r' !in rest && '\r' !in head;
      LinesIsSplit(rest);
      StripCrWithoutCr(head);
      LineStep(s, i);
  }

  /** One step of `LinesIsSplit`: the first line, then the rest. */
  lemma LineStep(s: string, i: nat)
    requires i < |s| && s[i] == '\n' && '\n' !in s[..i]
    ensures DropTrailingEmpty(Split(s, '\n')) == [s[..i]] + DropTrailingEmpty(Split(s[i + 1..], '\n'))
  {
    var head, rest := s[..i], s[i + 1..];
    assert s == head + ['\n'] + rest;
    SplitAt(head, rest, '\n');
    DropTrailingEmptyCons(head, Split(rest, '\n'));
  }

  lemma StripCrWithoutCr(l: string)
    requires '\r' !in l
    ensures StripCr(l) == l
  {
    if |l| > 0 {
      assert l[|l| - 1] in l;
    }
  }

  lemma DropTrailingEmptyCons(x: string, p: seq<string>)
    requires |p| >= 1
    ensures DropTrailingEmpty([x] + p) == [x] + DropTrailingEmpty(p)
  {
    assert ([x] + p)[|p|] == p[|p| - 1];
    assert ([x] + p)[..|p|] == [x] + p[..|p| - 1];
  }

  /** `Split` undoes `Join` when no piece holds the separator. */
  lemma {:induction false} SplitJoin(parts: seq<string>, c: char)
    requires |parts| >= 1
    requires forall k :: 0 <= k < |parts| ==> c !in parts[k]
    ensures Split(Join(parts, [c]), c) == parts
    decreases |parts|
  {
    if |parts| == 1 {
      assert Join(parts, [c]) == parts[0];
    } else {
      var tail := Join(parts[1..], [c]);
      SplitJoin(parts[1..], c);
      SplitAt(parts[0], tail, c);
      assert Join(parts, [c]) == parts[0] + [c] + tail;
      assert parts == [parts[0]] + parts[1..];
    }
  }

  /** Splitting a piece without `c`, then `c`, then more text. */
  lemma SplitAt(head: string, tail: string, c: char)
    requires c !in head
    ensures Split(head + [c] + tail, c) == [head] + Split(tail, c)
  {
    var s := head + [c] + tail;
    var i := |head|;
    assert s[i] == c && s[..i] == head && s[i + 1..] == tail;
    IndexOfIs(s, c, i);
  }

  /** `IndexOf` is pinned down by its contract. */
  lemma IndexOfIs(s: string, c: char, i: nat)
    requires i < |s| && s[i] == c && c !in s[..i]
    ensures IndexOf(s, c) == Some(i)
  {
  }
}

=== FILE: utils.dfy ===
/** Subprocess output capture and commit shortening (utils.rs). */
module Utils {
  import opened Base

  /** What running an external command produced: it could not be started,
      or it exited with a status and some standard output (which may not
      be valid UTF-8). */
  datatype ProcessOutcome =
    | NotSpawned
    | Exited(success: bool, stdout: string, stdoutUtf8: bool)

  /** `run_and_capture_stdout`: the captured standard output, but only when
      the command started, exited successfully and printed valid UTF-8. */
  function RunAndCaptureStdout(p: ProcessOutcome): (r: Result<string>)
    ensures r.Ok? <==> p.Exited? && p.success && p.stdoutUtf8
    ensures r.Ok? ==> r.value == p.stdout
    ensures p.Exited? && !p.success ==> r == Err(CommandFailed)
  {
    match p
    case NotSpawned => Err(SpawnFailed)
    case Exited(success, stdout, utf8) =>
      if !success then Err(CommandFailed)
      else if !utf8 then Err(StdoutNotUtf8)
      else Ok(stdout)
  }

  /** The displayed length of a commit hash. */
  const ShortCommitLength: nat := 7

  /** `shorten_commit`: the first seven characters; a shorter input makes
      the slice panic. */
  function ShortenCommit(commit: string): (r: Result<string>)
    ensures r.Ok? <==> |commit| >= ShortCommitLength
    ensures r.Ok? ==> |r.value| == ShortCommitLength && commit[..ShortCommitLength] == r.value
    ensures r.Err? ==> r.error == PanicShortCommit
  {
    if |commit| < ShortCommitLength then Err(PanicShortCommit) else Ok(commit[..ShortCommitLength])
  }

  /** Shortening is idempotent. */
  lemma ShortenCommitIdempotent(commit: string)
    requires |commit| >= ShortCommitLength
    ensures ShortenCommit(ShortenCommit(commit).value) == ShortenCommit(commit)
  {
    var short := ShortenCommit(commit).value;
    assert short[..ShortCommitLength] == short;
  }
}

=== FILE: workspace_sort.dfy ===
/** The publish order of a workspace (cargo.rs): a depth-first post-order walk
    over the workspace members, guarded by a visited set. Dependencies on
    packages outside the workspace are ignored, and a dependency cycle is
    not reported: the edge that closes it is skipped silently. */
module WorkspaceSort {
  import opened Base
  import opened Seqs
  import opened Metadata

  /** The in-workspace dependency lists of the members, keyed by member id. */
  type DepTree = map<PackageId, seq<PackageId>>

  /** `dep_tree`: the resolve nodes whose id is a workspace member. As when
      collecting into a `HashMap`, a later node with the same id replaces an
      earlier one. */
  function BuildDepTree(members: seq<PackageId>, nodes: seq<Node>): (t: DepTree)
    ensures forall id :: id in t <==> id in members && exists n :: n in nodes && n.id == id
    ensures forall id :: id in t ==> LastNodeFor(nodes, id, t[id])
    decreases |nodes|
  {
    if |nodes| == 0 then map[]
    else
      var n := nodes[0];
      var rest := BuildDepTree(members, nodes[1..]);
      assert forall m :: m in nodes <==> m == n || m in nodes[1..];
      if n.id in members && n.id !in rest then
        assert LastNodeFor(nodes, n.id, n.dependencies) by {
          assert forall k' :: 0 < k' < |nodes| ==> nodes[k'] in nodes[1..];
        }
        rest[n.id := n.dependencies]
      else
        LastNodeForTail(nodes, rest);
        rest
  }

  /** `deps` are the dependencies of the last node in `nodes` whose id is `id`. */
  ghost predicate LastNodeFor(nodes: seq<Node>, id: PackageId, deps: seq<PackageId>) {
    exists k :: 0 <= k < |nodes| && nodes[k].id == id && deps == nodes[k].dependencies
                && forall k' :: k < k' < |nodes| ==> nodes[k'].id != id
  }

  lemma LastNodeForTail(nodes: seq<Node>, t: DepTree)
    requires |nodes| > 0
    requires forall id :: id in t ==> LastNodeFor(nodes[1..], id, t[id])
    ensures forall id :: id in t ==> LastNodeFor(nodes, id, t[id])
  {
    forall id | id in t
      ensures LastNodeFor(nodes, id, t[id])
    {
      var k :| 0 <= k < |nodes[1..]| && nodes[1..][k].id == id && t[id] == nodes[1..][k].dependencies
               && forall k' :: k < k' < |nodes[1..]| ==> nodes[1..][k'].id != id;
      assert nodes[k + 1] == nodes[1..][k];
      assert forall k' :: k + 1 < k' < |nodes| ==> nodes[k'] == nodes[1..][k' - 1];
    }
  }

  /** The state the walk threads along: the `processed` set and the output. */
  datatype Walk = Walk(visited: set<PackageId>, sorted: seq<PackageId>)

  lemma SubsetDifferenceCard<T>(k: set<T>, a: set<T>, b: set<T>)
    requires a <= b
    ensures |k - b| <= |k - a|
  {
    assert k - a == (k - b) + ((k - a) - (k - b));
  }

  /** `sort_workspace_inner`: a member already processed is skipped; otherwise
      it is marked, its in-workspace dependencies are walked in order, and it
      is appended last. */
  function Visit(tree: DepTree, id: PackageId, w: Walk): (w': Walk)
    requires id in tree
    ensures w.visited <= w'.visited && id in w'.visited
    decreases |tree.Keys - w.visited|, 0
  {
    if id in w.visited then w
    else
      assert tree.Keys - (w.visited + {id}) == (tree.Keys - w.visited) - {id};
      var w1 := VisitAll(tree, tree[id], Walk(w.visited + {id}, w.sorted));
      Walk(w1.visited, w1.sorted + [id])
  }

  /** The loop over a dependency list, skipping ids that are not members. */
  function VisitAll(tree: DepTree, deps: seq<PackageId>, w: Walk): (w': Walk)
    ensures w.visited <= w'.visited
    ensures forall d :: d in deps && d in tree ==> d in w'.visited
    decreases |tree.Keys - w.visited|, 1, |deps|
  {
    if |deps| == 0 then w
    else
      var w1 := if deps[0] in tree then Visit(tree, deps[0], w) else w;
      SubsetDifferenceCard(tree.Keys, w.visited, w1.visited);
      assert forall d :: d in deps ==> d == deps[0] || d in deps[1..];
      VisitAll(tree, deps[1..], w1)
  }

  /** The graph the walk runs on; it exists once cargo produced a resolve. */
  function MemberTree(meta: Metadata): DepTree
    requires meta.resolve.Some?
  {
    BuildDepTree(meta.workspaceMembers, meta.resolve.value)
  }

  /** `sort_workspace`. A member without a resolve node makes `dep_tree[pkg_id]`
      panic, whichever member the loop reaches it from. */
  function SortWorkspace(meta: Metadata): (r: Result<seq<PackageId>>)
    ensures meta.resolve.None? ==> r == Err(ResolveMissing)
    ensures meta.resolve.Some? ==>
      (r.Ok? <==> forall m :: m in meta.workspaceMembers ==> m in MemberTree(meta))
    ensures meta.resolve.Some? && r.Err? ==> r.error == PanicMissingResolveNode
    ensures r.Ok? ==> Distinct(r.value)
    ensures r.Ok? ==> forall x :: x in r.value <==> x in meta.workspaceMembers
  {
    match meta.resolve
    case None => Err(ResolveMissing)
    case Some(nodes) =>
      var tree := BuildDepTree(meta.workspaceMembers, nodes);
      if exists m :: m in meta.workspaceMembers && m !in tree then Err(PanicMissingResolveNode)
      else
        var start := Walk({}, []);
        VisitAllGrows(tree, meta.workspaceMembers, start);
        var w := VisitAll(tree, meta.workspaceMembers, start);
        assert w.sorted[|start.sorted|..] == w.sorted;
        Ok(w.sorted)
  }

  // ---------------------------------------------------------------------
  // What one call adds: every newly visited member is appended exactly once.

  ghost predicate Grows(tree: DepTree, w: Walk, w': Walk) {
    && w.visited <= w'.visited
    && |w.sorted| <= |w'.sorted|
    && w'.sorted[..|w.sorted|] == w.sorted
    && Distinct(w'.sorted[|w.sorted|..])
    && (forall x :: x in w'.sorted[|w.sorted|..] <==> x in w'.visited && x !in w.visited)
    && (forall x :: x in w'.visited && x !in w.visited ==> x in tree)
  }

  lemma GrowsTransitive(tree: DepTree, w0: Walk, w1: Walk, w2: Walk)
    requires Grows(tree, w0, w1) && Grows(tree, w1, w2)
    ensures Grows(tree, w0, w2)
  {
    var t1 := w1.sorted[|w0.sorted|..];
    var t2 := w2.sorted[|w1.sorted|..];
    assert w2.sorted[..|w1.sorted|][..|w0.sorted|] == w2.sorted[..|w0.sorted|];
    assert w2.sorted[|w0.sorted|..] == t1 + t2;
    forall i, j | 0 <= i < j < |t1 + t2|
      ensures (t1 + t2)[i] != (t1 + t2)[j]
    {
      if i < |t1| && |t1| <= j {
        assert (t1 + t2)[i] in t1 && (t1 + t2)[j] in t2;
      }
    }
  }

  lemma {:induction false} VisitGrows(tree: DepTree, id: PackageId, w: Walk)
    requires id in tree
    ensures Grows(tree, w, Visit(tree, id, w))
    ensures id in Visit(tree, id, w).visited
    ensures id !in w.visited ==>
      var w' := Visit(tree, id, w);
      && |w'.sorted| > 0 && w'.sorted[|w'.sorted| - 1] == id
      && forall d :: d in tree[id] && d in tree ==> d in w'.visited
    decreases |tree.Keys - w.visited|, 0
  {
    if id !in w.visited {
      assert tree.Keys - (w.visited + {id}) == (tree.Keys - w.visited) - {id};
      var w0 := Walk(w.visited + {id}, w.sorted);
      VisitAllGrows(tree, tree[id], w0);
      var w1 := VisitAll(tree, tree[id], w0);
      var w' := Walk(w1.visited, w1.sorted + [id]);
      assert w' == Visit(tree, id, w);
      var t1 := w1.sorted[|w.sorted|..];
      assert w'.sorted[|w.sorted|..] == t1 + [id];
      assert w'.sorted[..|w.sorted|] == w1.sorted[..|w.sorted|];
      assert id !in t1;
    } else {
      assert Visit(tree, id, w).sorted[|w.sorted|..] == [];
    }
  }

  lemma {:induction false} VisitAllGrows(tree: DepTree, deps: seq<PackageId>, w: Walk)
    ensures Grows(tree, w, VisitAll(tree, deps, w))
    ensures forall d :: d in deps && d in tree ==> d in VisitAll(tree, deps, w).visited
    decreases |tree.Keys - w.visited|, 1, |deps|
  {
    if |deps| == 0 {
      assert w.sorted[|w.sorted|..] == [];
    } else {
      var w1 := if deps[0] in tree then Visit(tree, deps[0], w) else w;
      if deps[0] in tree {
        VisitGrows(tree, deps[0], w);
      } else {
        assert w.sorted[|w.sorted|..] == [];
      }
      SubsetDifferenceCard(tree.Keys, w.visited, w1.visited);
      VisitAllGrows(tree, deps[1..], w1);
      GrowsTransitive(tree, w, w1, VisitAll(tree, deps[1..], w1));
      assert forall d :: d in deps ==> d == deps[0] || d in deps[1..];
    }
  }

  // ---------------------------------------------------------------------
  // Without a cycle, dependencies come first.

  /** A walk along in-workspace dependency edges. */
  ghost predicate IsPath(tree: DepTree, p: seq<PackageId>) {
    && (forall k :: 0 <= k < |p| ==> p[k] in tree)
    && (forall k :: 0 <= k < |p| - 1 ==> p[k + 1] in tree[p[k]])
  }

  /** No member reaches itself along in-workspace dependency edges. */
  ghost predicate Acyclic(tree: DepTree) {
    forall p :: IsPath(tree, p) && |p| >= 2 ==> p[0] != p[|p| - 1]
  }

  /** Every in-workspace dependency of an output entry occurs before it. */
  ghost predicate DepsBefore(tree: DepTree, s: seq<PackageId>) {
    forall j, d :: 0 <= j < |s| && s[j] in tree && d in tree[s[j]] && d in tree ==> d in s[..j]
  }

  /** Each visited member is finished (in the output) or still being walked
      (on the stack), never both. */
  ghost predicate OnStackOrDone(w: Walk, stack: seq<PackageId>) {
    && (forall x :: x in w.sorted ==> x in w.visited)
    && (forall x :: x in w.visited ==> x in w.sorted || x in stack)
    && (forall x :: x in stack ==> x in w.visited && x !in w.sorted)
  }

  lemma GrowsKeepsStack(tree: DepTree, w: Walk, w': Walk, stack: seq<PackageId>)
    requires Grows(tree, w, w') && OnStackOrDone(w, stack)
    ensures OnStackOrDone(w', stack)
  {
    assert w'.sorted == w.sorted + w'.sorted[|w.sorted|..];
  }

  /** Helper: a member that is still on the stack and is a dependency of the
      stack's top closes a cycle. */
  lemma OnStackMeansCycle(tree: DepTree, id: PackageId, stack: seq<PackageId>)
    requires id in tree && IsPath(tree, stack) && id in stack
    requires id in tree[stack[|stack| - 1]]
    ensures !Acyclic(tree)
  {
    var k :| 0 <= k < |stack| && stack[k] == id;
    var cycle := stack[k..] + [id];
    assert IsPath(tree, cycle) by {
      forall i | 0 <= i < |cycle| - 1
        ensures cycle[i + 1] in tree[cycle[i]]
      {
        if i < |cycle| - 2 {
          assert cycle[i] == stack[k + i] && cycle[i + 1] == stack[k + i + 1];
        }
      }
    }
    assert cycle[0] == cycle[|cycle| - 1];
  }

  /** Helper: appending a member whose dependencies are all in the output
      keeps dependencies first. */
  lemma AppendKeepsDepsBefore(tree: DepTree, s: seq<PackageId>, id: PackageId)
    requires id in tree && DepsBefore(tree, s)
    requires forall d :: d in tree[id] && d in tree ==> d in s
    ensures DepsBefore(tree, s + [id])
  {
    var s' := s + [id];
    forall j, d | 0 <= j < |s'| && s'[j] in tree && d in tree[s'[j]] && d in tree
      ensures d in s'[..j]
    {
      if j < |s| {
        assert s'[..j] == s[..j];
      } else {
        assert s'[..j] == s;
      }
    }
  }

  lemma {:induction false} VisitOrdered(tree: DepTree, id: PackageId, w: Walk, stack: seq<PackageId>)
    requires id in tree && Acyclic(tree)
    requires IsPath(tree, stack)
    requires |stack| > 0 ==> id in tree[stack[|stack| - 1]]
    requires OnStackOrDone(w, stack) && DepsBefore(tree, w.sorted)
    ensures id in Visit(tree, id, w).sorted
    ensures DepsBefore(tree, Visit(tree, id, w).sorted)
    decreases |tree.Keys - w.visited|, 0
  {
    if id in w.visited {
      if id in stack {
        OnStackMeansCycle(tree, id, stack);
        assert false;
      }
    } else {
      assert tree.Keys - (w.visited + {id}) == (tree.Keys - w.visited) - {id};
      var w0 := Walk(w.visited + {id}, w.sorted);
      var stack' := stack + [id];
      assert IsPath(tree, stack') by {
        assert forall k :: 0 <= k < |stack| ==> stack'[k] == stack[k];
      }
      VisitAllOrdered(tree, tree[id], w0, stack');
      var w1 := VisitAll(tree, tree[id], w0);
      AppendKeepsDepsBefore(tree, w1.sorted, id);
    }
  }

  lemma {:induction false} VisitAllOrdered(tree: DepTree, deps: seq<PackageId>, w: Walk, stack: seq<PackageId>)
    requires Acyclic(tree) && IsPath(tree, stack)
    requires |stack| > 0 ==> forall d :: d in deps && d in tree ==> d in tree[stack[|stack| - 1]]
    requires OnStackOrDone(w, stack) && DepsBefore(tree, w.sorted)
    ensures forall d :: d in deps && d in tree ==> d in VisitAll(tree, deps, w).sorted
    ensures DepsBefore(tree, VisitAll(tree, deps, w).sorted)
    decreases |tree.Keys - w.visited|, 1, |deps|
  {
    if |deps| > 0 {
      var w1 := if deps[0] in tree then Visit(tree, deps[0], w) else w;
      if deps[0] in tree {
        VisitOrdered(tree, deps[0], w, stack);
        VisitGrows(tree, deps[0], w);
        GrowsKeepsStack(tree, w, w1, stack);
      }
      SubsetDifferenceCard(tree.Keys, w.visited, w1.visited);
      VisitAllOrdered(tree, deps[1..], w1, stack);
      VisitAllGrows(tree, deps[1..], w1);
      var w2 := VisitAll(tree, deps[1..], w1);
      CoverDeps(tree, deps, w1.sorted, w2.sorted);
    }
  }

  /** Helper: the head covered by a prefix and the tail covered by the whole
      cover every dependency. */
  lemma CoverDeps(tree: DepTree, deps: seq<PackageId>, s1: seq<PackageId>, s2: seq<PackageId>)
    requires |deps| > 0 && (deps[0] in tree ==> deps[0] in s1)
    requires |s1| <= |s2| && s2[..|s1|] == s1
    requires forall d :: d in deps[1..] && d in tree ==> d in s2
    ensures forall d :: d in deps && d in tree ==> d in s2
  {
    assert s2 == s1 + s2[|s1|..];
    assert forall d :: d in deps ==> d == deps[0] || d in deps[1..];
  }

  /** The ordering theorem: when the member graph has no cycle, a member's
      in-workspace dependencies all come before it in the publish order. */
  lemma SortRespectsDependencies(meta: Metadata)
    requires SortWorkspace(meta).Ok?
    requires Acyclic(MemberTree(meta))
    ensures var s := SortWorkspace(meta).value;
      forall i, j :: 0 <= i < |s| && 0 <= j < |s| && s[j] in MemberTree(meta) && s[i] in MemberTree(meta)[s[j]]
        ==> i < j
  {
    var tree := MemberTree(meta);
    var start := Walk({}, []);
    VisitAllOrdered(tree, meta.workspaceMembers, start, []);
    var s := SortWorkspace(meta).value;
    assert s == VisitAll(tree, meta.workspaceMembers, start).sorted;
    forall i, j | 0 <= i < |s| && 0 <= j < |s| && s[j] in tree && s[i] in tree[s[j]]
      ensures i < j
    {
      assert s[i] in tree;
      assert s[i] in s[..j];
      var i' :| 0 <= i' < j && s[i'] == s[i];
    }
  }

  /** Dropping entries from a dependency-respecting order keeps it one. */
  lemma OrderSurvivesSubsequence(tree: DepTree, ids: seq<PackageId>, sorted: seq<PackageId>)
    requires IsSubsequence(ids, sorted)
    requires forall i, j ::
               0 <= i < |sorted| && 0 <= j < |sorted| && sorted[j] in tree && sorted[i] in tree[sorted[j]] ==> i < j
    ensures forall i, j ::
              0 <= i < |ids| && 0 <= j < |ids| && ids[j] in tree && ids[i] in tree[ids[j]] ==> i < j
  {
    forall i, j | 0 <= i < |ids| && 0 <= j < |ids| && ids[j] in tree && ids[i] in tree[ids[j]]
      ensures i < j
    {
      if j < i {
        SubsequenceKeepsOrder(ids, sorted, j, i);
      } else if i == j {
        SubsequenceContains(ids, sorted, i);
      }
    }
  }

  /** With a two-member cycle the walk still ends, emits both members once
      and reports nothing: the edge back to the member being walked is skipped. */
  lemma CycleIsSkipped(a: PackageId, b: PackageId)
    requires a != b
    ensures SortWorkspace(Metadata([], [a, b], Some([Node(a, [b]), Node(b, [a])]))) == Ok([b, a])
  {
    var nodes := [Node(a, [b]), Node(b, [a])];
    var meta := Metadata([], [a, b], Some(nodes));
    var tree := MemberTree(meta);
    assert BuildDepTree([a, b], nodes[1..][1..]) == map[];
    assert BuildDepTree([a, b], nodes[1..]) == map[b := [a]];
    assert tree == map[b := [a], a := [b]];
    var none: set<PackageId> := {};
    var both: set<PackageId> := {a, b};
    assert none + {a} == {a} && {a} + {b} == both;
    assert Visit(tree, a, Walk(both, [])) == Walk(both, []);
    assert VisitAll(tree, [a], Walk(both, [])) == Walk(both, []);
    assert Visit(tree, b, Walk({a}, [])) == Walk(both, [b]);
    assert VisitAll(tree, [b], Walk({a}, [])) == Walk(both, [b]);
    assert Visit(tree, a, Walk(none, [])) == Walk(both, [b, a]);
    assert VisitAll(tree, [b], Walk(both, [b, a])) == Walk(both, [b, a]);
    assert VisitAll(tree, [a, b], Walk(none, [])) == Walk(both, [b, a]);
  }
}
